=== FILE: README.md ===
# spells, modelled in Dafny

`spells` is a desktop browser for Dungeons & Dragons spells, written in Rust on the iced GUI
toolkit. It bundles the official spells (*static* spells, baked into the binary) and lets the
user write *custom* spells. Characters keep the spells they know, filed by level from cantrip
to ninth, with a prepared flag on each, and track their spell slots. The window has tabs:

- a search tab, which filters spells by name and by up to eight optional searchers, and then
  lists them sorted and capped;
- one tab per open character;
- a settings tab, where closed characters wait and custom spells are edited.

Every change to the characters is recorded, so that undo and redo can walk through the recorded
snapshots. Keyboard shortcuts move between tabs. The icons come from a generated icon font. The
custom button reacts to the left, right and middle mouse buttons. The program can download a
newer release of itself and install it.

This project models that domain as immutable datatypes and total functions, one module per
source file:

| module | file | what it holds |
|---|---|---|
| `Wrappers`, `Ints`, `Strings` | — | `Option`/`Result`, the integer widths and saturating or wrapping arithmetic the source uses, and string helpers (lowercasing, splitting, `usize` parsing, substring search) |
| `SpellData` | src/spells/data.rs | `Level`, `Class`, `School`, `CastingTime`, `Components` and `Source`, with their parsers and printers |
| `StaticArc` | src/spells/static_arc.rs | the static-or-shared handle `StArc` |
| `Spells` | src/spells/spell.rs | static and custom spells, their accessors, and `find_spell` |
| `Utils` | src/utils.rs | `try_remove`, `list_grammatically`, `tap_if`, `none` |
| `Sorting` | src/search.rs | the sort by name and the cap on the results |
| `Search`, `SearchPages` | src/search.rs | the searchers, the search options and the search page's `update` |
| `Settings` | src/settings.rs | the custom-spell editor's search and the new settings page |
| `Characters` | src/character.rs | slots, a character's spells, serialization and the character page's `update` |
| `App`, `Tabs`, `History` | src/main.rs, src/tabs.rs | the application's state, the `update` arms that manage characters, tabs and undo/redo |
| `Hotkeys`, `NewPages` | src/hotkey.rs, src/new.rs | the keyboard table and the new-character form |
| `Edits` | src/main.rs | the `EditSpell` arms that edit a custom spell |
| `Icons` | src/icon.rs | the icon table of the font |
| `ClickButtons` | src/click_button.rs | the three-button click state machine and its style selection |
| `Updates` | src/update.rs, src/main.rs | the update check, the download stream and the backup clean-up |

Some source behaviour is kept as written. Rust's debug-build overflow panics, `unwrap` on bad
data and out-of-range slicing are explicit panic outcomes. An `unreachable!` that the caller
rules out is a `requires`. The `Description` edit rewrites `\n` pairs in the description, but
it leaves the lowercased copy that the text searcher reads unchanged, as the source does.

Three places where the code departs from what it evidently means are listed under Findings.
For each, the as-written behaviour is what the rest of the model uses, and a separately named
corrected member carries the intended property: `Spells.Range` (the as-written getter is
`Spells.RangeAsWritten`), `Search.MatchesCorrected` with `Search.ReactionChoiceMatchesReactions`,
and `Search.ApplyOptions` with `Search.ApplyOptionsKeepsAdmission`,
`SearchPages.UpdatePageCorrected` and `SearchPages.UpdatePageCorrectedKeepsFresh`. Every other
member follows the code as written.

## Model

| member | source | states |
|---|---|---|
| SpellData.ClassOrdinal | src/spells/data.rs:12-23 | each of the nine classes has a distinct declaration position below 9, the basis of the derived order |
| SpellData.ClassOrdinalInjective | src/spells/data.rs:12-23 | two classes at the same declaration position are the same class |
| SpellData.SchoolOrdinal | src/spells/data.rs:55-65 | each of the eight schools has a declaration position below 8 |
| SpellData.SchoolOrdinalInjective | src/spells/data.rs:55-65 | two schools at the same position are the same school |
| SpellData.AsU8 | src/spells/data.rs:381-383 | a level's number is at most 9 and is 0 exactly for a cantrip |
| SpellData.FromU8 | src/spells/data.rs:373-379 | `from_u8(n)` is `Some` exactly when n ≤ 9, and then its number is n |
| SpellData.FromU8AsU8 | src/spells/data.rs:373-383 | `from_u8(as_u8(l))` gives back l |
| SpellData.AsU8Injective | src/spells/data.rs:381-383 | different levels have different numbers |
| SpellData.NextChecked | src/spells/data.rs:385-387 | `next_checked` is `None` only at level 9, else the level one higher |
| SpellData.NextSaturating | src/spells/data.rs:389-391 | the saturating successor stays at level 9 and otherwise goes one higher |
| SpellData.PrevChecked | src/spells/data.rs:393-396 | `prev_checked` is `None` only for a cantrip, else the level one lower |
| SpellData.PrevSaturating | src/spells/data.rs:398-400 | the saturating predecessor stays at cantrip and otherwise goes one lower |
| SpellData.NextPrevInverse | src/spells/data.rs:385-396 | stepping up then down, or down then up, returns to the same level away from the ends |
| SpellData.AddChecked | src/spells/data.rs:402-408 | offset +1 or -1 moves by that much and is `None` exactly past level 9 or below cantrip; other offsets are unreachable |
| SpellData.LevelDisplay | src/spells/data.rs:411-418 | a cantrip displays as "Cantrip" and any other level as its number |
| SpellData.LevelDeserialize | src/spells/data.rs:420-426 | a number deserializes exactly when it is ≤ 9, to the level with that number; otherwise the error carries the number |
| SpellData.LevelSerializeDeserialize | src/spells/data.rs:420-432 | serializing a level as its number and deserializing it gives the level back |
| SpellData.Index10 | src/spells/data.rs:434-440 | a ten-entry array indexed by a level yields the entry at the level's number |
| SpellData.Index9 | src/spells/data.rs:448-454 | a nine-entry array indexed by a non-cantrip level yields the entry at its number minus one |
| SpellData.GetLevel9 | src/spells/data.rs:478-481 | the checked lookup in a nine-entry array is `None` exactly for a cantrip and otherwise the indexed entry |
| SpellData.GetLevel10 | src/spells/data.rs:468-471 | the checked lookup in a ten-entry array always finds the indexed entry |
| SpellData.LevelAt | src/spells/data.rs:359-371 | each position below 10 of `Level::ALL` holds the level with that number |
| SpellData.SourceOrdinal | src/spells/data.rs:295-302 | each source has a position below 4 in `STRINGS` |
| SpellData.SourceSerialize | src/spells/data.rs:304-308 | a source writes one of the four fixed `STRINGS` |
| SpellData.SourceDeserialize | src/spells/data.rs:326-337 | a string parses exactly when it is one of the four names, and to the source that writes it; otherwise the error carries the string |
| SpellData.SourceRoundTrip | src/spells/data.rs:326-343 | parsing what a source serializes to gives the source back |
| SpellData.CastingTimeWord | src/spells/data.rs:125-126 | the word between the first space and the first comma is no longer than the input; it is `None` where that slice would have its bounds out of order |
| SpellData.CommaIndex | src/spells/data.rs:125 | the comma position, or the length when there is none, lies within the string |
| SpellData.GetNum | src/spells/data.rs:119-124 | the number is the parse of the text before the first space; with no space the error is "no number" |
| SpellData.FromStatic | src/spells/data.rs:117-142 | `from_static` panics exactly when the word slice is out of order; a reaction keeps the text after the comma, minus the phrase, as a `Static` string; minutes and hours carry the leading number |
| SpellData.FromStaticByWord | src/spells/data.rs:117-142 | for each word `from_static` knows the outcome: "Special", "Action" and "Bonus Action" give their variant; "Reaction" succeeds exactly when the text starts with the reaction phrase and otherwise reports it missing; "Minute(s)" and "Hour(s)" carry the number `get_num` reads or its error; any other word is reported as not a casting time |
| SpellData.Deserialize | src/spells/data.rs:174-200 | the deserializer panics in the same cases as `from_static`, and keeps any reaction phrase as an `Arc` |
| SpellData.WithArcPhrase | src/spells/data.rs:190-195 | moving a phrase into an `Arc` keeps the variant and leaves non-reactions untouched |
| SpellData.FromStaticVersusDeserialize | src/spells/data.rs:131-137 | where `from_static` succeeds the deserializer gives the same casting time with an `Arc` phrase; a reaction refused for its missing phrase becomes `Reaction(None)`; every other outcome is the same |
| SpellData.Serialize | src/spells/data.rs:203-223 | every casting time serializes to non-empty text |
| SpellData.Display | src/spells/data.rs:157-172 | the text is non-empty, and a minute or hour count ends in "s" exactly when it is not 1 |
| SpellData.DisplayIsSerialize | src/spells/data.rs:157-223 | `Display` and `Serialize` write the same text for every casting time |
| SpellData.QuantityIsSerialize | src/spells/data.rs:168-169 | the display of a minute or hour count equals its serialized text |
| SpellData.ReactionDisplayIsSerialize | src/spells/data.rs:163-167 | the display of a reaction equals its serialized text |
| SpellData.QuantityScan | src/spells/data.rs:118-126 | in "n unit" the first space follows the digits, the word is the unit, and `get_num` reads n back |
| SpellData.SerializeRoundTrip | src/spells/data.rs:174-223 | deserializing a serialized casting time gives it back with any phrase as an `Arc`; `from_static` agrees up to the phrase's variant, except that it refuses a reaction without a phrase |
| SpellData.ScanWordOnly | src/spells/data.rs:127-137 | "Special", "1 Action", "1 Bonus Action" parse back to their variant, and "1 Reaction" is refused for want of its phrase |
| SpellData.ScanReaction | src/spells/data.rs:131-133 | a reaction with a phrase serializes and parses back through `from_static` with the phrase kept as a `Static` string |
| SpellData.ScanQuantity | src/spells/data.rs:138-139 | a minute or hour count serializes and parses back through `from_static` unchanged |
| SpellData.FromStaticQuantity | src/spells/data.rs:138-139 | a number before the first space and the word Minute(s) or Hour(s) give that many minutes or hours |
| SpellData.ErasePhrase | src/spells/data.rs:144-154 | dropping the phrase keeps the variant, leaves no phrase, and leaves non-reactions untouched |
| SpellData.EqualsIgnoreReactionIsErasedEquality | src/spells/data.rs:144-154 | `equals_ignore_reaction` holds exactly when the two casting times are equal once phrases are dropped, and equality implies it |
| SpellData.CastingTimeKey | src/spells/data.rs:95-103 | the derived order's key is never empty |
| SpellData.CastingTimeKeyInjective | src/spells/data.rs:95-103 | different casting times have different keys, so ordering by key is the derived total order |
| SpellData.Vsm | src/spells/data.rs:256-268 | the three flags say exactly whether 'V', 'S' and 'M' occur in the text |
| SpellData.ComponentsDeserialize | src/spells/data.rs:252-287 | parsing either panics or succeeds; a material is read only between parentheses that occur, and no material means no 'M' in the trimmed text |
| SpellData.ComponentsParse | src/spells/data.rs:270-285 | the same guarantees for the text after trimming |
| SpellData.VsPart | src/spells/data.rs:235-243 | the "V, S" part has no parenthesis and no 'M', names V and S exactly when set, and has no surrounding whitespace |
| SpellData.ComponentsDisplayParts | src/spells/data.rs:232-250 | the display is the "V, S" part, followed, with a material, by a head ending in "M " and the parenthesised material |
| SpellData.MaterialHead | src/spells/data.rs:239-246 | the text before the material's '(' has no '(', contains 'M', and names V and S exactly when set |
| SpellData.DeserializeWithoutMaterial | src/spells/data.rs:274-278 | text without '(' panics if it names 'M', and otherwise gives the V and S flags and no material |
| SpellData.DeserializeWithMaterial | src/spells/data.rs:270-273 | head "(" material ")" gives the flags of the head and the material if the head names 'M', and panics otherwise |
| SpellData.MaterialSlices | src/spells/data.rs:270-273 | in head "(" material ")" the first '(' ends the head and the last ')' ends the text, so the slices are the head and the material |
| SpellData.ComponentsRoundTrip | src/spells/data.rs:232-293 | writing components and parsing the text back gives the same components |
| SpellData.ComponentsMismatchPanics | src/spells/data.rs:270-278 | an 'M' without parenthesised material, or material with no 'M' before it, ends in the `assert_eq!` panic |
| StaticArc.StArc.Deref | src/spells/static_arc.rs:14-23 | dereferencing yields the value the handle was built from, whichever variant it is |
| StaticArc.StArc.Clone | src/spells/static_arc.rs:25-32 | a clone keeps the variant and dereferences to the same value |
| StaticArc.StArc.Write | src/spells/static_arc.rs:59-81 | serializing or displaying a handle writes its contents, ignoring the variant |
| StaticArc.EqValue | src/spells/static_arc.rs:68-72 | comparing a handle with a plain value holds exactly when the handle, of either variant, holds that value |
| StaticArc.EqValueVersusDerived | src/spells/static_arc.rs:8-72 | equal handles compare equal to each other's value, while a static and an `Arc` handle of the same value both compare equal to it although the derived equality tells them apart |
| StaticArc.FromStatic | src/spells/static_arc.rs:34-38 | converting a static reference gives a `Static` handle to that value |
| StaticArc.FromArc | src/spells/static_arc.rs:40-50 | converting an `Arc` or a reference to one gives an `Arc` handle to that value |
| StaticArc.Deserialize | src/spells/static_arc.rs:52-57 | deserializing fails exactly when the inner deserializer fails, with its error, and otherwise always yields an `Arc` holding its value |
| StaticArc.SerializeDeserialize | src/spells/static_arc.rs:8-66 | reading back what a handle wrote gives an `Arc` with the same contents, so a `Static` handle is not equal to its round trip under the derived equality |
| Spells.SpellEqEquivalence | src/spells/spell.rs:94-148 | the equality on spells (derived for `Spell`, name-only for custom spells) is reflexive, symmetric and transitive |
| Spells.CustomEqIgnoresContents | src/spells/spell.rs:94-98 | two custom spells with the same name are equal whatever their level or description |
| Spells.NewCustomSpell | src/spells/spell.rs:100-123 | a new custom spell has the given name and its lowercase form, is an abjuration cantrip cast as an action, and has every optional field empty, no classes and no flags set |
| Spells.StaticId | src/spells/spell.rs:134-142 | a bundled spell's id has a `Static` name equal to the spell's and the spell's level |
| Spells.CustomId | src/spells/spell.rs:125-131 | a custom spell's id has an `Arc` name equal to the spell's and the spell's level |
| Spells.CustomIdOfEqual | src/spells/spell.rs:94-131 | two custom spells equal by name have equal ids exactly when their levels agree |
| Spells.Id | src/spells/spell.rs:171-175 | a spell's id carries the spell's level and a name with the spell's name as contents |
| Spells.Name | src/spells/spell.rs:202-210 | the name handle is `Static` exactly for a bundled spell |
| Spells.ComponentsOf | src/spells/spell.rs:257-262 | a bundled spell always reports its components; a custom one reports its optional components |
| Spells.Duration | src/spells/spell.rs:264-269 | a bundled spell always reports its duration; a custom one its optional duration |
| Spells.RangeAsWritten | src/spells/spell.rs:250-255 | as written, `range` returns the duration for both kinds of spell |
| Spells.Range | src/spells/spell.rs:250-255 | the corrected `range` reports the range field: always present for a bundled spell, optional for a custom one |
| Spells.RangeAsWrittenShowsDuration | src/spells/spell.rs:250-269 | for any bundled spell whose range and duration differ, the range as written is the duration and differs from the true range |
| Spells.RangeAsWrittenCounterexample | src/spells/spell.rs:250-255 | for a bundled spell with range "Self (30-foot cone)" and duration "Concentration, up to 1 minute", the range as written shows the duration |
| Spells.SourceOf | src/spells/spell.rs:271-278 | a custom spell's source is always `Custom`; a bundled spell reports its own |
| Spells.Page | src/spells/spell.rs:280-287 | the page is absent exactly for a custom spell; a bundled spell reports its own |
| Spells.TryFromDeserialize | src/spells/spell.rs:36-70 | conversion panics or fails exactly when parsing the casting time does, passing its error on; on success every field is copied, the name, description and higher-levels text are lowered, and the casting time is the parsed one |
| Spells.FindSpell | src/spells/spell.rs:365-383 | the result is `None` exactly when no bundled spell matches by name (or by the one renamed name) and no custom spell has exactly the name; a bundled match always wins, and a custom result is a listed custom spell with that name |
| Spells.EnemiesAboundResolves | src/spells/spell.rs:368-377 | the old name "Enemies abound" finds a bundled spell named "Enemies Abound" (or "Enemies abound") whenever the renamed spell is listed, whatever the custom spells |
| Spells.FindSpellStatic | src/spells/spell.rs:376-378 | when some bundled spell matches the name, the result is the first bundled spell that does, as `iter().find` returns it |
| Spells.FindSpellCustom | src/spells/spell.rs:376-383 | when no bundled spell matches, the result is the first custom spell with exactly that name |
| Utils.TryRemove | src/utils.rs:60-68 | removal succeeds exactly for an index inside the vector, returns the element there and shifts the later ones down by one; an index past the end leaves the vector alone |
| Utils.TryRemoveReinsert | src/utils.rs:60-68 | inserting the removed element back at its index restores the original vector |
| Utils.ListGrammatically | src/utils.rs:70-91 | no items give the empty string and a single item gives that item |
| Utils.FoldListIsJoin | src/utils.rs:74-89 | up to the last item the fold is the items joined with ", " |
| Utils.ListGrammaticallyIsEnglish | src/utils.rs:70-91 | the fold yields the English list: "a", "a and b", "a, b, and c" and so on |
| Utils.TapIf | src/utils.rs:100-106 | the function is applied exactly when the condition holds |
| Utils.TapIfSome | src/utils.rs:108-114 | the function is applied to the payload exactly when there is one |
| Utils.AnyIffExists | src/utils.rs:123-127 | the short-circuiting `any` holds exactly when some element satisfies the predicate |
| Utils.NoneIffNoElement | src/utils.rs:123-127 | `none` holds exactly when no element satisfies the predicate |
| Strings.ParseUsize | src/spells/data.rs:121-123 | `str::parse::<usize>` succeeds only on decimal digits with at most a leading '+'; a run of digits, with or without one leading '+', parses to its value when that is below 2^64 and fails otherwise |
| Strings.ParseUsizeNatToString | src/spells/data.rs:119-123 | parsing the decimal text of a `usize` gives the number back |
| Search.ModeDisplay | src/search.rs:118-132 | every mode displays as a non-empty name |
| Search.ModesComplete | src/search.rs:89-132 | `Mode::ALL` offers every mode, no two of them display alike, and none displays as the "Advanced Search" title |
| Search.PLUnwrap | src/search.rs:54-61 | unwrapping panics exactly on the title value and otherwise yields the payload |
| Search.PLFromOption | src/search.rs:63-70 | converting an `Option` and unwrapping gives the option back |
| Search.PLDisplay | src/search.rs:72-79 | the title value displays as its type's title and a payload as itself |
| Search.PickListLevelUnwrap | src/search.rs:151-162 | unwrapping a level entry panics exactly on `u8::MAX` and otherwise yields its number |
| Search.PickListLevelDisplay | src/search.rs:164-171 | levels 0 through 9 display as their single digit and anything else as "Level" |
| Search.PickListLevelsUnwrap | src/search.rs:137-171 | each entry of `PickListLevel::ALL` unwraps to its own position and displays as that digit |
| Search.Offered | src/search.rs:296-298 | a pick list offers exactly the entries of the full list not already selected |
| Search.OfferedReactionHasNoPhrase | src/search.rs:370-384 | the only reaction the casting-time pick list can offer is `Reaction(None)` |
| Search.TextMatchesIff | src/search.rs:501-510 | the text searcher matches exactly when some `|`-separated alternative is in the lowercased description or higher-levels text |
| Search.TrailingBarMatchesAll | src/search.rs:501-510 | a search text ending in `|` has an empty alternative and so matches every spell |
| Search.EmptySearcherMatches | src/search.rs:281-542 | an empty text searcher matches every spell, and every other searcher with an empty selection matches none |
| Search.ReactionSearchAsWritten | src/search.rs:360-362 | with the derived equality the code uses, a bundled reaction spell with a trigger phrase does not match the picked `Reaction(None)`; `Search.MatchesCorrected`, which compares with `equals_ignore_reaction`, matches it |
| Search.ReactionChoiceMatchesReactions | src/search.rs:360-362 | corrected reading only (Findings): with `equals_ignore_reaction`, picking "Reaction" matches exactly the spells cast as a reaction |
| Search.MatchesAgreeOffReaction | src/search.rs:280-542 | whatever the matching as written accepts the corrected matching accepts too, and the two agree for every searcher other than casting time and for a spell not cast as a reaction |
| Search.ToggleMode | src/search.rs:583-588 | an enabled searcher is switched off and a disabled one is switched on with its default |
| Search.ToggleModeTwice | src/search.rs:583-588 | toggling twice turns an off searcher off again and an on searcher into its default |
| Search.PassesAllConstrain | src/search.rs:607-610 | dropping the empty searchers and requiring every remaining one to match is the same as requiring each one to be empty or to match |
| Search.AllConstrainByField | src/search.rs:598-610 | the searcher list holds exactly when each of the eight options is off, empty or matching |
| Search.SearchersOfNone | src/search.rs:598-608 | with every option off the searcher list is empty |
| Search.AdmitsIff | src/search.rs:598-610 | the first filter of `search`, with each searcher's `matches` as written (the derived `==` for casting time), admits a spell exactly when each enabled searcher has an empty selection or matches it |
| Search.CheckBoxesConstrain | src/search.rs:437-473 | an enabled ritual or concentration check-box is never empty, so an admitted spell has exactly the checked value |
| Search.NoSearchersAdmitAll | src/search.rs:598-610 | with no searcher enabled every spell is admitted |
| Search.Toggle | src/search.rs:732-739 | a selected entry is removed, leaving the other entries; an absent entry is added and the selection re-sorted |
| Search.ToggleSorted | src/search.rs:732-739 | toggling keeps a sorted selection sorted |
| Search.ToggleMembership | src/search.rs:732-739 | toggling flips the entry's membership, keeps every other value's, and creates no duplicate |
| Search.AllSpells | src/search.rs:592-597 | the spells searched are every bundled spell, in order, followed by every custom spell |
| Search.NameKey | src/search.rs:612 | the sort key on `Spell::name` puts every bundled name ahead of every custom one |
| Search.Candidates | src/search.rs:598-611 | the two filters, matching as written, keep exactly the admitted spells whose lowercased name contains the needle, each taken from the spells on offer |
| Search.SearchSpellsSameAdmission | src/search.rs:590-617 | options with the same needle that admit the same spells give the same results |
| Search.SearchSpells | src/search.rs:590-617 | `search` never returns more than 100 spells |
| Search.SearchSpellsSound | src/search.rs:590-617 | `search` as written returns at most 100 wanted spells, sorted by name, drawn without repetition from the spells on offer |
| Search.SearchSpellsComplete | src/search.rs:610-616 | with the matching as written, a wanted spell is missing from the results only when they are full at 100, and then every result sorts no later than it |
| Search.ApplyOptionsAsWritten | src/search.rs:741-816 | as written: a needle is lowered and re-searched; a reset turns every searcher off and re-searches; picking a mode re-searches only for ritual; a pick or toggle re-searches exactly when its searcher is on, and otherwise changes nothing; refresh and collapse leave the options alone |
| Search.PickModeToggles | src/search.rs:750-761 | picking any of the eight modes toggles that one searcher, switching it on with its default, and changes no other option |
| Search.ResetModesAdmitsAll | src/search.rs:765-775 | after a reset every spell is admitted |
| Search.PickLevelToggles | src/search.rs:776-778 | a picked level joins the selection exactly when it was absent, and the selection stays sorted and without duplicates |
| Search.PickConcentrationAsWritten | src/search.rs:750-764 | as written, switching concentration on skips the search, so a listed concentration spell stays listed although the options no longer admit it |
| Search.PickLevelOffAsWritten | src/search.rs:750-764 | as written, switching off a level search that had a selection skips the search, so a cantrip the options now admit stays hidden |
| Search.ApplyOptions | src/search.rs:741-819 | the corrected update changes the options as written but re-searches when picking a mode for ritual or concentration or when it switches a searcher off |
| Search.ApplyOptionsKeepsAdmission | src/search.rs:741-819 | an update of the corrected version that skips the search changes neither the needle nor which spells the options admit |
| Search.AsWrittenKeepsAdmission | src/search.rs:741-819 | an update as written that skips the search keeps the needle and the admitted spells, unless it is a mode pick `Search.SkipsNeededSearch` names |
| Sorting.SortBy | src/search.rs:612 | sorting by a key returns a permutation of its input, ordered by the key |
| Sorting.Take | src/search.rs:615 | `take(n)` keeps the first `min(n, len)` elements in order |
| Sorting.TakeKeepsTest | src/search.rs:615 | `take(n)` keeps only elements of its input, so a test every input element passes holds for every result |
| SearchPages.ToListed | src/search.rs:711-728 | a listed spell starts with no collapse override and has one button per character, named after that character and active exactly when the character does not know the spell on any level |
| SearchPages.KnowsAny | src/search.rs:715-717 | the scan over every level of a character's spells finds the spell exactly when the character knows it |
| SearchPages.Listing | src/search.rs:590-728 | the page lists, in order, one entry per spell `search` returns, so never more than 100 |
| SearchPages.ListAll | src/search.rs:614 | every spell found is wrapped, in order |
| SearchPages.ClearOverrides | src/search.rs:800-804 | collapsing all drops every listed spell's override and changes nothing else |
| SearchPages.CollapseOne | src/search.rs:805-815 | only the first listed spell with the id changes: its override flips, or becomes the opposite of the page-wide setting when it had none |
| SearchPages.UpdatePage | src/search.rs:731-820 | as written, the page takes the updated options; collapse-all flips the page-wide setting and clears overrides; a refresh, or an options step asking for a search (for a mode pick, only ritual), lists a new search; every other message keeps the list |
| SearchPages.UpdatePageCorrected | src/search.rs:731-820 | corrected reading only (Findings): the same update with the corrected options step, which lists a new search whenever that step asks for one, and equals the update as written for every message `Search.SkipsNeededSearch` does not name |
| SearchPages.UpdatePageKeepsFresh | src/search.rs:731-820 | if the listed spells are what the options find, they still are after any message except a mode pick `Search.SkipsNeededSearch` names |
| SearchPages.UpdatePageCorrectedKeepsFresh | src/search.rs:731-820 | corrected reading only (Findings): with the corrected options step a fresh page stays fresh after every message |
| SearchPages.PickConcentrationStale | src/search.rs:750-764 | as written, switching concentration on while a concentration spell is listed leaves a page whose list is no longer what its options find |
| SearchPages.UpdateWithKeepsFresh | src/search.rs:731-820 | whatever options step is used, a fresh page stays fresh when the step that asks for no search keeps the needle and the admitted spells |
| SearchPages.ListingFresh | src/search.rs:817-819 | a page that has just searched is fresh |
| SearchPages.SameSpellsFresh | src/search.rs:800-815 | changing only the collapse overrides keeps a fresh page fresh |
| SearchPages.KeptSpellsFresh | src/search.rs:741-816 | new options with the same needle that admit the same spells keep a fresh page fresh |
| Settings.SearchingEditor | src/settings.rs:99-112 | the editor lists at most 20 copies of custom spells whose lowercased name contains the needle, sorted by that name |
| Settings.SearchingEditorComplete | src/settings.rs:100-109 | a matching custom spell is left out only when the list is full at 20, and then every listed spell sorts no later than it |
| Settings.SearchingEmptyNeedle | src/settings.rs:100-109 | the empty needle lists as many custom spells as fit, up to 20 |
| Settings.NewSettingsPage | src/settings.rs:74-87 | a new settings page has empty name fields and an editor searching for the empty needle |
| Characters.Delta | src/character.rs:34-39 | horizontal moves, and every move on the "all" tab, shift by one place; vertical moves on a level tab shift by a whole row of columns |
| Characters.ChangeTotal | src/character.rs:274-281 | the slot total moves by the delta and is clamped between 0 and the level's maximum from `MAX_BY_LEVEL`; the spent count is clamped to the new total |
| Characters.Cast | src/character.rs:282-287 | casting moves the spent count by the delta, clamped between 0 and the unchanged total |
| Characters.CastThenRegain | src/character.rs:282-287 | casting one slot and regaining it restores the slots when a slot was left |
| Characters.Resolve | src/character.rs:82-87 | the entries are, in order, exactly the saved names that `find_spell` resolves, each replaced by the spell found and keeping its prepared flag; none survive when no name is found |
| Characters.ResolvedCons | src/character.rs:82-87 | a name that resolves, put in front of the resolved rest, adds its spell and flag in front of the entries |
| Characters.OfLevel | src/character.rs:88 | selecting the entries of a level yields only entries of that level |
| Characters.DistributeAppends | src/character.rs:88 | pushing entries one by one onto their levels appends to each level exactly that level's entries, in order |
| Characters.DistributeFresh | src/character.rs:81-88 | filing entries into empty lists gives each level its entries, in order, so every spell is on its own level |
| Characters.FromSerialized | src/character.rs:80-98 | a loaded character keeps the saved name, files the spells that still resolve by level in save order, and takes the saved slots or empty slots for an old file |
| Characters.Names | src/character.rs:103-105 | the save file lists each entry's name and prepared flag, in order |
| Characters.Serialize | src/character.rs:100-109 | saving writes the name, every spell level by level by name, and all nine slot pairs |
| Characters.SerializeRoundTrip | src/character.rs:80-109 | saving and loading a character whose spells are filed by level and all found again gives back the same character |
| Characters.ResolveNames | src/character.rs:82-87 | resolving the names of entries that are all found again gives back the entries |
| Characters.OfLevelConcat | src/character.rs:88 | selecting a level distributes over concatenation |
| Characters.OfLevelFlatten | src/character.rs:103-105 | selecting a level from the flattened per-level lists gives back that level's list |
| Characters.Hits | src/character.rs:182-191 | a level's results are, in increasing order, exactly the positions whose spell the options admit and whose lowercased name contains the needle |
| Characters.Hit | src/character.rs:182-191 | searching with the options' own needle, a spell is a hit exactly when `search` would want it: the options admit it and its lowercased name contains the needle |
| Characters.FirstId | src/character.rs:141-144 | there is no first spell exactly when every level is empty |
| Characters.FirstIdIsFirstSpell | src/character.rs:141-144 | the first spell is the head of the lowest level with spells |
| Characters.FromCharacter | src/character.rs:137-155 | a new page lists every spell, shows the first one, starts on the "all" tab with default options, and collapses unprepared spells but not all spells |
| Characters.FromCharacterConsistent | src/character.rs:137-155 | a new page's results are what its search gives |
| Characters.NewCharacterPage | src/character.rs:131-135 | a page for a new name has no spells, empty slots, no spell on view and the "all" tab, and is consistent |
| Characters.NonEmptyLevels | src/character.rs:162-165 | the tabs after "all" are levels with spells, in increasing order |
| Characters.NonEmptyLevelsComplete | src/character.rs:162-165 | every level with spells has a tab |
| Characters.TabIndex | src/character.rs:159-171 | the "all" tab has index 0; a level tab panics exactly when its level has no spells and otherwise has one past its rank among the levels with spells |
| Characters.TabIndexInjective | src/character.rs:159-171 | two level tabs of the same character with the same index are the same tab |
| Characters.WithSpell | src/character.rs:173-178 | adding pushes the spell, prepared, onto its level unless an equal spell is already there, and changes nothing else |
| Characters.WithSpellIdempotent | src/character.rs:173-178 | adding a spell twice is adding it once |
| Characters.WithSpellFiled | src/character.rs:173-178 | after adding, an equal spell is on its level and every spell stays on its own level |
| Characters.WithSpellUnique | src/character.rs:173-178 | adding never puts two equal spells on one level |
| Characters.Research | src/character.rs:180-203 | searching relists every level's hits and changes nothing else; on the "all" tab a single hit becomes the spell on view, otherwise the view is kept |
| Characters.SearchResults | src/character.rs:182-191 | each level's results are exactly its hits, in order |
| Characters.OnlyHit | src/character.rs:196-200 | the spell picked for a single result is a hit on some level |
| Characters.Position | src/character.rs:218-219 | the position found is the first spell on the level with that name, and none means no spell has it |
| Characters.Prepared | src/character.rs:216-224 | preparing flips only the flag of the first spell with that name on the id's level, and reports whether there was one |
| Characters.PrepareTwice | src/character.rs:216-224 | preparing the same spell twice restores the page |
| Characters.AllPrepared | src/character.rs:225-230 | preparing all sets every spell's flag and keeps the spells |
| Characters.Refiled | src/character.rs:180-203 | replacing a level and searching again keeps the name, slots, tab and options, and makes the results consistent |
| Characters.Removed | src/character.rs:241-250 | removing drops the first spell of that name from the id's level and searches again, reports whether there was one, and otherwise leaves the page alone |
| Characters.MoveTarget | src/character.rs:256-261 | a move towards the front subtracts the delta saturating at 0, and one towards the back adds it, capped at the last place |
| Characters.MoveTargetBack | src/character.rs:256-261 | on the "all" tab a move left then right, or right then left, returns to the same place away from the ends |
| Characters.Moved | src/character.rs:251-266 | moving swaps the first spell of that name with the target place and searches again, reports whether there was one, and otherwise leaves the page alone |
| Characters.Update | src/character.rs:206-299 | an update panics exactly for adding a spell that is not found or for changing cantrip slots; it asks for a save exactly for preparing all, adding, the slot messages, and for prepare, remove and move when the spell is known; it keeps the name, sets the tab only on a tab message, keeps valid slots valid, and touches only the slot level named |
| Characters.SpellsStep | src/character.rs:216-266 | the five spell messages keep the name, slots and tab, panic only for a spell that is not found, and ask for a save exactly when the spell was known, or for preparing all and adding |
| Characters.Queried | src/character.rs:267-273 | a search message sets the options to the options half of `SearchPage::update` as written, changes nothing else but the results and the spell on view, and changes only the options when no search is asked for |
| Characters.SlotsStep | src/character.rs:274-293 | the slot messages change only the slots, always ask for a save, reset spends none, and the others touch only the named level |
| Characters.UpdateKeepsConsistent | src/character.rs:206-299 | after every message, except a search message whose mode pick `Search.SkipsNeededSearch` names, the results on screen are what the page's search gives |
| Characters.QueryKeepsConsistent | src/character.rs:267-273 | a search message, other than a mode pick `Search.SkipsNeededSearch` names, keeps the results on screen what the page's search gives |
| Characters.PrepareKeepsConsistent | src/character.rs:216-224 | flipping one spell's prepared flag keeps the results on screen what the page's search gives |
| Characters.PrepareAllKeepsConsistent | src/character.rs:225-230 | setting every prepared flag keeps the results on screen what the page's search gives |
| Characters.RemovedKeeps | src/character.rs:241-250 | removing keeps every spell on its own level and no two equal spells on a level |
| Characters.MovedKeeps | src/character.rs:251-266 | moving keeps every spell on its own level and no two equal spells on a level |
| Characters.UpdateSpellsFrame | src/character.rs:206-299 | only the five spell messages change the spells |
| Characters.UpdateKeepsFiled | src/character.rs:206-299 | every message keeps each spell on the list of its own level and no two equal spells on a list |
| App.Sheets | src/main.rs:283-285 | the characters of the open pages, in order |
| App.SerializeAll | src/main.rs:283-288 | each character serialized, in order |
| App.DeserializeAll | src/main.rs:295-302 | each saved character loaded, in order |
| App.Pages | src/main.rs:295-298 | a fresh page for each character, in order |
| App.SaveState | src/main.rs:278-290 | saving clears the redo cursor, drops the snapshots after the current one, and appends a snapshot of the open and closed characters, changing nothing else |
| App.LoadState | src/main.rs:292-303 | loading panics exactly for an index past the history; otherwise the open and closed characters become the snapshot's, each open one a new page built by `CharacterPage::from` from its character, and nothing else changes |
| App.LoadStateConsistent | src/main.rs:292-303 | every page a load opens shows the results its own search gives |
| App.RoundTripAll | src/main.rs:283-302 | loading a list of characters that was just saved gives the same characters when each is filed by level and found again |
| App.LoadSaved | src/main.rs:278-303 | loading the snapshot just recorded gives back the open and closed characters |
| App.Undo | src/main.rs:812-825 | undo moves the history back one step, keeps the tab and the name field, and reloads the snapshot at the new cursor only when the cursor moved |
| App.Redo | src/main.rs:826-837 | redo does nothing without a cursor, otherwise moves the history forwards one step and reloads the snapshot only when the cursor moved |
| App.UndoRedoAfterSave | src/main.rs:278-303 | after a saved change, undo then redo brings the changed characters back |
| App.AddCharacter | src/main.rs:252-257 | the page goes last, its tab is opened, and the change is recorded |
| App.CloseCharacter | src/main.rs:265-276 | closing panics for an index past the list; otherwise the character leaves the open list for the front of the closed list, a character tab past the end moves to the last one, and the change is recorded |
| App.CharacterTarget | src/main.rs:665-670 | the target is the index moved by the delta, clamped to the list |
| App.MoveCharacter | src/main.rs:665-673 | moving panics for an index past the list or an overflowing sum; otherwise it swaps with the clamped target, opens its tab, keeps the same characters, and records the change |
| App.MoveCharacterBack | src/main.rs:665-673 | moving a character and moving it back by the same distance restores the order when the first move did not stop at an end |
| App.AnyNamed | src/main.rs:481 | the scan finds a name exactly when an open character has it |
| App.SubmitCharacter | src/main.rs:478-488 | a non-empty name no open character has becomes a new character on its own tab and the field is cleared; any other name changes nothing; open names stay distinct |
| App.AppendDistinct | src/main.rs:481-483 | adding a page whose name is unused keeps open names distinct |
| App.Select | src/main.rs:947-953 | selecting a position changes only the tab, which then has that index and is valid when the position is at most the settings position |
| App.GoToCharacter | src/main.rs:681-692 | the hotkey panics exactly for 0 with no characters; otherwise only the tab changes, to a character tab, valid when the digit is at most the number of characters |
| App.MoveTabOnly | src/main.rs:721-750 | the tab-only move changes only the tab, lands on a valid tab, and steps one place along the cycle of search, characters and settings |
| App.TabCount | src/main.rs:752-756 | every character has at least its "all" tab |
| App.LevelsWithSpellsCount | src/main.rs:752-756 | the count of levels with spells is the number of level tabs |
| App.Counts | src/main.rs:752-756 | one tab count per character, in order |
| App.FlatPosition | src/main.rs:759-768 | the search tab is at 0 and settings last; a character tab panics exactly for an index past the characters or a level tab without spells, and otherwise lies strictly between |
| App.Locate | src/main.rs:785-793 | the loop stops at a character and a place within its tabs that add up to the position |
| App.LocateUnique | src/main.rs:785-793 | the loop finds the character a position was counted from |
| App.LevelTab | src/main.rs:794-806 | place 0 is the "all" tab and every other place a level tab |
| App.LevelTabIndex | src/main.rs:794-806 | the level tab chosen for a place has that place as its tab index |
| App.Place | src/main.rs:779-809 | placing a position changes only the tabs and lands on a valid tab |
| App.PlacePosition | src/main.rs:759-809 | placing a position lands on that same position with as many tabs as before |
| App.SetLevelTab | src/main.rs:793-806 | the chosen character is on show with its level tab set, and every other character is unchanged |
| App.SetLevelTabPosition | src/main.rs:759-768 | the position of a character's level tab is one past the previous characters' tabs plus its place |
| App.CountsOfTabs | src/main.rs:752-756 | changing only level tabs keeps every tab count |
| App.FlatAt | src/main.rs:761-766 | a character's level tab sits at one past the previous characters' tabs plus its tab index |
| App.PlaceAt | src/main.rs:785-806 | placing the position of a character's level tab selects that character and level tab |
| App.LevelTabOfTab | src/main.rs:794-806 | the level tab at a page's own tab index is the page's tab |
| App.PlaceFlatPosition | src/main.rs:759-809 | placing the current position gives back the same state |
| App.PlaceFlatCharacter | src/main.rs:759-809 | placing the current position of a character tab gives back the same state |
| App.MoveAcross | src/main.rs:751-810 | the full move panics exactly when the current position does, and otherwise changes only the tabs and lands on a valid tab |
| App.MoveAcrossCycles | src/main.rs:751-810 | the full move steps exactly one position along the cycle of every tab, wrapping at both ends |
| Tabs.Index | src/tabs.rs:9-15 | an existing tab's index is at most one past the characters, settings alone sits there, and a character tab is never at 0 |
| Tabs.SelectTab | src/main.rs:947-953 | the tab selected for a position has that position as its index, and exists whenever the position is in the bar |
| Tabs.SelectIndex | src/main.rs:947-953 | selecting a tab's own index gives the tab back exactly when it is not the character tab one past the last, which shares settings' index |
| Tabs.IndexInjective | src/tabs.rs:9-15 | distinct existing tabs have distinct indices |
| Tabs.MoveTab | src/main.rs:721-750 | the tab-only move always lands on an existing tab, one step along the cycle of tabs |
| Tabs.Step | src/main.rs:732-738 | left of 0 wraps to the last position and right of the last wraps to 0, a step of one around the cycle |
| Tabs.CyclicStep | src/main.rs:769-778 | a step forwards or backwards on the cycle of positions is a step of one modulo its length |
| Tabs.MoveTabBack | src/main.rs:721-750 | a tab-only move left undoes one right and the other way round |
| Tabs.MoveTabWraps | src/main.rs:721-750 | left of search is settings and right of settings is search |
| Tabs.ToCharacter | src/main.rs:681-692 | key d opens character d and 0 opens the last one; 0 with no characters is the overflow panic |
| Hotkeys.DigitOf | src/hotkey.rs:36-45 | a number-row key stands for a digit below 10 |
| Hotkeys.Handle | src/hotkey.rs:25-96 | only key presses with no modifier, control, shift, control-alt or control-shift yield a message; control-digit d opens character d, control-0 included; a bare digit d selects level tab d+1, grave tab 1 and A the "all" tab; control-alt 1 to 7 add to characters 0 to 6; tab and enter go to the next field, backwards with shift; each move comes from exactly one binding |
| NewPages.Update | src/new.rs:31-49 | editing sets the field and hands out nothing; submitting hands out the name and clears the field exactly when it is not empty and no open character has it, and otherwise keeps the page |
| NewPages.AnyNamed | src/new.rs:39 | the scan finds a name exactly when an open character has it |
| NewPages.SubmitOnce | src/new.rs:31-49 | a name handed out cannot be handed out again once its character is open, even when typed again |
| History.Save | src/main.rs:278-290 | recording drops the snapshots after the one on show, appends the new one as the latest, and clears the cursor |
| History.Undo | src/main.rs:812-825 | undo moves the cursor one snapshot back, stopping at the first, from the latest when there was no cursor, and asks for a load exactly when the cursor changed |
| History.Redo | src/main.rs:826-837 | redo does nothing without a cursor, otherwise moves one snapshot forwards, stopping at the latest, and asks for a load exactly when it moved |
| History.UndoThenRedo | src/main.rs:812-837 | redo takes back an undo that moved |
| History.SaveThenUndo | src/main.rs:278-290 | after a change is recorded, undo shows the snapshot on show before it and redo shows the change again |
| Edits.Nullify | src/main.rs:559 | an empty text gives no value and any other text is kept |
| Edits.EscapeAtOccurs | src/main.rs:597-598 | the substring test for the two-character needle is a backslash followed by an `n` |
| Edits.UnescapePrefix | src/main.rs:596-603 | text before the first escape pair is left as it is by the rewrite |
| Edits.UnescapeNoEscape | src/main.rs:596-603 | text without an escape pair is left as it is |
| Edits.ReplacedPrefixClean | src/main.rs:598-599 | replacing the first pair by a line break creates no new pair before it |
| Edits.ReplaceFirstEscape | src/main.rs:598-599 | the pair found lies inside the text, and replacing it by a line break leaves the left-to-right rewrite of the whole text unchanged |
| Edits.RewriteNewlines | src/main.rs:595-605 | the loop ends with the left-to-right rewrite of its input, every backslash-`n` pair turned into a line break, and no pair left |
| Edits.UnescapeHead | src/main.rs:596-603 | the rewrite starts with a line break for a leading pair and otherwise with the first character |
| Edits.UnescapeClean | src/main.rs:596-603 | no escape pair survives the rewrite |
| Edits.UnescapeIdempotent | src/main.rs:596-603 | rewriting twice is rewriting once |
| Edits.ToggledClasses | src/main.rs:613-619 | a missing class is appended and a present one is removed once |
| Edits.ToggleFlips | src/main.rs:613-619 | on a list without duplicates the class edit flips that class's membership, keeps every other class's, and creates no duplicate |
| Edits.ToggleTwice | src/main.rs:613-619 | toggling a missing class twice gives the list back |
| Edits.ApplyEdit | src/main.rs:556-626 | each of the sixteen edits changes only the field it names, never the name, the lowercase copies or the page, and sets that field as its arm does: the payload for school, level, casting time, ritual and concentration; the `nullify`d text for range, duration and higher levels; the parsed count or the new trigger phrase for the casting time; the one component part; the rewritten description; the toggled classes |
| Edits.EditFlag | src/main.rs:561-593 | the school, level, ritual and concentration edits store their payload and change no other field |
| Edits.EditCastingTime | src/main.rs:563-573 | the three casting-time edits change only the casting time: to the payload, to the parsed count, or to a reaction with the new trigger phrase when the spell is cast as a reaction |
| Edits.EditComponents | src/main.rs:575-590 | the four component edits change only the components, to the set `Edits.ComponentsWith` describes |
| Edits.EditText | src/main.rs:574-612 | the range, duration and higher-levels edits store their `nullify`d text and change no other field |
| Edits.EditProse | src/main.rs:594-619 | the description edit stores the rewritten text and the class edit the toggled classes, changing no other field |
| Edits.CastingTimeN | src/main.rs:564-571 | a count that parses replaces the count of a minute or hour casting time; anything else leaves the casting time alone |
| Edits.ComponentsWith | src/main.rs:576-591 | with components present only the named part changes; without them a new set holds just that part, whatever the flag says |
| Edits.SaveCustom | src/main.rs:627-632 | the edited spell is saved, overwriting at most one entry or adding one |
| Edits.SaveCustomKeeps | src/main.rs:627-632 | an entry is added exactly when no saved spell has the name; spells of other names are kept, and nothing but the edited spell is new |
| Edits.SaveCustomDistinct | src/main.rs:627-632 | saving keeps custom spell names distinct, and the edited spell is then the only one under its name |
| Icons.Ordinal | src/icon.rs:5-45 | each icon has a position below 19 in the generator's list |
| Icons.OrdinalInjective | src/icon.rs:5-45 | different icons have different positions |
| Icons.IconToChar | src/icon.rs:49-71 | each icon's character is code point 0x61 plus its position, a letter from 'a' to 's' |
| Icons.IconToCharInjective | src/icon.rs:49-71 | no two icons share a character |
| Icons.IconToCharOnto | resources/font-maker/create_font.py:13-15 | every letter from 'a' to 's' is some icon's character |
| Icons.Display | src/icon.rs:73-78 | an icon displays as exactly its one character |
| ClickButtons.SetPressed | src/click_button.rs:290-299 | writing a button's flag sets it and leaves the other two alone |
| ClickButtons.AnyPressed | src/click_button.rs:301-303 | the widget is held exactly when some tracked button is held |
| ClickButtons.IsEnabled | src/click_button.rs:112-114 | the button is enabled exactly when some button has a message |
| ClickButtons.Press | src/click_button.rs:318-339 | a press publishes nothing, is captured exactly when the button has a message and the cursor is inside, and then sets that button's flag; otherwise the state is unchanged |
| ClickButtons.Release | src/click_button.rs:340-364 | with a message the flag is cleared; the release is captured exactly when the flag was set, and publishes the button's message exactly when the flag was set and the cursor is inside; without a message nothing changes |
| ClickButtons.Update | src/click_button.rs:381-387 | losing a finger clears only the left flag and is ignored |
| ClickButtons.TouchIsLeft | src/click_button.rs:367-376 | a finger press and lift act exactly as the left mouse button |
| ClickButtons.OtherEventsIgnored | src/click_button.rs:388 | untracked buttons and other events change nothing and publish nothing |
| ClickButtons.UpdateKeepsHeld | src/click_button.rs:308-390 | every event keeps the held buttons among those that have a message |
| ClickButtons.DisabledIgnores | src/click_button.rs:308-390 | a button with no message never reacts to any event |
| ClickButtons.ClickPublishes | src/click_button.rs:318-364 | a press and a release over the button publish its message, capture both events, and restore the state |
| ClickButtons.ReleaseOutsideCancels | src/click_button.rs:340-364 | a release outside after a press on the button publishes nothing but ends the hold |
| ClickButtons.Style | src/click_button.rs:405-419 | the look is disabled without any message, else pressed when hovered with a button held, hovered when hovered, and active when the cursor is away |
| ClickButtons.PressShowsPressed | src/click_button.rs:318-419 | a captured press shows the button pressed while the cursor is over it, and the click that follows from rest shows it hovered again |
| Updates.Latest | src/update.rs:122-129 | the chosen release is one of the listing that has an asset for this target, and there is none exactly when no release of the listing has one |
| Updates.IsNewer | src/update.rs:132 | fails exactly when one of the two versions does not parse, and otherwise says whether the release's version is strictly greater |
| Updates.Check | src/update.rs:121-146 | a successful check leaves the updater ready or up to date, and keeps the old link when up to date |
| Updates.CheckReady | src/update.rs:121-146 | the check is ready exactly when the first release with a target asset is strictly newer and has an asset, and then the link is that asset's; it fails exactly when the listing or a version could not be had |
| Updates.HandleProgress | src/update.rs:147-162 | a start shows no progress, an advance shows its progress, a finish without bytes shows up to date, a stream error shows that error, and a finish with bytes shows downloaded exactly when the install succeeds |
| Updates.Update | src/main.rs:446-456 | a progress message never changes the link, and neither does a check that does not end ready |
| Updates.FinishedShows | src/main.rs:446-456 | a finished download shows downloaded when the install succeeds and the install's error otherwise |
| Updates.Connect | src/update.rs:60-80 | a failed request ends the stream with its error; a content length starts an empty download; without one the whole body is delivered, and a failed body read panics |
| Updates.Receive | src/update.rs:81-102 | a chunk is appended and counted and reported as progress, and the 64-bit counter overflowing panics; the end of the body delivers the buffer; an error ends the stream |
| Updates.Step | src/update.rs:56-116 | the stream is pending exactly in its finished state |
| Updates.StepKeepsAccounted | src/update.rs:81-102 | every step keeps the byte count equal to the length of the buffer |
| Updates.FeedAppends | src/update.rs:87-97 | feeding chunks whose total fits in 64 bits appends them in order and counts them |
| Updates.DownloadDelivers | src/update.rs:60-162 | a download with a content length delivers exactly the concatenated chunks, and installing them shows downloaded |
| Updates.Cleanup | src/update.rs:225-256 | every removed directory's name starts with the backup prefix |
| Updates.CleanupRemovesBackups | src/update.rs:230-253 | when the walk meets no error it removes exactly the entries whose name has the prefix and whose listing is only the backup file, in order |

## Left out

- File and network I/O. This covers reading and saving the JSON line files, the release listing, the HTTP download, replacing the executable (`update_extended`) and the directory listing that clean-up walks. Each appears as an input: a fetched listing, a connection, a chunk, an install result, or a listing of entries.
- Floating point. The download percentage is kept as its two operands (`Updates.Percent`); `ColorExt` and the mouse gestures of src/hotmouse.rs are left out.
- Rendering. All `view`, layout and `draw` code is left out, apart from the style choice in `draw`, and so are src/theme.rs, src/style.rs and src/slots_widget.rs. `push_space` and `tap_ref` belong to this layer too.
- iced subscriptions, `Command`s, focus commands and the async executor. A message is handled as one synchronous state change.
- `semver::Version::parse`, its order, `self_update::get_target`, `has_target_asset` and `asset_for` are library code. `Updates.Library` passes them in as functions; the version order is any relation.
- The scripts under resources/font-maker drive FontForge. Only the numbering they give the icons (0x61 plus the line) is modelled.
- `cleanup_backup_temp_directories` runs only on Windows (`cfg!(windows)`), and its result is ignored. `Updates.Cleanup` models the walk without that gate.
- `set_spells_characters`, which the `Update` arm of `src/main.rs` calls after a download, reloads files from disk. It is left out.
- `Strings.ToLower` lowers ASCII letters only. Unicode case mapping is a table this model does not carry.
- Rust indexes strings by byte and this model by character. Every slice in the core cuts at an ASCII character or at an end of the string, so the two agree.
- `usize` is taken to be 64 bits wide.
- `find_spell` takes the list of bundled spells as a parameter. The real list is generated data and is not part of this model.
- Several types and functions that src/search.rs calls are not part of this model: `searchers()`, `SearchOptions::update` and `StaticCustomSpell`. `Search.Searchers` builds the same eight searchers that `search` does. `Search.ApplyOptionsAsWritten` is the options half of `SearchPage::update` as written; `Search.ApplyOptions` is the corrected variant listed under Findings, and only the Findings members use it. A `StaticCustomSpell` is read as a `Spell`, and its equality as `Spells.SpellEq`.
- The `Edit` enum follows the arms of the `EditSpell` handler in src/main.rs, which has more variants than the declaration in src/settings.rs. `Source` and `Page` edits are commented out in both and left out.
- `ClosedCharacter` only adds button states to a `Character`, so the closed list holds plain characters.
- Arms of `DndSpells::update` outside the character, tab, undo and edit logic are left out: `SpellName`, `SubmitSpell`, `OpenSpell`, `DeleteSpell`, `CloseSpell`, `Rename`, `RenameString`, `Open`, `DeleteCharacter`, `Find`, `NewCharacter`, `ToggleTheme`, `SetNCols`, `Resize`, `MouseState`, and the forwarding of `Character` messages to the pages. `Hotkeys.Handle` still produces the hotkey messages (`CharacterTab`, `AddSpell` and the next-field move); their handlers in src/main.rs are left out. src/main.rs also handles a `CharacterSpellUpDown` message (src/main.rs:859), which the `hotkey::Message` of src/hotkey.rs has no variant for and so never produces; it is left out.
- `State::is_pressed` reaches `todo!()` for a button other than the three tracked ones. `update` never passes it one, so `ClickButtons.IsPressed` and `ClickButtons.SetPressed` take only the tracked buttons.
- Console output. When a new character's name is already taken, src/new.rs:44 and src/main.rs:486 print "… is already a character" to standard output; `NewPages.Update` and `App.SubmitCharacter` model only the refusal, not the message. While parsing a components text, src/spells/data.rs:264 prints "Bad character …" for every character other than 'V', 'S', 'M', a space or a comma; `SpellData.Vsm` and `SpellData.ComponentsParse` model only skipping that character, not the message.
- The `Downloading` arm of the stream panics when `downloaded` overflows `u64`, as a debug build does; `Updates.Receive` reports that as a panic.
- SearchPages.UpdatePageKeepsFresh: proved for every message except a `PickMode` that `Search.SkipsNeededSearch` names (a pick other than ritual that switches its searcher off, and a concentration pick either way). For those the code keeps the old list, which can be stale (`SearchPages.PickConcentrationStale`); `SearchPages.UpdatePageCorrectedKeepsFresh` proves freshness for every message under the corrected options step.
- Characters.UpdateKeepsConsistent: restricted the same way, for `Query` messages whose options step `Search.SkipsNeededSearch` names. `SearchOptions::update` is not part of this model, and `Characters.Queried` takes it to be the options half of `SearchPage::update` as written (`Search.ApplyOptionsAsWritten`).
- `refresh_search` re-runs `SearchPage::update` with `Refresh` on the application's search page. It is called after adding, swapping and closing a character (src/main.rs:256, 262, 275), after a spell edit (src/main.rs:633) and in the other arms at src/main.rs:658, 661, 707 and 850. `App.State` holds no search page, so these calls are not modelled; `SearchPages.UpdatePage` with `Refresh` models each of them on its own.
- Characters.OfLevel: states only that the entries it selects belong to the level. The lemmas about a character's lists state the rest.

## Findings

| source | as written | input that shows it | evidently intended | confidence | as-written member | corrected member |
|---|---|---|---|---|---|---|
| src/spells/spell.rs:250-255 | `range` returns the spell's `duration` field for both variants | a bundled spell with range "Self (30-foot cone)" and duration "Concentration, up to 1 minute" shows the duration on its "Range:" line | `range` returns the `range` field | not executed | Spells.RangeAsWritten, Spells.RangeAsWrittenCounterexample | Spells.Range |
| src/search.rs:360-362 | the casting-time searcher compares with the derived `==`, which also compares a reaction's trigger phrase | every bundled reaction spell carries `Reaction(Some(phrase))`, so picking "Reaction" (`Reaction(None)`) matches none of them | compare with `equals_ignore_reaction`, so the "Reaction" choice matches every reaction spell | not executed | Search.Matches, Search.ReactionSearchAsWritten | Search.MatchesCorrected, Search.ReactionChoiceMatchesReactions, Search.MatchesAgreeOffReaction |
| src/search.rs:750-764 | `PickMode` re-runs the search only when the ritual searcher changes | switching concentration on keeps concentration spells listed although the options now hide them; switching off a level searcher that had a selection keeps the other levels' spells hidden | re-run the search whenever the options change which spells they admit | not executed | Search.ApplyOptionsAsWritten, Search.PickConcentrationAsWritten, Search.PickLevelOffAsWritten, SearchPages.UpdatePage, SearchPages.PickConcentrationStale | Search.ApplyOptions, Search.ApplyOptionsKeepsAdmission, SearchPages.UpdatePageCorrected, SearchPages.UpdatePageCorrectedKeepsFresh |

=== FILE: app.dfy ===
/** The app-level state of `src/main.rs`: the open and closed characters, the current tab,
    the character-name field and the undo history, with the handlers that record and restore
    snapshots, open, close and reorder characters, and move between tabs. */
module App {
  import opened Wrappers
  import opened Ints
  import opened Utils
  import opened SpellData
  import opened Spells
  import opened Characters
  import opened Tabs
  import H = History

  /** One entry of `save_states`: the open characters and the closed ones, as saved. */
  type Snapshot = (seq<SerializeCharacter>, seq<SerializeCharacter>)

  /** The parts of `DndSpells` the handlers read and write. */
  datatype DndSpells = DndSpells(
    tab: Tab,
    characters: seq<CharacterPage>,
    closed: seq<Character>,
    history: H.History<Snapshot>,
    characterName: string)

  /** What a handler leaves behind: the new state, or a panic. */
  datatype Next = Next(app: DndSpells) | Halted

  // ---- snapshots ----

  /** The characters of the open pages. */
  function Sheets(pages: seq<CharacterPage>): (r: seq<Character>)
    ensures |r| == |pages| && forall i :: 0 <= i < |pages| ==> r[i] == pages[i].character
  {
    seq(|pages|, i requires 0 <= i < |pages| => pages[i].character)
  }

  /** `serialize` on each character. */
  function SerializeAll(cs: seq<Character>): (r: seq<SerializeCharacter>)
    ensures |r| == |cs| && forall i :: 0 <= i < |cs| ==> r[i] == Characters.Serialize(cs[i])
  {
    seq(|cs|, i requires 0 <= i < |cs| => Characters.Serialize(cs[i]))
  }

  /** `from_serialized` on each saved character. */
  function DeserializeAll(ss: seq<SerializeCharacter>, statics: seq<StaticSpell>, custom: seq<CustomSpell>): (r: seq<Character>)
    ensures |r| == |ss| && forall i :: 0 <= i < |ss| ==> r[i] == FromSerialized(ss[i], statics, custom)
  {
    seq(|ss|, i requires 0 <= i < |ss| => FromSerialized(ss[i], statics, custom))
  }

  /** A fresh page for each character. */
  function Pages(cs: seq<Character>): (r: seq<CharacterPage>)
    ensures Sheets(r) == cs
    ensures forall i :: 0 <= i < |cs| ==> r[i] == FromCharacter(cs[i])
  {
    seq(|cs|, i requires 0 <= i < |cs| => FromCharacter(cs[i]))
  }

  /** The snapshot `save_state` takes. */
  function Snap(app: DndSpells): Snapshot {
    (SerializeAll(Sheets(app.characters)), SerializeAll(app.closed))
  }

  /** `save_state`: the current characters become the latest snapshot, after the snapshots
      that could have been redone are dropped. */
  function SaveState(app: DndSpells): (r: DndSpells)
    ensures r == app.(history := r.history)
    ensures H.Valid(r.history) && r.history.cursor.None?
    ensures r.history.states[|r.history.states| - 1] == Snap(app)
    ensures H.Valid(app.history) ==>
      r.history.states == app.history.states[..H.Current(app.history) + 1] + [Snap(app)]
  {
    app.(history := H.Save(app.history, Snap(app)))
  }

  /** A handler that ends in `save()` leaves exactly one new snapshot, of its own result. */
  predicate Recorded(before: DndSpells, after: DndSpells) {
    after == SaveState(after.(history := before.history))
  }

  /** `load_state`: the characters of a snapshot, each on a fresh page. `get(idx).unwrap()`
      panics on an index past the history. */
  function LoadState(app: DndSpells, idx: nat, statics: seq<StaticSpell>, custom: seq<CustomSpell>): (r: Next)
    ensures r.Halted? <==> idx >= |app.history.states|
    ensures r.Next? ==> r.app == app.(characters := r.app.characters, closed := r.app.closed)
    ensures r.Next? ==>
      Sheets(r.app.characters) == DeserializeAll(app.history.states[idx].0, statics, custom)
      && r.app.closed == DeserializeAll(app.history.states[idx].1, statics, custom)
    ensures r.Next? ==> forall i :: 0 <= i < |r.app.characters| ==>
      r.app.characters[i] == FromCharacter(r.app.characters[i].character)
  {
    if idx >= |app.history.states| then Halted
    else
      var snap := app.history.states[idx];
      Next(app.(characters := Pages(DeserializeAll(snap.0, statics, custom)),
                closed := DeserializeAll(snap.1, statics, custom)))
  }

  /** Every page `load_state` opens starts consistent: its results are what its search, on
      the default options, gives. */
  lemma LoadStateConsistent(app: DndSpells, idx: nat, statics: seq<StaticSpell>, custom: seq<CustomSpell>)
    ensures var r := LoadState(app, idx, statics, custom);
      r.Next? ==> forall i :: 0 <= i < |r.app.characters| ==> Consistent(r.app.characters[i])
  {
    var r := LoadState(app, idx, statics, custom);
    if r.Next? {
      forall i | 0 <= i < |r.app.characters|
        ensures Consistent(r.app.characters[i])
      {
        FromCharacterConsistent(r.app.characters[i].character);
      }
    }
  }

  /** Every character, open or closed, is filed by level and found again under each of its
      spells' names. */
  predicate Restorable(app: DndSpells, statics: seq<StaticSpell>, custom: seq<CustomSpell>) {
    (forall i :: 0 <= i < |app.characters| ==>
      Filed(app.characters[i].character.spells)
      && Findable(app.characters[i].character.spells, statics, custom))
    && (forall i :: 0 <= i < |app.closed| ==>
      Filed(app.closed[i].spells) && Findable(app.closed[i].spells, statics, custom))
  }

  /** Loading back a character list that was just saved gives the same characters. */
  lemma {:induction false} RoundTripAll(cs: seq<Character>, statics: seq<StaticSpell>, custom: seq<CustomSpell>)
    requires forall i :: 0 <= i < |cs| ==> Filed(cs[i].spells) && Findable(cs[i].spells, statics, custom)
    ensures DeserializeAll(SerializeAll(cs), statics, custom) == cs
  {
    forall i | 0 <= i < |cs|
      ensures DeserializeAll(SerializeAll(cs), statics, custom)[i] == cs[i]
    {
      Characters.SerializeRoundTrip(cs[i], statics, custom);
    }
  }

  /** Loading the snapshot just recorded gives back the open and the closed characters. */
  lemma LoadSaved(app: DndSpells, statics: seq<StaticSpell>, custom: seq<CustomSpell>)
    requires Restorable(app, statics, custom)
    ensures var saved := SaveState(app);
      var r := LoadState(saved, |saved.history.states| - 1, statics, custom);
      r.Next? && Sheets(r.app.characters) == Sheets(app.characters) && r.app.closed == app.closed
  {
    RoundTripAll(Sheets(app.characters), statics, custom);
    RoundTripAll(app.closed, statics, custom);
  }

  // ---- undo and redo ----

  /** The `Undo` arm: one snapshot back, loaded when the cursor moved. */
  function Undo(app: DndSpells, statics: seq<StaticSpell>, custom: seq<CustomSpell>): (r: Next)
    ensures H.Valid(app.history) ==> r.Next? && H.Valid(r.app.history)
    ensures r.Next? ==> r.app.history == H.Undo(app.history).0
    ensures r.Next? ==> r.app.tab == app.tab && r.app.characterName == app.characterName
    ensures r.Next? && H.Undo(app.history).1.None? ==> r.app == app.(history := r.app.history)
    ensures r.Next? && H.Undo(app.history).1.Some? ==>
      H.Current(r.app.history) < |app.history.states| &&
      var snap := app.history.states[H.Current(r.app.history)];
      Sheets(r.app.characters) == DeserializeAll(snap.0, statics, custom)
      && r.app.closed == DeserializeAll(snap.1, statics, custom)
  {
    var (h, load) := H.Undo(app.history);
    var a := app.(history := h);
    match load
    case None => Next(a)
    case Some(idx) => LoadState(a, idx, statics, custom)
  }

  /** The `Redo` arm: one snapshot forwards, loaded when the cursor moved. */
  function Redo(app: DndSpells, statics: seq<StaticSpell>, custom: seq<CustomSpell>): (r: Next)
    ensures H.Valid(app.history) ==> r.Next? && H.Valid(r.app.history)
    ensures r.Next? ==> r.app.history == H.Redo(app.history).0
    ensures r.Next? ==> r.app.tab == app.tab && r.app.characterName == app.characterName
    ensures app.history.cursor.None? ==> r == Next(app)
    ensures r.Next? && H.Redo(app.history).1.Some? ==>
      H.Current(r.app.history) < |app.history.states| &&
      var snap := app.history.states[H.Current(r.app.history)];
      Sheets(r.app.characters) == DeserializeAll(snap.0, statics, custom)
      && r.app.closed == DeserializeAll(snap.1, statics, custom)
  {
    var (h, load) := H.Redo(app.history);
    var a := app.(history := h);
    match load
    case None => Next(a)
    case Some(idx) => LoadState(a, idx, statics, custom)
  }

  /** After a change is saved, undo followed by redo brings the changed characters back. */
  lemma UndoRedoAfterSave(app: DndSpells, statics: seq<StaticSpell>, custom: seq<CustomSpell>)
    requires H.Valid(app.history) && Restorable(app, statics, custom)
    ensures var u := Undo(SaveState(app), statics, custom);
      u.Next? && var r := Redo(u.app, statics, custom);
      r.Next? && Sheets(r.app.characters) == Sheets(app.characters) && r.app.closed == app.closed
  {
    var saved := SaveState(app);
    var u := Undo(saved, statics, custom).app;
    assert H.Current(u.history) == |saved.history.states| - 2;
    RoundTripAll(Sheets(app.characters), statics, custom);
    RoundTripAll(app.closed, statics, custom);
  }

  // ---- opening, closing and reordering characters ----

  /** `add_character`: the page goes last, its tab is opened, and the change is saved. */
  function AddCharacter(app: DndSpells, page: CharacterPage): (r: DndSpells)
    ensures r.characters == app.characters + [page]
    ensures r.tab == CharacterTab(|app.characters|) && ValidTab(r.tab, |r.characters|)
    ensures r.closed == app.closed && r.characterName == app.characterName
    ensures Recorded(app, r)
  {
    var n := |app.characters|;
    SaveState(app.(characters := app.characters + [page], tab := CharacterTab(n)))
  }

  /** `close_character`: the character leaves the open list for the front of the closed one;
      a character tab past the end moves to the last remaining character. `remove` panics on
      an index past the list. */
  function CloseCharacter(app: DndSpells, index: nat): (r: Next)
    ensures r.Halted? <==> index >= |app.characters|
    ensures r.Next? ==> r.app.characters == app.characters[..index] + app.characters[index + 1..]
    ensures r.Next? ==> r.app.closed == [app.characters[index].character] + app.closed
    ensures r.Next? && (!app.tab.CharacterTab? || app.tab.index < |r.app.characters|) ==>
      r.app.tab == app.tab
    ensures r.Next? && |r.app.characters| > 0 ==> ValidTab(r.app.tab, |r.app.characters|)
    ensures r.Next? ==> r.app.characterName == app.characterName && Recorded(app, r.app)
  {
    if index >= |app.characters| then Halted
    else
      var chars := app.characters[..index] + app.characters[index + 1..];
      var tab := match app.tab
        case CharacterTab(i) => if i >= |chars| then CharacterTab(SaturatingSub(|chars|, 1)) else app.tab
        case _ => app.tab;
      Next(SaveState(app.(characters := chars, tab := tab,
                          closed := [app.characters[index].character] + app.closed)))
  }

  /** Where `MoveCharacter` puts a character: `delta` places along, stopping at either end. */
  function CharacterTarget(idx: usize, delta: isize, len: nat): (r: nat)
    requires idx < len
    ensures r == Clamp(idx + delta, 0, len - 1)
  {
    if delta < 0 then SaturatingSub(idx, -(delta as int)) else Ints.Min(idx + delta, len - 1)
  }

  /** The `MoveCharacter` arm: swap a character with the one `delta` places along, clamped to
      the list, and open its tab. `idx + delta` overflowing, or `swap` on an index past the
      list, panics. */
  function MoveCharacter(app: DndSpells, idx: usize, delta: isize): (r: Next)
    ensures r.Halted? <==> idx >= |app.characters| || (delta >= 0 && idx + delta >= USIZE_LIMIT)
    ensures r.Next? ==>
      var target := Clamp(idx + delta, 0, |app.characters| - 1);
      r.app.characters == Swap(app.characters, idx, target)
      && r.app.tab == CharacterTab(target) && ValidTab(r.app.tab, |r.app.characters|)
    ensures r.Next? ==> multiset(r.app.characters) == multiset(app.characters)
    ensures r.Next? ==> r.app.closed == app.closed && Recorded(app, r.app)
  {
    if delta >= 0 && idx + delta >= USIZE_LIMIT then Halted
    else if idx >= |app.characters| then Halted
    else
      var target := CharacterTarget(idx, delta, |app.characters|);
      Next(SaveState(app.(characters := Swap(app.characters, idx, target), tab := CharacterTab(target))))
  }

  /** Moving a character back by the same distance restores the order, unless the first move
      stopped at an end. */
  lemma MoveCharacterBack(app: DndSpells, idx: usize, delta: isize)
    requires |app.characters| <= USIZE_LIMIT
    requires 0 <= idx + delta < |app.characters| && idx < |app.characters| && delta > ISIZE_MIN
    ensures var once := MoveCharacter(app, idx, delta);
      once.Next? && var back := MoveCharacter(once.app, idx + delta, -delta);
      back.Next? && back.app.characters == app.characters && back.app.tab == CharacterTab(idx)
  {
    assert MoveCharacter(app, idx, delta).Next?;
    var once := MoveCharacter(app, idx, delta).app;
    assert MoveCharacter(once, idx + delta, -delta).Next?;
    var back := MoveCharacter(once, idx + delta, -delta).app;
    assert back.characters == app.characters;
  }

  /** No two open characters share a name. */
  predicate DistinctNames(pages: seq<CharacterPage>) {
    forall i, j :: 0 <= i < j < |pages| ==> pages[i].character.name != pages[j].character.name
  }

  /** Whether an open character has this name. */
  predicate NameTaken(pages: seq<CharacterPage>, name: string) {
    exists i :: 0 <= i < |pages| && pages[i].character.name == name
  }

  /** The `iter().any(..)` of `SubmitCharacter`. */
  function AnyNamed(pages: seq<CharacterPage>, name: string): (r: bool)
    ensures r <==> NameTaken(pages, name)
  {
    if pages == [] then false
    else pages[0].character.name == name || AnyNamed(pages[1..], name)
  }

  /** The `SubmitCharacter` arm: a non-empty name that no open character has becomes a new
      character, and the field is cleared; any other name changes nothing. */
  function SubmitCharacter(app: DndSpells): (r: DndSpells)
    ensures var name := app.characterName;
      if name != [] && !NameTaken(app.characters, name) then
        r.characters == app.characters + [NewCharacterPage(name)] && r.characterName == []
        && r.tab == CharacterTab(|app.characters|) && Recorded(app.(characterName := []), r)
      else r == app
    ensures DistinctNames(app.characters) ==> DistinctNames(r.characters)
  {
    var name := app.characterName;
    if name != [] && !AnyNamed(app.characters, name) then
      AppendDistinct(app.characters, NewCharacterPage(name));
      AddCharacter(app.(characterName := []), NewCharacterPage(name))
    else app
  }

  /** A page whose name no open character has keeps the names distinct. */
  lemma AppendDistinct(pages: seq<CharacterPage>, page: CharacterPage)
    requires !NameTaken(pages, page.character.name)
    ensures DistinctNames(pages) ==> DistinctNames(pages + [page])
  {
    var more := pages + [page];
    assert forall i :: 0 <= i < |pages| ==> more[i] == pages[i];
    assert more[|pages|] == page;
  }

  // ---- tab arms ----

  /** The `SelectTab` arm. */
  function Select(app: DndSpells, position: nat): (r: DndSpells)
    ensures r == app.(tab := r.tab)
    ensures Index(r.tab, |app.characters|) == position
    ensures position <= |app.characters| + 1 ==> ValidTab(r.tab, |app.characters|)
  {
    app.(tab := SelectTab(position, |app.characters|))
  }

  /** The `ToCharacter` hotkey arm: the tab of character d, or of the last character for 0. */
  function GoToCharacter(app: DndSpells, digit: nat): (r: Next)
    ensures r.Halted? <==> digit == 0 && app.characters == []
    ensures r.Next? ==> r.app == app.(tab := r.app.tab) && r.app.tab.CharacterTab?
    ensures r.Next? && digit <= |app.characters| ==> ValidTab(r.app.tab, |app.characters|)
  {
    match ToCharacter(digit, |app.characters|)
    case None => Halted
    case Some(t) => Next(app.(tab := t))
  }

  /** The tab-only `Move` hotkey arm. */
  function MoveTabOnly(app: DndSpells, dir: Direction): (r: DndSpells)
    ensures r == app.(tab := r.tab) && ValidTab(r.tab, |app.characters|)
    ensures ValidTab(app.tab, |app.characters|) ==>
      var n := |app.characters|;
      Index(r.tab, n) == (Index(app.tab, n) + (if dir == Tabs.Right then 1 else n + 1)) % (n + 2)
  {
    app.(tab := MoveTab(app.tab, dir, |app.characters|))
  }

  // ---- the full Move: through every character's level tabs ----

  /** The tabs of a character page: "all" and one per level with spells. */
  function TabCount(page: CharacterPage): (r: nat)
    ensures r >= 1
  {
    LevelsWithSpells(page.character.spells) + 1
  }

  /** How many levels have spells. */
  function LevelsWithSpells(spells: seq<seq<Entry>>): nat {
    if spells == [] then 0
    else LevelsWithSpells(spells[..|spells| - 1]) + (if spells[|spells| - 1] != [] then 1 else 0)
  }

  /** One tab per level with spells. */
  lemma {:induction false} LevelsWithSpellsCount(spells: seq<seq<Entry>>)
    ensures LevelsWithSpells(spells) == |NonEmptyLevels(spells)|
    decreases |spells|
  {
    if spells != [] {
      LevelsWithSpellsCount(spells[..|spells| - 1]);
    }
  }

  /** `tabs_by_character`. */
  function Counts(pages: seq<CharacterPage>): (r: seq<nat>)
    ensures |r| == |pages| && forall i :: 0 <= i < |pages| ==> r[i] == TabCount(pages[i])
  {
    seq(|pages|, i requires 0 <= i < |pages| => TabCount(pages[i]))
  }

  /** `iter().sum()`. */
  function Sum(s: seq<nat>): nat {
    if s == [] then 0 else Sum(s[..|s| - 1]) + s[|s| - 1]
  }

  /** The sum of a prefix one longer. */
  lemma SumSnoc(s: seq<nat>, i: nat)
    requires i < |s|
    ensures Sum(s[..i + 1]) == Sum(s[..i]) + s[i]
  {
    assert s[..i + 1][..i] == s[..i];
  }

  /** A prefix sums to no more than the whole. */
  lemma {:induction false} SumPrefix(s: seq<nat>, i: nat)
    requires i <= |s|
    ensures Sum(s[..i]) <= Sum(s)
    decreases |s| - i
  {
    if i == |s| {
      assert s[..i] == s;
    } else {
      SumPrefix(s, i + 1);
      SumSnoc(s, i);
    }
  }

  /** `max_tab_idx`: the position of the settings tab. */
  function LastTab(app: DndSpells): nat {
    Sum(Counts(app.characters)) + 1
  }

  /** `orig_idx`: the position of the current tab, counting search, then each character's
      tabs, then settings. `None` is a panic: indexing past the characters, or `tab_index` on
      a level tab with no spells. */
  function FlatPosition(app: DndSpells): (r: Option<nat>)
    ensures app.tab.SearchTab? ==> r == Some(0)
    ensures app.tab.SettingsTab? ==> r == Some(LastTab(app))
    ensures app.tab.CharacterTab? ==>
      (r.None? <==> app.tab.index >= |app.characters| || TabIndex(app.characters[app.tab.index]).None?)
    ensures app.tab.CharacterTab? && r.Some? ==> 0 < r.value < LastTab(app)
  {
    match app.tab
    case SearchTab => Some(0)
    case SettingsTab => Some(LastTab(app))
    case CharacterTab(i) =>
      if i >= |app.characters| then None
      else match TabIndex(app.characters[i])
        case None => None
        case Some(t) =>
          LevelsWithSpellsCount(app.characters[i].character.spells);
          var counts := Counts(app.characters);
          SumSnoc(counts, i);
          SumPrefix(counts, i + 1);
          Some(1 + Sum(counts[..i]) + t)
  }

  /** A sum is its first element plus the sum of the rest. */
  lemma {:induction false} SumCons(s: seq<nat>)
    requires |s| > 0
    ensures Sum(s) == s[0] + Sum(s[1..])
    decreases |s|
  {
    if |s| > 1 {
      var init := s[..|s| - 1];
      SumCons(init);
      assert init[1..] == s[1..][..|s[1..]| - 1];
    }
  }

  /** A prefix sum, split after its first element. */
  lemma SumPrefixCons(s: seq<nat>, c: nat)
    requires c < |s|
    ensures Sum(s[..c + 1]) == s[0] + Sum(s[1..][..c])
  {
    SumCons(s[..c + 1]);
    assert s[..c + 1][1..] == s[1..][..c];
  }

  /** The `while` loop of the full `Move`: which character a position among the characters'
      tabs falls to, and the position within that character's tabs. */
  function Locate(counts: seq<nat>, tab: nat): (r: (nat, nat))
    requires tab < Sum(counts)
    ensures r.0 < |counts| && r.1 < counts[r.0]
    ensures Sum(counts[..r.0]) + r.1 == tab
    decreases |counts|
  {
    SumCons(counts);
    assert counts[..0] == [];
    if tab < counts[0] then (0, tab)
    else
      var (c, rest) := Locate(counts[1..], tab - counts[0]);
      SumPrefixCons(counts, c);
      (c + 1, rest)
  }

  /** The loop finds the character a position was counted from. */
  lemma {:induction false} LocateUnique(counts: seq<nat>, i: nat, t: nat)
    requires i < |counts| && t < counts[i]
    ensures Sum(counts[..i]) + t < Sum(counts)
    ensures Locate(counts, Sum(counts[..i]) + t) == (i, t)
    decreases i
  {
    SumSnoc(counts, i);
    SumPrefix(counts, i + 1);
    SumCons(counts);
    if i == 0 {
      assert counts[..0] == [];
    } else {
      SumPrefixCons(counts, i - 1);
      assert counts[1..][i - 1] == counts[i];
      LocateUnique(counts[1..], i - 1, t);
    }
  }

  /** The level tab at a position among a character's tabs: "all" at 0, else the level with
      spells of that rank. */
  function LevelTab(page: CharacterPage, rest: nat): (r: Option<Level>)
    requires rest < TabCount(page)
    ensures r.None? <==> rest == 0
  {
    LevelsWithSpellsCount(page.character.spells);
    if rest == 0 then None
    else Some(LevelAt(NonEmptyLevels(page.character.spells)[rest - 1]))
  }

  /** The level tab at a position sits at that position: `LevelTab` inverts `tab_index`. */
  lemma LevelTabIndex(page: CharacterPage, rest: nat)
    requires rest < TabCount(page)
    ensures TabIndex(page.(tab := LevelTab(page, rest))) == Some(rest)
  {
    LevelsWithSpellsCount(page.character.spells);
    if rest > 0 {
      var spells := page.character.spells;
      var levels := NonEmptyLevels(spells);
      var k := levels[rest - 1];
      var l := LevelAt(k);
      var p := page.(tab := Some(l));
      assert p.character.spells == spells;
      assert Index10(spells, l) == spells[k] != [];
      var t := TabIndex(p);
      assert t.Some?;
      assert levels[t.value - 1] == k;
    }
  }

  /** The `match idx` of the full `Move`: the tab at a position of the flattened bar, setting
      the chosen character's level tab. */
  function Place(app: DndSpells, idx: nat): (r: DndSpells)
    requires idx <= LastTab(app)
    ensures OnlyTabsDiffer(r, app) && ValidTab(r.tab, |app.characters|)
  {
    if idx == 0 then app.(tab := SearchTab)
    else if idx == LastTab(app) then app.(tab := SettingsTab)
    else
      var at := Locate(Counts(app.characters), idx - 1);
      SetLevelTab(app, at.0, at.1)
  }

  /** The state `Place` builds sits at the position asked for, with as many tabs as before. */
  lemma {:induction false} PlacePosition(app: DndSpells, idx: nat)
    requires idx <= LastTab(app)
    ensures LastTab(Place(app, idx)) == LastTab(app)
    ensures FlatPosition(Place(app, idx)) == Some(idx)
  {
    CountsOfTabs(app.characters, Place(app, idx).characters);
    if 0 < idx < LastTab(app) {
      PlaceCharacterPosition(app, idx);
    }
  }

  /** `PlacePosition` for a position among the characters' tabs. */
  lemma PlaceCharacterPosition(app: DndSpells, idx: nat)
    requires 0 < idx < LastTab(app)
    ensures FlatPosition(Place(app, idx)) == Some(idx)
  {
    var at := Locate(Counts(app.characters), idx - 1);
    SetLevelTabAt(app, at.0, at.1, idx - 1);
    assert Place(app, idx) == SetLevelTab(app, at.0, at.1);
  }

  /** Character `c` on show with its level tab at `rest`; every other character as it was. */
  function SetLevelTab(app: DndSpells, c: nat, rest: nat): (r: DndSpells)
    requires c < |app.characters| && rest < TabCount(app.characters[c])
    ensures |r.characters| == |app.characters|
    ensures r.tab == CharacterTab(c) && r.characters[c].tab == LevelTab(app.characters[c], rest)
    ensures OnlyTabsDiffer(r, app)
    ensures forall j :: 0 <= j < |app.characters| && j != c ==> r.characters[j] == app.characters[j]
  {
    var page := app.characters[c].(tab := LevelTab(app.characters[c], rest));
    app.(tab := CharacterTab(c), characters := app.characters[c := page])
  }

  /** The position of `SetLevelTab` is that of the level tab among the characters' tabs. */
  lemma SetLevelTabPosition(app: DndSpells, c: nat, rest: nat)
    requires c < |app.characters| && rest < TabCount(app.characters[c])
    ensures FlatPosition(SetLevelTab(app, c, rest)) == Some(1 + Sum(Counts(app.characters)[..c]) + rest)
  {
    var r := SetLevelTab(app, c, rest);
    CountsOfTabs(app.characters, r.characters);
    LevelTabIndex(app.characters[c], rest);
    assert TabIndex(r.characters[c]) == Some(rest);
    FlatAt(r, c, rest);
  }

  /** `SetLevelTabPosition` with the position named. */
  lemma SetLevelTabAt(app: DndSpells, c: nat, rest: nat, pos: nat)
    requires c < |app.characters| && rest < TabCount(app.characters[c])
    requires pos == Sum(Counts(app.characters)[..c]) + rest
    ensures FlatPosition(SetLevelTab(app, c, rest)) == Some(1 + pos)
  {
    SetLevelTabPosition(app, c, rest);
  }

  /** Two lists of character pages that differ at most in the pages' level tabs. */
  predicate OnlyLevelTabsDiffer(a: seq<CharacterPage>, b: seq<CharacterPage>) {
    |a| == |b| && forall j :: 0 <= j < |a| ==> a[j] == b[j].(tab := a[j].tab)
  }

  /** Two states that differ at most in the tab on show and the characters' level tabs. */
  predicate OnlyTabsDiffer(a: DndSpells, b: DndSpells) {
    a == b.(tab := a.tab, characters := a.characters) && OnlyLevelTabsDiffer(a.characters, b.characters)
  }

  /** Changing only the level tabs keeps every character's tab count. */
  lemma CountsOfTabs(a: seq<CharacterPage>, b: seq<CharacterPage>)
    requires OnlyLevelTabsDiffer(b, a)
    ensures Counts(a) == Counts(b)
  {
    assert forall j :: 0 <= j < |a| ==> Counts(a)[j] == Counts(b)[j];
  }

  /** The position of a character's level tab. */
  lemma FlatAt(app: DndSpells, i: nat, t: nat)
    requires app.tab == CharacterTab(i) && i < |app.characters| && TabIndex(app.characters[i]) == Some(t)
    ensures FlatPosition(app) == Some(1 + Sum(Counts(app.characters)[..i]) + t)
  {
  }

  /** `Place` at the position of a character's level tab: that character and that level tab. */
  lemma PlaceAt(app: DndSpells, i: nat, t: nat, idx: nat)
    requires i < |app.characters| && t < TabCount(app.characters[i])
    requires idx == 1 + Sum(Counts(app.characters)[..i]) + t
    ensures idx < LastTab(app)
    ensures Place(app, idx) == SetLevelTab(app, i, t)
  {
    var counts := Counts(app.characters);
    LocateUnique(counts, i, t);
    assert Locate(counts, idx - 1) == (i, t);
  }

  /** The level tab at a page's own tab index is the page's tab. */
  lemma LevelTabOfTab(page: CharacterPage)
    requires TabIndex(page).Some?
    ensures TabIndex(page).value < TabCount(page)
    ensures LevelTab(page, TabIndex(page).value) == page.tab
  {
    LevelsWithSpellsCount(page.character.spells);
    if page.tab.Some? {
      var t := TabIndex(page).value;
      var levels := NonEmptyLevels(page.character.spells);
      AsU8Injective(LevelAt(levels[t - 1]), page.tab.value);
    }
  }

  /** Placing the current position gives back the same state: the flattened position and
      `Place` are inverse. */
  lemma PlaceFlatPosition(app: DndSpells)
    requires FlatPosition(app).Some?
    ensures Place(app, FlatPosition(app).value) == app
  {
    if app.tab.CharacterTab? {
      PlaceFlatCharacter(app);
    } else if app.tab.SearchTab? {
      assert Place(app, 0) == app;
    } else {
      assert Place(app, LastTab(app)) == app;
    }
  }

  /** `PlaceFlatPosition` on a character tab. */
  lemma PlaceFlatCharacter(app: DndSpells)
    requires app.tab.CharacterTab? && FlatPosition(app).Some?
    ensures Place(app, FlatPosition(app).value) == app
  {
    var i := app.tab.index;
    var page := app.characters[i];
    var t := TabIndex(page).value;
    FlatAt(app, i, t);
    LevelTabOfTab(page);
    var idx := 1 + Sum(Counts(app.characters)[..i]) + t;
    PlaceAt(app, i, t, idx);
    assert FlatPosition(app).value == idx;
    assert page.(tab := LevelTab(page, t)) == page;
    assert app.characters[i := page] == app.characters;
    assert Place(app, idx) == SetLevelTab(app, i, t) == app;
  }

  /** The full `Move` hotkey arm: one step through search, every character's tabs and
      settings, wrapping around at the ends. */
  function MoveAcross(app: DndSpells, dir: Direction): (r: Next)
    ensures r.Halted? <==> FlatPosition(app).None?
    ensures r.Next? ==> OnlyTabsDiffer(r.app, app) && ValidTab(r.app.tab, |app.characters|)
  {
    match FlatPosition(app)
    case None => Halted
    case Some(orig) =>
      Next(Place(app, Tabs.Step(orig, LastTab(app), dir)))
  }

  /** The full `Move` steps exactly one position forwards or backwards on the cycle of all
      tabs, and lands where a further move cannot panic. */
  lemma MoveAcrossCycles(app: DndSpells, dir: Direction)
    requires FlatPosition(app).Some?
    ensures var r := MoveAcross(app, dir);
      var last := LastTab(app);
      r.Next? && LastTab(r.app) == last
      && FlatPosition(r.app) == Some((FlatPosition(app).value + (if dir == Tabs.Right then 1 else last)) % (last + 1))
  {
    var orig := FlatPosition(app).value;
    var idx := Tabs.Step(orig, LastTab(app), dir);
    PlacePosition(app, idx);
    assert MoveAcross(app, dir) == Next(Place(app, idx));
  }
}

=== FILE: character.dfy ===
/** A character sheet as `src/character.rs` keeps it: the spells a character knows, filed by
    level with a prepared flag, the spell slots per level, the serialized form written to the
    save file, and the page that shows one character with its own search. */
module Characters {
  import opened Wrappers
  import opened Ints
  import opened Strings
  import opened Utils
  import opened SpellData
  import opened Spells
  import opened Search
  import SA = StaticArc
  import Sorting

  // ---- moving a spell within its level ----

  /** `character::MoveSpell`: the arrow the user pressed. */
  datatype MoveSpell = Up | Down | Left | Right

  /** `MoveSpell::is_negative`: up and left move towards the front of the level. */
  predicate IsNegative(m: MoveSpell) {
    m == Up || m == Left
  }

  /** `MoveSpell::delta`: vertical moves jump a whole row of `numCols` spells, except on the
      "all" tab, which shows each level as one column. */
  function Delta(m: MoveSpell, numCols: nat, allTab: bool): (r: nat)
    ensures (m == Left || m == Right || allTab) ==> r == 1
    ensures (m == Up || m == Down) && !allTab ==> r == numCols
  {
    match m
    case Up => if allTab then 1 else numCols
    case Down => if allTab then 1 else numCols
    case _ => 1
  }

  // ---- slots ----

  /** The spell slots of one level: how many the character has and how many are spent. */
  datatype Slots = Slots(total: u32, used: u32)

  /** `Slots::MAX_BY_LEVEL`: the most slots the widget allows for levels 1 to 9. */
  const MAX_BY_LEVEL: seq<u32> := [4, 3, 3, 3, 3, 2, 2, 1, 1]

  /** A character's slots, one entry per level 1 to 9. */
  type SlotTable = s: seq<Slots> | |s| == 9 witness [Slots(0, 0), Slots(0, 0), Slots(0, 0), Slots(0, 0), Slots(0, 0), Slots(0, 0), Slots(0, 0), Slots(0, 0), Slots(0, 0)]

  /** `Default` for the slot table. */
  const NO_SLOTS: SlotTable := [Slots(0, 0), Slots(0, 0), Slots(0, 0), Slots(0, 0), Slots(0, 0), Slots(0, 0), Slots(0, 0), Slots(0, 0), Slots(0, 0)]

  /** Slots the widget could have produced: no more than the level allows, no more spent than
      there are. */
  predicate SlotsValid(slots: SlotTable) {
    forall i :: 0 <= i < 9 ==> slots[i].used <= slots[i].total <= MAX_BY_LEVEL[i]
  }

  /** The `ChangeNumSlots` arm: the total moves by `delta`, saturating and then clamped to
      the level's maximum, and the spent count is clamped to the new total. */
  function ChangeTotal(s: Slots, level: Level, delta: i32): (r: Slots)
    requires level != Cantrip
    ensures r.total == Clamp(s.total + delta, 0, Index9(MAX_BY_LEVEL, level))
    ensures r.used == Min(s.used, r.total)
  {
    var total := Clamp(SaturatingAddSigned32(s.total, delta), 0, Index9(MAX_BY_LEVEL, level));
    Slots(total, Clamp(s.used, 0, total))
  }

  /** The `SlotsCast` arm: the spent count moves by `delta`, saturating and then clamped to
      the total. */
  function Cast(s: Slots, delta: i32): (r: Slots)
    ensures r.total == s.total
    ensures r.used == Clamp(s.used + delta, 0, s.total)
  {
    Slots(s.total, Clamp(SaturatingAddSigned32(s.used, delta), 0, s.total))
  }

  /** Casting a spell and then regaining it gives the slot back whenever the cast fitted. */
  lemma CastThenRegain(s: Slots)
    requires s.used < s.total
    ensures Cast(Cast(s, 1), -1) == s
  {
  }

  // ---- the character ----

  /** A known spell with its prepared flag. */
  type Entry = (Spell, bool)

  /** The spells a character knows, one list per level, cantrips first. */
  type Buckets = s: seq<seq<Entry>> | |s| == 10 witness [[], [], [], [], [], [], [], [], [], []]

  const NO_SPELLS: Buckets := [[], [], [], [], [], [], [], [], [], []]

  /** `character::Character`. */
  datatype Character = Character(name: string, spells: Buckets, slots: SlotTable)

  /** Every spell of the list has level `k`. */
  predicate FiledList(b: seq<Entry>, k: nat) {
    forall i :: 0 <= i < |b| ==> AsU8(LevelOf(b[i].0)) == k
  }

  /** No two spells of the list compare equal. */
  predicate UniqueList(b: seq<Entry>) {
    forall i, j :: 0 <= i < |b| && 0 <= j < |b| && i != j ==> !SpellEq(b[i].0, b[j].0)
  }

  /** Every spell sits in the list of its own level. */
  predicate Filed(spells: Buckets) {
    forall k :: 0 <= k < 10 ==> FiledList(spells[k], k)
  }

  /** No list holds two spells that compare equal. */
  predicate Unique(spells: Buckets) {
    forall k :: 0 <= k < 10 ==> UniqueList(spells[k])
  }

  // ---- the save file ----

  /** The nine `(total, used)` pairs of the save file. */
  type SlotPairs = s: seq<(u32, u32)> | |s| == 9 witness [(0, 0), (0, 0), (0, 0), (0, 0), (0, 0), (0, 0), (0, 0), (0, 0), (0, 0)]

  /** `SerializeCharacter`: the spells by name with their prepared flag, in level order, and
      the slots, which older save files lack. */
  datatype SerializeCharacter = SerializeCharacter(
    name: string,
    spells: seq<(SA.StArc<string>, bool)>,
    slots: Option<SlotPairs>)

  /** Whether a saved name still names a spell. */
  function Resolves(statics: seq<StaticSpell>, custom: seq<CustomSpell>): ((SA.StArc<string>, bool)) -> bool {
    (n: (SA.StArc<string>, bool)) => FindSpell(n.0.Deref(), statics, custom).Some?
  }

  /** `r` holds, in order, the spell each of the names `kept` resolves to, with its flag. */
  predicate ResolvedFrom(r: seq<Entry>, kept: seq<(SA.StArc<string>, bool)>, statics: seq<StaticSpell>,
                         custom: seq<CustomSpell>) {
    |r| == |kept| && forall j :: 0 <= j < |r| ==>
      FindSpell(kept[j].0.Deref(), statics, custom) == Some(r[j].0) && r[j].1 == kept[j].1
  }

  /** The `filter_map` of `from_serialized`: exactly the names that still resolve are kept,
      in order, each as the spell it names with its own prepared flag. */
  function Resolve(names: seq<(SA.StArc<string>, bool)>, statics: seq<StaticSpell>, custom: seq<CustomSpell>): (r: seq<Entry>)
    ensures |r| <= |names|
    ensures (forall i :: 0 <= i < |names| ==> FindSpell(names[i].0.Deref(), statics, custom).None?) ==> r == []
    ensures ResolvedFrom(r, Sorting.Filter(names, Resolves(statics, custom)), statics, custom)
    decreases |names|
  {
    if |names| == 0 then []
    else
      var rest := Resolve(names[1..], statics, custom);
      var p := Resolves(statics, custom);
      match FindSpell(names[0].0.Deref(), statics, custom)
      case Some(spell) =>
        assert p(names[0]);
        assert Sorting.Filter(names, p) == [names[0]] + Sorting.Filter(names[1..], p);
        ResolvedCons(spell, names[0], rest, Sorting.Filter(names[1..], p), statics, custom);
        [(spell, names[0].1)] + rest
      case None =>
        assert !p(names[0]);
        assert Sorting.Filter(names, p) == Sorting.Filter(names[1..], p);
        assert forall i :: 1 <= i < |names| ==> names[1..][i - 1] == names[i];
        rest
  }

  /** A resolved name in front adds its spell in front. */
  lemma ResolvedCons(spell: Spell, n: (SA.StArc<string>, bool), rest: seq<Entry>,
                     kept: seq<(SA.StArc<string>, bool)>, statics: seq<StaticSpell>, custom: seq<CustomSpell>)
    requires FindSpell(n.0.Deref(), statics, custom) == Some(spell)
    requires ResolvedFrom(rest, kept, statics, custom)
    ensures ResolvedFrom([(spell, n.1)] + rest, [n] + kept, statics, custom)
  {
  }

  /** The entries of level `k`, in order. */
  function OfLevel(entries: seq<Entry>, k: nat): (r: seq<Entry>)
    ensures |r| <= |entries|
    ensures FiledList(r, k)
    decreases |entries|
  {
    if |entries| == 0 then []
    else (if AsU8(LevelOf(entries[0].0)) == k then [entries[0]] else []) + OfLevel(entries[1..], k)
  }

  /** The `for_each` of `from_serialized`: each entry is pushed onto the list of its level. */
  function Distribute(acc: Buckets, entries: seq<Entry>): Buckets
    decreases |entries|
  {
    if |entries| == 0 then acc
    else
      var e := entries[0];
      var l := AsU8(LevelOf(e.0)) as nat;
      Distribute(acc[l := acc[l] + [e]], entries[1..])
  }

  /** Pushing one entry onto its level's list adds it to list `k` exactly when it has level `k`. */
  lemma PushedLevel(acc: Buckets, e: Entry, k: nat)
    requires k < 10
    ensures var l := AsU8(LevelOf(e.0)) as nat;
      acc[l := acc[l] + [e]][k] == acc[k] + (if l == k then [e] else [])
  {
  }

  /** Pushing the entries one by one appends to each level exactly that level's entries, in
      order. */
  lemma {:induction false} DistributeAppends(acc: Buckets, entries: seq<Entry>, k: nat)
    requires k < 10
    ensures Distribute(acc, entries)[k] == acc[k] + OfLevel(entries, k)
    decreases |entries|
  {
    if |entries| == 0 {
      assert acc[k] + [] == acc[k];
    } else {
      var e := entries[0];
      var l := AsU8(LevelOf(e.0)) as nat;
      var acc' := acc[l := acc[l] + [e]];
      assert Distribute(acc, entries) == Distribute(acc', entries[1..]);
      DistributeAppends(acc', entries[1..], k);
      PushedLevel(acc, e, k);
      var head := if l == k then [e] else [];
      assert OfLevel(entries, k) == head + OfLevel(entries[1..], k);
    }
  }

  /** Filing entries into empty lists gives each level its entries, in order. */
  lemma DistributeFresh(entries: seq<Entry>)
    ensures forall k :: 0 <= k < 10 ==> Distribute(NO_SPELLS, entries)[k] == OfLevel(entries, k)
    ensures Filed(Distribute(NO_SPELLS, entries))
  {
    var spells := Distribute(NO_SPELLS, entries);
    forall k | 0 <= k < 10
      ensures spells[k] == OfLevel(entries, k)
    {
      DistributeAppends(NO_SPELLS, entries, k);
      assert NO_SPELLS[k] == [];
      assert [] + OfLevel(entries, k) == OfLevel(entries, k);
    }
  }

  /** `Character::from_serialized`: the spells that still resolve, filed by level in save-file
      order, and the saved slots, or none for an old file. */
  function FromSerialized(ser: SerializeCharacter, statics: seq<StaticSpell>, custom: seq<CustomSpell>): (r: Character)
    ensures r.name == ser.name
    ensures Filed(r.spells)
    ensures forall k :: 0 <= k < 10 ==> r.spells[k] == OfLevel(Resolve(ser.spells, statics, custom), k)
    ensures ser.slots.None? ==> r.slots == NO_SLOTS
    ensures ser.slots.Some? ==>
      forall i :: 0 <= i < 9 ==> r.slots[i] == Slots(ser.slots.value[i].0, ser.slots.value[i].1)
  {
    var spells := Distribute(NO_SPELLS, Resolve(ser.spells, statics, custom));
    DistributeFresh(Resolve(ser.spells, statics, custom));
    var slots: SlotTable := match ser.slots
      case None => NO_SLOTS
      case Some(arr) => seq(9, i requires 0 <= i < 9 => Slots(arr[i].0, arr[i].1));
    Character(ser.name, spells, slots)
  }

  /** The names and flags of entries, as the save file lists them. */
  function Names(entries: seq<Entry>): (r: seq<(SA.StArc<string>, bool)>)
    ensures |r| == |entries|
    ensures forall i :: 0 <= i < |r| ==> r[i].0 == Name(entries[i].0) && r[i].1 == entries[i].1
  {
    seq(|entries|, i requires 0 <= i < |entries| => (Name(entries[i].0), entries[i].1))
  }

  /** `Character::serialize`: every spell by name, level by level, and all nine slot pairs. */
  function Serialize(c: Character): (r: SerializeCharacter)
    ensures r.name == c.name && r.slots.Some?
    ensures r.spells == Names(Flatten(c.spells))
    ensures forall i :: 0 <= i < 9 ==> r.slots.value[i] == (c.slots[i].total, c.slots[i].used)
  {
    var pairs: SlotPairs := seq(9, i requires 0 <= i < 9 => (c.slots[i].total, c.slots[i].used));
    SerializeCharacter(c.name, Names(Flatten(c.spells)), Some(pairs))
  }

  /** Each known spell is found again under its name. */
  predicate Findable(spells: Buckets, statics: seq<StaticSpell>, custom: seq<CustomSpell>) {
    forall k, i :: 0 <= k < 10 && 0 <= i < |spells[k]| ==>
      FindSpell(Name(spells[k][i].0).Deref(), statics, custom) == Some(spells[k][i].0)
  }

  /** Saving a character and loading it back gives the same character, when its spells are
      filed by level and each is found again under its name. */
  lemma SerializeRoundTrip(c: Character, statics: seq<StaticSpell>, custom: seq<CustomSpell>)
    requires Filed(c.spells) && Findable(c.spells, statics, custom)
    ensures FromSerialized(Serialize(c), statics, custom) == c
  {
    var flat := Flatten(c.spells);
    forall i | 0 <= i < |flat|
      ensures FindSpell(Name(flat[i].0).Deref(), statics, custom) == Some(flat[i].0)
    {
      FlattenMembership(c.spells, flat[i]);
    }
    ResolveNames(flat, statics, custom);
    var r := FromSerialized(Serialize(c), statics, custom);
    forall k | 0 <= k < 10
      ensures r.spells[k] == c.spells[k]
    {
      OfLevelFlatten(c.spells, 0, k);
    }
    assert r.spells == c.spells;
    assert r.slots == c.slots;
  }

  /** Resolving the names of entries that are all found again gives back the entries. */
  lemma {:induction false} ResolveNames(entries: seq<Entry>, statics: seq<StaticSpell>, custom: seq<CustomSpell>)
    requires forall i :: 0 <= i < |entries| ==> FindSpell(Name(entries[i].0).Deref(), statics, custom) == Some(entries[i].0)
    ensures Resolve(Names(entries), statics, custom) == entries
    decreases |entries|
  {
    if |entries| > 0 {
      NamesTail(entries);
      assert forall i :: 0 <= i < |entries| - 1 ==> entries[1..][i] == entries[i + 1];
      ResolveNames(entries[1..], statics, custom);
    }
  }

  /** The names of all but the first entry. */
  lemma NamesTail(entries: seq<Entry>)
    requires |entries| > 0
    ensures Names(entries)[1..] == Names(entries[1..])
  {
    assert forall i :: 0 <= i < |entries| - 1 ==> Names(entries)[1..][i] == Names(entries[1..])[i];
  }

  /** Selecting a level distributes over concatenation. */
  lemma {:induction false} OfLevelConcat(a: seq<Entry>, b: seq<Entry>, k: nat)
    ensures OfLevel(a + b, k) == OfLevel(a, k) + OfLevel(b, k)
    decreases |a|
  {
    if |a| > 0 {
      assert (a + b)[1..] == a[1..] + b;
      OfLevelConcat(a[1..], b, k);
    } else {
      assert a == [];
      assert a + b == b;
    }
  }

  /** Selecting one level from entries that all have level `l`. */
  lemma {:induction false} OfLevelUniform(a: seq<Entry>, l: nat, k: nat)
    requires FiledList(a, l)
    ensures OfLevel(a, k) == if l == k then a else []
    decreases |a|
  {
    if |a| > 0 {
      OfLevelUniform(a[1..], l, k);
    }
  }

  /** Selecting level `k` from the flattened lists, part `j` holding level `off + j`, gives
      back the list of level `k`. */
  lemma {:induction false} OfLevelFlatten(parts: seq<seq<Entry>>, off: nat, k: nat)
    requires forall j :: 0 <= j < |parts| ==> FiledList(parts[j], off + j)
    ensures OfLevel(Flatten(parts), k) == if off <= k < off + |parts| then parts[k - off] else []
    decreases |parts|
  {
    if |parts| > 0 {
      var head, rest := parts[0], parts[1..];
      var tail := Flatten(rest);
      assert Flatten(parts) == head + tail;
      assert FiledList(head, off);
      forall j | 0 <= j < |rest|
        ensures FiledList(rest[j], off + 1 + j)
      {
        assert rest[j] == parts[j + 1];
      }
      OfLevelFlatten(rest, off + 1, k);
      OfLevelConcat(head, tail, k);
      OfLevelUniform(head, off, k);
      PickPart(parts, off, k, OfLevel(head, k), OfLevel(tail, k));
    }
  }

  /** The last step of `OfLevelFlatten`: the first part's share and the rest's share of level
      `k` add up to the part that holds level `k`. */
  lemma PickPart(parts: seq<seq<Entry>>, off: nat, k: nat, mine: seq<Entry>, below: seq<Entry>)
    requires |parts| > 0
    requires mine == if k == off then parts[0] else []
    requires below == if off + 1 <= k < off + 1 + |parts[1..]| then parts[1..][k - (off + 1)] else []
    ensures mine + below == if off <= k < off + |parts| then parts[k - off] else []
  {
    if k == off {
      assert mine + [] == mine;
    } else if off < k < off + |parts| {
      assert [] + below == below;
    } else {
      assert mine + below == [];
    }
  }

  // ---- the character page ----

  /** For each level, the positions of the spells the page's search lists. */
  type Results = s: seq<seq<nat>> | |s| == 10 witness [[], [], [], [], [], [], [], [], [], []]

  /** `CharacterPage`: a character, the spell shown in detail, the collapse toggles, the
      level tab (`None` for the tab with every level) and the page's own search. */
  datatype CharacterPage = CharacterPage(
    character: Character,
    viewSpell: Option<SpellId>,
    shouldCollapseAll: bool,
    shouldCollapseUnprepared: bool,
    tab: Option<Level>,
    search: SearchOptions,
    searchResults: Results)

  /** Whether the page's search lists a spell: the options admit it and its lowercased name
      contains the needle. */
  predicate Hit(o: SearchOptions, needle: string, spell: Spell)
    ensures needle == o.search ==> (Hit(o, needle, spell) <==> Wanted(o, spell))
  {
    Admits(o, spell) && Contains(NameLower(spell), needle)
  }

  /** `res` lists, in increasing order, exactly the positions of `bucket` that are hits. */
  predicate Lists(bucket: seq<Entry>, o: SearchOptions, needle: string, res: seq<nat>) {
    (forall i :: 0 <= i < |res| ==> res[i] < |bucket|)
    && (forall i, j :: 0 <= i < j < |res| ==> res[i] < res[j])
    && (forall j :: 0 <= j < |bucket| ==> (j in res <==> Hit(o, needle, bucket[j].0)))
  }

  /** The results on screen are what the page's search gives. */
  predicate Consistent(page: CharacterPage) {
    forall k :: 0 <= k < 10 ==>
      Lists(page.character.spells[k], page.search, ToLower(page.search.search), page.searchResults[k])
  }

  /** The positions of a level's spells that are hits: `enumerate`, `filter`, `map(index)`. */
  function Hits(bucket: seq<Entry>, o: SearchOptions, needle: string): (r: seq<nat>)
    ensures Lists(bucket, o, needle, r)
  {
    var p := (e: Entry) => Hit(o, needle, e.0);
    var r := Positions(bucket, p, 0);
    assert forall j :: 0 <= j < |bucket| ==> (p(bucket[j]) <==> Hit(o, needle, bucket[j].0));
    r
  }

  /** `0..n`. */
  function Indices(n: nat): (r: seq<nat>)
    ensures |r| == n && forall i :: 0 <= i < n ==> r[i] == i
  {
    seq(n, i requires 0 <= i < n => i)
  }

  /** The id of the first spell in level order, if any. */
  function FirstId(spells: Buckets): (r: Option<SpellId>)
    ensures r.None? <==> forall k :: 0 <= k < 10 ==> spells[k] == []
  {
    FlattenEmpty(spells);
    var flat := Flatten(spells);
    if |flat| > 0 then Some(Id(flat[0].0)) else None
  }

  /** The first spell is the head of the lowest non-empty level. */
  lemma FirstIdIsFirstSpell(spells: Buckets, k: nat)
    requires k < 10 && spells[k] != [] && forall j :: 0 <= j < k ==> spells[j] == []
    ensures FirstId(spells) == Some(Id(spells[k][0].0))
  {
    FlattenFirst(spells, k);
  }

  /** `From<Character> for CharacterPage`: every spell listed, the first one shown, the
      unprepared spells collapsed, the "all" tab and a fresh search. */
  function FromCharacter(c: Character): (r: CharacterPage)
    ensures r.character == c && r.tab.None? && r.search == DEFAULT_OPTIONS
    ensures !r.shouldCollapseAll && r.shouldCollapseUnprepared
    ensures r.viewSpell == FirstId(c.spells)
    ensures forall k :: 0 <= k < 10 ==> r.searchResults[k] == Indices(|c.spells[k]|)
  {
    var results: Results := seq(10, k requires 0 <= k < 10 => Indices(|c.spells[k]|));
    CharacterPage(c, FirstId(c.spells), false, true, None, DEFAULT_OPTIONS, results)
  }

  /** A fresh page already lists what its search would: every spell. */
  lemma FromCharacterConsistent(c: Character)
    ensures Consistent(FromCharacter(c))
  {
    var r := FromCharacter(c);
    assert ToLower(DEFAULT_OPTIONS.search) == "";
    forall k, j | 0 <= k < 10 && 0 <= j < |c.spells[k]|
      ensures Hit(DEFAULT_OPTIONS, "", c.spells[k][j].0)
    {
      SearchersOfNone(DEFAULT_OPTIONS);
      NoSearchersAdmitAll(DEFAULT_OPTIONS, c.spells[k][j].0);
      assert OccursAt(NameLower(c.spells[k][j].0), "", 0);
    }
    forall k | 0 <= k < 10
      ensures Lists(c.spells[k], r.search, ToLower(r.search.search), r.searchResults[k])
    {
      forall j | 0 <= j < |c.spells[k]|
        ensures j in r.searchResults[k]
      {
        assert r.searchResults[k][j] == j;
      }
    }
  }

  /** `From<Arc<str>> for CharacterPage`: a new character with no spells and no slots. */
  function NewCharacterPage(name: string): (r: CharacterPage)
    ensures r.character == Character(name, NO_SPELLS, NO_SLOTS)
    ensures r.viewSpell.None? && r.tab.None?
    ensures Consistent(r)
  {
    FromCharacterConsistent(Character(name, NO_SPELLS, NO_SLOTS));
    FromCharacter(Character(name, NO_SPELLS, NO_SLOTS))
  }

  // ---- tabs ----

  /** The levels that have spells, in increasing order: the tabs after "all". */
  function NonEmptyLevels(spells: seq<seq<Entry>>): (r: seq<nat>)
    ensures forall i :: 0 <= i < |r| ==> r[i] < |spells| && spells[r[i]] != []
    ensures forall i, j :: 0 <= i < j < |r| ==> r[i] < r[j]
    decreases |spells|
  {
    if spells == [] then []
    else
      var last := |spells| - 1;
      var init := spells[..last];
      assert forall k :: 0 <= k < last ==> init[k] == spells[k];
      NonEmptyLevels(init) + (if spells[last] != [] then [last] else [])
  }

  /** Every level with spells has a tab. */
  lemma {:induction false} NonEmptyLevelsComplete(spells: seq<seq<Entry>>, k: nat)
    ensures k < |spells| && spells[k] != [] ==> k in NonEmptyLevels(spells)
    decreases |spells|
  {
    if k < |spells| - 1 {
      var init := spells[..|spells| - 1];
      assert init[k] == spells[k];
      NonEmptyLevelsComplete(init, k);
    }
  }

  /** `CharacterPage::tab_index`: 0 for the "all" tab, else one past the rank of the tab's
      level among the levels with spells. `None` is the `unwrap` panic on a tab whose level
      has no spells. */
  function TabIndex(page: CharacterPage): (r: Option<nat>)
    ensures page.tab.None? ==> r == Some(0)
    ensures page.tab.Some? ==> (r.None? <==> Index10(page.character.spells, page.tab.value) == [])
    ensures page.tab.Some? && r.Some? ==>
      var levels := NonEmptyLevels(page.character.spells);
      1 <= r.value <= |levels| && levels[r.value - 1] == AsU8(page.tab.value)
  {
    match page.tab
    case None => Some(0)
    case Some(level) =>
      var levels := NonEmptyLevels(page.character.spells);
      NonEmptyLevelsComplete(page.character.spells, AsU8(level) as nat);
      match FindIndex(levels, (l: nat) => l == AsU8(level) as nat)
      case Some(i) => Some(i + 1)
      case None => None
  }

  /** Two level tabs of the same character have the same index only if they are the same
      tab. */
  lemma TabIndexInjective(a: CharacterPage, b: CharacterPage)
    requires a.character.spells == b.character.spells && a.tab.Some? && b.tab.Some?
    requires TabIndex(a).Some? && TabIndex(a) == TabIndex(b)
    ensures a.tab == b.tab
  {
    AsU8Injective(a.tab.value, b.tab.value);
  }

  // ---- the page's operations ----

  /** `CharacterPage::add_spell`: pushed, prepared, onto its level unless an equal spell is
      already there. */
  function WithSpell(page: CharacterPage, spell: Spell): (r: CharacterPage)
    ensures r == page.(character := page.character.(spells := r.character.spells))
    ensures forall j :: 0 <= j < 10 && j != AsU8(LevelOf(spell)) ==>
      r.character.spells[j] == page.character.spells[j]
    ensures var b := page.character.spells[AsU8(LevelOf(spell))];
      (exists i :: 0 <= i < |b| && SpellEq(b[i].0, spell)) ==> r.character.spells[AsU8(LevelOf(spell))] == b
    ensures var b := page.character.spells[AsU8(LevelOf(spell))];
      (forall i :: 0 <= i < |b| ==> !SpellEq(b[i].0, spell)) ==>
        r.character.spells[AsU8(LevelOf(spell))] == b + [(spell, true)]
  {
    var k := AsU8(LevelOf(spell));
    var b := page.character.spells[k];
    var p := (e: Entry) => SpellEq(e.0, spell);
    AnyIffExists(b, p);
    if Any(b, p) then page
    else page.(character := page.character.(spells := page.character.spells[k := b + [(spell, true)]]))
  }

  /** Adding a spell twice is adding it once. */
  lemma WithSpellIdempotent(page: CharacterPage, spell: Spell)
    ensures WithSpell(WithSpell(page, spell), spell) == WithSpell(page, spell)
  {
    var k := AsU8(LevelOf(spell));
    var b := WithSpell(page, spell).character.spells[k];
    var b0 := page.character.spells[k];
    if forall i :: 0 <= i < |b0| ==> !SpellEq(b0[i].0, spell) {
      assert b[|b0|] == (spell, true);
    }
  }

  /** After adding, an equal spell is on the list, and the lists stay filed by level. */
  lemma WithSpellFiled(page: CharacterPage, spell: Spell)
    requires Filed(page.character.spells)
    ensures var r := WithSpell(page, spell).character.spells;
      Filed(r) && exists i :: 0 <= i < |r[AsU8(LevelOf(spell))]| && SpellEq(r[AsU8(LevelOf(spell))][i].0, spell)
  {
    var k := AsU8(LevelOf(spell));
    var b := page.character.spells[k];
    var r := WithSpell(page, spell).character.spells;
    if forall i :: 0 <= i < |b| ==> !SpellEq(b[i].0, spell) {
      assert r[k][|b|] == (spell, true);
    } else {
      var i :| 0 <= i < |b| && SpellEq(b[i].0, spell);
      assert r[k][i] == b[i];
    }
  }

  /** Adding never puts two equal spells on a list. */
  lemma WithSpellUnique(page: CharacterPage, spell: Spell)
    requires Unique(page.character.spells)
    ensures Unique(WithSpell(page, spell).character.spells)
  {
    var k := AsU8(LevelOf(spell));
    var b := page.character.spells[k];
    var r := WithSpell(page, spell).character.spells;
    if forall i :: 0 <= i < |b| ==> !SpellEq(b[i].0, spell) {
      forall i, j | 0 <= i < |r[k]| && 0 <= j < |r[k]| && i != j
        ensures !SpellEq(r[k][i].0, r[k][j].0)
      {
        if i == |b| {
          SpellEqSymmetric(r[k][j].0, spell);
        }
      }
    }
  }

  /** `PartialEq for Spell` is symmetric. */
  lemma SpellEqSymmetric(a: Spell, b: Spell)
    ensures SpellEq(a, b) <==> SpellEq(b, a)
  {
  }

  /** `CharacterPage::search`: lists every level's hits afresh; on the "all" tab a search
      with exactly one hit also shows that spell. */
  function Research(page: CharacterPage): (r: CharacterPage)
    ensures r == page.(searchResults := r.searchResults, viewSpell := r.viewSpell)
    ensures Consistent(r)
    ensures page.tab.Some? || |Flatten(r.searchResults)| != 1 ==> r.viewSpell == page.viewSpell
    ensures page.tab.None? && |Flatten(r.searchResults)| == 1 ==>
      exists k, j :: 0 <= k < 10 && 0 <= j < |page.character.spells[k]|
        && Hit(page.search, ToLower(page.search.search), page.character.spells[k][j].0)
        && r.viewSpell == Some(Id(page.character.spells[k][j].0))
  {
    var o := page.search;
    var results := SearchResults(page.character.spells, o);
    var listed := page.(searchResults := results);
    if page.tab.None? && |Flatten(results)| == 1 then
      listed.(viewSpell := Some(OnlyHit(page.character.spells, o, results)))
    else listed
  }

  /** Every level's hits. */
  function SearchResults(spells: Buckets, o: SearchOptions): (r: Results)
    ensures forall k :: 0 <= k < 10 ==> Lists(spells[k], o, ToLower(o.search), r[k])
  {
    var needle := ToLower(o.search);
    var results: Results := seq(10, k requires 0 <= k < 10 => Hits(spells[k], o, needle));
    assert forall k :: 0 <= k < 10 ==> results[k] == Hits(spells[k], o, needle);
    results
  }

  /** The spell of the one hit of a search that has exactly one. */
  function OnlyHit(spells: Buckets, o: SearchOptions, results: Results): (r: SpellId)
    requires forall k :: 0 <= k < 10 ==> Lists(spells[k], o, ToLower(o.search), results[k])
    requires |Flatten(results)| == 1
    ensures exists k, j ::
      0 <= k < 10 && 0 <= j < |spells[k]| && Hit(o, ToLower(o.search), spells[k][j].0) && r == Id(spells[k][j].0)
  {
    FlattenEmpty(results);
    var k := FirstNonEmpty(results, 0);
    var j := results[k][0];
    assert Lists(spells[k], o, ToLower(o.search), results[k]);
    assert j in results[k];
    Id(spells[k][j].0)
  }

  /** The first position on a level whose spell has this name (`Iterator::position`). */
  function Position(bucket: seq<Entry>, name: string): (r: Option<nat>)
    ensures r.Some? ==> r.value < |bucket| && Name(bucket[r.value].0).Deref() == name
    ensures r.Some? ==> forall j :: 0 <= j < r.value ==> Name(bucket[j].0).Deref() != name
    ensures r.None? ==> forall j :: 0 <= j < |bucket| ==> Name(bucket[j].0).Deref() != name
  {
    FindIndex(bucket, (e: Entry) => Name(e.0).Deref() == name)
  }

  /** The `Prepare` arm: flips the prepared flag of the first spell of that name on the id's
      level, and says whether there was one. */
  function Prepared(page: CharacterPage, id: SpellId): (r: (CharacterPage, bool))
    ensures r.0 == page.(character := page.character.(spells := r.0.character.spells))
    ensures var b := Index10(page.character.spells, id.level);
      r.1 <==> exists i :: 0 <= i < |b| && Name(b[i].0).Deref() == id.name.Deref()
    ensures forall k :: 0 <= k < 10 && k != AsU8(id.level) ==> r.0.character.spells[k] == page.character.spells[k]
    ensures var b := Index10(page.character.spells, id.level);
      var b' := Index10(r.0.character.spells, id.level);
      |b'| == |b| && forall i :: 0 <= i < |b| ==> b'[i].0 == b[i].0
    ensures var b := Index10(page.character.spells, id.level);
      var b' := Index10(r.0.character.spells, id.level);
      forall i :: 0 <= i < |b| ==> (b'[i].1 != b[i].1 <==> Position(b, id.name.Deref()) == Some(i))
  {
    var k := AsU8(id.level);
    var b := page.character.spells[k];
    match Position(b, id.name.Deref())
    case Some(i) =>
      var spells := page.character.spells[k := b[i := (b[i].0, !b[i].1)]];
      (page.(character := page.character.(spells := spells)), true)
    case None => (page, false)
  }

  /** Preparing the same spell twice restores the page. */
  lemma PrepareTwice(page: CharacterPage, id: SpellId)
    ensures Prepared(Prepared(page, id).0, id).0 == page
  {
    var k := AsU8(id.level);
    var b := page.character.spells[k];
    var once := Prepared(page, id).0;
    var b' := once.character.spells[k];
    assert forall i :: 0 <= i < |b| ==> Name(b'[i].0) == Name(b[i].0);
    assert Position(b', id.name.Deref()) == Position(b, id.name.Deref()) by {
      var p := (e: Entry) => Name(e.0).Deref() == id.name.Deref();
      FindIndexSameTest(b, b', p);
    }
    var twice := Prepared(once, id).0;
    assert twice.character.spells[k] == b;
    assert twice.character.spells == page.character.spells;
  }

  /** `position` depends only on which elements pass the test. */
  lemma {:induction false} FindIndexSameTest<T>(a: seq<T>, b: seq<T>, p: T -> bool)
    requires |a| == |b| && forall i :: 0 <= i < |a| ==> (p(a[i]) <==> p(b[i]))
    ensures FindIndex(a, p) == FindIndex(b, p)
    decreases |a|
  {
    if |a| > 0 {
      FindIndexSameTest(a[1..], b[1..], p);
    }
  }

  /** The `PrepareAll` arm: every spell's flag set to `prepare`. */
  function AllPrepared(spells: Buckets, prepare: bool): (r: Buckets)
    ensures forall k :: 0 <= k < 10 ==> |r[k]| == |spells[k]|
    ensures forall k, i :: 0 <= k < 10 && 0 <= i < |spells[k]| ==> r[k][i] == (spells[k][i].0, prepare)
  {
    seq(10, k requires 0 <= k < 10 =>
      seq(|spells[k]|, i requires 0 <= i < |spells[k]| => (spells[k][i].0, prepare)))
  }

  /** The page with level `k` replaced by `b`, searched again. */
  function Refiled(page: CharacterPage, k: nat, b: seq<Entry>): (r: CharacterPage)
    requires k < 10
    ensures r.character.spells == page.character.spells[k := b]
    ensures r.character.name == page.character.name && r.character.slots == page.character.slots
    ensures r.tab == page.tab && r.search == page.search
    ensures Consistent(r)
  {
    var spells: Buckets := page.character.spells[k := b];
    Research(page.(character := page.character.(spells := spells)))
  }

  /** The `RemoveSpell` arm: drops the first spell of that name from the id's level, searches
      again, and says whether there was one. */
  function Removed(page: CharacterPage, id: SpellId): (r: (CharacterPage, bool))
    ensures var b := Index10(page.character.spells, id.level);
      r.1 <==> exists i :: 0 <= i < |b| && Name(b[i].0).Deref() == id.name.Deref()
    ensures !r.1 ==> r.0 == page
    ensures r.1 ==> Consistent(r.0)
    ensures r.1 ==> r.0.character.name == page.character.name && r.0.character.slots == page.character.slots
    ensures r.1 ==> r.0.tab == page.tab && r.0.search == page.search
    ensures forall k :: 0 <= k < 10 && k != AsU8(id.level) ==> r.0.character.spells[k] == page.character.spells[k]
    ensures var b := Index10(page.character.spells, id.level);
      var i := Position(b, id.name.Deref());
      i.Some? ==> Index10(r.0.character.spells, id.level) == b[..i.value] + b[i.value + 1..]
  {
    var k := AsU8(id.level);
    var b := page.character.spells[k];
    match Position(b, id.name.Deref())
    case Some(i) =>
      (Refiled(page, k, b[..i] + b[i + 1..]), true)
    case None => (page, false)
  }

  /** Where the `MoveSpell` arm puts the spell at `idx` of a level with `len` spells. */
  function MoveTarget(idx: nat, len: nat, dir: MoveSpell, numCols: nat, allTab: bool): (r: nat)
    requires idx < len
    ensures r < len
    ensures IsNegative(dir) ==> r == if idx < Delta(dir, numCols, allTab) then 0 else idx - Delta(dir, numCols, allTab)
    ensures !IsNegative(dir) ==> r == Min(idx + Delta(dir, numCols, allTab), len - 1)
  {
    var d := Delta(dir, numCols, allTab);
    if IsNegative(dir) then SaturatingSub(idx, d) else Min(idx + d, len - 1)
  }

  /** A move left or right on the "all" tab and its opposite undo each other away from the
      ends of the level. */
  lemma MoveTargetBack(idx: nat, len: nat, numCols: nat, allTab: bool)
    requires 0 < idx && idx + 1 < len
    ensures MoveTarget(MoveTarget(idx, len, Left, numCols, allTab), len, Right, numCols, allTab) == idx
    ensures MoveTarget(MoveTarget(idx, len, Right, numCols, allTab), len, Left, numCols, allTab) == idx
  {
  }

  /** The `MoveSpell` arm: swaps the first spell of that name with the one `Delta` places
      away, clamped to the level, searches again, and says whether there was one. */
  function Moved(page: CharacterPage, id: SpellId, dir: MoveSpell, numCols: nat): (r: (CharacterPage, bool))
    ensures var b := Index10(page.character.spells, id.level);
      r.1 <==> exists i :: 0 <= i < |b| && Name(b[i].0).Deref() == id.name.Deref()
    ensures !r.1 ==> r.0 == page
    ensures r.1 ==> Consistent(r.0)
    ensures r.1 ==> r.0.character.name == page.character.name && r.0.character.slots == page.character.slots
    ensures r.1 ==> r.0.tab == page.tab && r.0.search == page.search
    ensures forall k :: 0 <= k < 10 && k != AsU8(id.level) ==> r.0.character.spells[k] == page.character.spells[k]
    ensures var b := Index10(page.character.spells, id.level);
      var i := Position(b, id.name.Deref());
      i.Some? ==>
        var t := MoveTarget(i.value, |b|, dir, numCols, page.tab.None?);
        Index10(r.0.character.spells, id.level) == Swap(b, i.value, t)
  {
    var k := AsU8(id.level);
    var b := page.character.spells[k];
    match Position(b, id.name.Deref())
    case Some(i) =>
      var t := MoveTarget(i, |b|, dir, numCols, page.tab.None?);
      (Refiled(page, k, Swap(b, i, t)), true)
    case None => (page, false)
  }

  // ---- `CharacterPage::update` ----

  /** `character::Message`. The arrow message is `Move` and the search message `Query` here,
      keeping the names apart from `MoveSpell` and the `Search` module. */
  datatype CharacterMessage =
    | ToggleCollapse
    | ToggleCollapseAll
    | Prepare(id: SpellId)
    | PrepareAll(prepare: bool)
    | SpellTab(tabLevel: Option<Level>)
    | AddSpell(id: SpellId)
    | RemoveSpell(id: SpellId)
    | Move(id: SpellId, dir: MoveSpell)
    | Query(message: SearchMessage)
    | ChangeNumSlots(level: Level, delta: i32)
    | SlotsCast(level: Level, delta: i32)
    | SlotsReset
    | ViewSpell(id: SpellId)

  /** The page after a message and whether the character should be saved now; `Panicked`
      for a message the source `unwrap`s or indexes out of bounds on. */
  datatype Step = Step(page: CharacterPage, save: bool) | Panicked

  /** Whether the id's level has a spell of that name. */
  predicate Knows(page: CharacterPage, id: SpellId) {
    var b := Index10(page.character.spells, id.level);
    exists i :: 0 <= i < |b| && Name(b[i].0).Deref() == id.name.Deref()
  }

  /** `CharacterPage::update`. The search message goes through the options update of the
      search page, searching again when that asks for it. */
  function Update(page: CharacterPage, msg: CharacterMessage, statics: seq<StaticSpell>,
                  custom: seq<CustomSpell>, numCols: nat): (r: Step)
    ensures r.Panicked? <==>
      (msg.AddSpell? && FindSpell(msg.id.name.Deref(), statics, custom).None?)
      || ((msg.ChangeNumSlots? || msg.SlotsCast?) && msg.level == Cantrip)
    ensures r.Step? ==> (r.save <==>
      msg.PrepareAll? || msg.AddSpell? || msg.ChangeNumSlots? || msg.SlotsCast? || msg.SlotsReset?
      || ((msg.Prepare? || msg.RemoveSpell? || msg.Move?) && Knows(page, msg.id)))
    ensures r.Step? ==> r.page.character.name == page.character.name
    ensures r.Step? && !msg.SpellTab? ==> r.page.tab == page.tab
    ensures r.Step? && msg.SpellTab? ==> r.page.tab == msg.tabLevel
    ensures r.Step? && SlotsValid(page.character.slots) ==> SlotsValid(r.page.character.slots)
    ensures r.Step? && !(msg.ChangeNumSlots? || msg.SlotsCast? || msg.SlotsReset?) ==>
      r.page.character.slots == page.character.slots
    ensures r.Step? && msg.SlotsReset? ==>
      forall i :: 0 <= i < 9 ==> r.page.character.slots[i] == Slots(page.character.slots[i].total, 0)
    ensures r.Step? && (msg.ChangeNumSlots? || msg.SlotsCast?) ==>
      forall i :: 0 <= i < 9 && i != AsU8(msg.level) - 1 ==> r.page.character.slots[i] == page.character.slots[i]
  {
    if msg.Prepare? || msg.PrepareAll? || msg.AddSpell? || msg.RemoveSpell? || msg.Move? then
      SpellsStep(page, msg, statics, custom, numCols)
    else if msg.ChangeNumSlots? || msg.SlotsCast? || msg.SlotsReset? then SlotsStep(page, msg)
    else ViewStep(page, msg)
  }

  /** The arms of `CharacterPage::update` that change only what is on show: they never panic,
      never ask for a save, and keep the character. */
  function ViewStep(page: CharacterPage, msg: CharacterMessage): (r: Step)
    requires msg.ToggleCollapse? || msg.ToggleCollapseAll? || msg.SpellTab? || msg.Query? || msg.ViewSpell?
    ensures r.Step? && !r.save && r.page.character == page.character
    ensures !msg.SpellTab? ==> r.page.tab == page.tab
    ensures msg.SpellTab? ==> r.page.tab == msg.tabLevel
  {
    match msg
    case ToggleCollapse => Step(page.(shouldCollapseUnprepared := !page.shouldCollapseUnprepared), false)
    case ToggleCollapseAll => Step(page.(shouldCollapseAll := !page.shouldCollapseAll), false)
    case SpellTab(level) => Step(page.(tab := level), false)
    case Query(m) => Step(Queried(page, m), false)
    case ViewSpell(id) => Step(page.(viewSpell := Some(id)), false)
  }

  /** The five arms of `CharacterPage::update` that change the spells: they keep the name,
      the slots and the tab. */
  function SpellsStep(page: CharacterPage, msg: CharacterMessage, statics: seq<StaticSpell>,
                      custom: seq<CustomSpell>, numCols: nat): (r: Step)
    requires msg.Prepare? || msg.PrepareAll? || msg.AddSpell? || msg.RemoveSpell? || msg.Move?
    ensures r.Panicked? <==> msg.AddSpell? && FindSpell(msg.id.name.Deref(), statics, custom).None?
    ensures r.Step? ==> (r.save <==> msg.PrepareAll? || msg.AddSpell? || Knows(page, msg.id))
    ensures r.Step? ==>
      r.page.character.name == page.character.name
      && r.page.character.slots == page.character.slots && r.page.tab == page.tab
  {
    match msg
    case Prepare(id) =>
      var (p, found) := Prepared(page, id);
      Step(p, found)
    case PrepareAll(prepare) =>
      Step(page.(character := page.character.(spells := AllPrepared(page.character.spells, prepare))), true)
    case AddSpell(id) =>
      (match FindSpell(id.name.Deref(), statics, custom)
       case None => Panicked
       case Some(spell) => Step(Research(WithSpell(page, spell)), true))
    case RemoveSpell(id) =>
      var (p, found) := Removed(page, id);
      Step(p, found)
    case Move(id, dir) =>
      var (p, found) := Moved(page, id, dir, numCols);
      Step(p, found)
  }

  /** The `Search` arm: the options update as the search page writes it, searching again
      when that asks for it. Only the options, the results and the spell on view can change. */
  function Queried(page: CharacterPage, m: SearchMessage): (r: CharacterPage)
    ensures r == page.(search := r.search, searchResults := r.searchResults, viewSpell := r.viewSpell)
    ensures r.search == ApplyOptionsAsWritten(page.search, m).0
    ensures !ApplyOptionsAsWritten(page.search, m).1 ==> r == page.(search := r.search)
  {
    var (o, refresh) := ApplyOptionsAsWritten(page.search, m);
    var p := page.(search := o);
    if refresh then Research(p) else p
  }

  /** The three slot arms of `CharacterPage::update`: they change only the slots, and always
      ask for a save. */
  function SlotsStep(page: CharacterPage, msg: CharacterMessage): (r: Step)
    requires msg.ChangeNumSlots? || msg.SlotsCast? || msg.SlotsReset?
    ensures r.Panicked? <==> !msg.SlotsReset? && msg.level == Cantrip
    ensures r.Step? ==> r.save && r.page == page.(character := page.character.(slots := r.page.character.slots))
    ensures r.Step? && SlotsValid(page.character.slots) ==> SlotsValid(r.page.character.slots)
    ensures r.Step? && msg.SlotsReset? ==>
      forall i :: 0 <= i < 9 ==> r.page.character.slots[i] == Slots(page.character.slots[i].total, 0)
    ensures r.Step? && !msg.SlotsReset? ==>
      forall i :: 0 <= i < 9 && i != AsU8(msg.level) - 1 ==> r.page.character.slots[i] == page.character.slots[i]
  {
    var table := page.character.slots;
    match msg
    case ChangeNumSlots(level, delta) =>
      if level == Cantrip then Panicked
      else
        var i := AsU8(level) - 1;
        var slots := table[i := ChangeTotal(table[i], level, delta)];
        Step(page.(character := page.character.(slots := slots)), true)
    case SlotsCast(level, delta) =>
      if level == Cantrip then Panicked
      else
        var i := AsU8(level) - 1;
        var slots := table[i := Cast(table[i], delta)];
        Step(page.(character := page.character.(slots := slots)), true)
    case SlotsReset =>
      var slots: SlotTable := seq(9, i requires 0 <= i < 9 => table[i].(used := 0));
      Step(page.(character := page.character.(slots := slots)), true)
  }

  /** Whether a level's results still fit after its spells changed only in their flags. */
  lemma ListsSameSpells(b: seq<Entry>, b': seq<Entry>, o: SearchOptions, needle: string, res: seq<nat>)
    requires |b| == |b'| && forall i :: 0 <= i < |b| ==> b'[i].0 == b[i].0
    requires Lists(b, o, needle, res)
    ensures Lists(b', o, needle, res)
  {
  }

  /** Results that fit one set of options fit any other admitting the same spells. */
  lemma ListsSameHits(b: seq<Entry>, o: SearchOptions, o': SearchOptions, res: seq<nat>)
    requires o'.search == o.search
    requires forall i :: 0 <= i < |b| ==> (Admits(o', b[i].0) <==> Admits(o, b[i].0))
    requires Lists(b, o, ToLower(o.search), res)
    ensures Lists(b, o', ToLower(o'.search), res)
  {
  }

  /** After every message the results on screen are what the page's search gives: each
      message that changes the spells or what the options admit searches again, except the
      picks after which the options update skips a needed search. */
  lemma UpdateKeepsConsistent(page: CharacterPage, msg: CharacterMessage, statics: seq<StaticSpell>,
                              custom: seq<CustomSpell>, numCols: nat)
    requires Consistent(page)
    requires msg.Query? ==> !SkipsNeededSearch(page.search, msg.message)
    ensures var r := Update(page, msg, statics, custom, numCols);
      r.Step? ==> Consistent(r.page)
  {
    match msg
    case Prepare(id) => PrepareKeepsConsistent(page, id, statics, custom, numCols);
    case PrepareAll(prepare) => PrepareAllKeepsConsistent(page, prepare, statics, custom, numCols);
    case Query(m) => QueryKeepsConsistent(page, m, statics, custom, numCols);
    case _ =>
  }

  /** Flipping one prepared flag leaves the results fitting. */
  lemma PrepareKeepsConsistent(page: CharacterPage, id: SpellId, statics: seq<StaticSpell>,
                               custom: seq<CustomSpell>, numCols: nat)
    requires Consistent(page)
    ensures var r := Update(page, Prepare(id), statics, custom, numCols);
      r.Step? ==> Consistent(r.page)
  {
    var p := Prepared(page, id).0;
    assert Update(page, Prepare(id), statics, custom, numCols).page == p;
    var o := page.search;
    var k := AsU8(id.level);
    ListsSameSpells(page.character.spells[k], p.character.spells[k], o, ToLower(o.search), page.searchResults[k]);
  }

  /** Setting every prepared flag leaves the results fitting. */
  lemma PrepareAllKeepsConsistent(page: CharacterPage, prepare: bool, statics: seq<StaticSpell>,
                                  custom: seq<CustomSpell>, numCols: nat)
    requires Consistent(page)
    ensures var r := Update(page, PrepareAll(prepare), statics, custom, numCols);
      r.Step? ==> Consistent(r.page)
  {
    var spells' := AllPrepared(page.character.spells, prepare);
    assert Update(page, PrepareAll(prepare), statics, custom, numCols).page
      == page.(character := page.character.(spells := spells'));
    var o := page.search;
    forall k | 0 <= k < 10
      ensures Lists(spells'[k], o, ToLower(o.search), page.searchResults[k])
    {
      ListsSameSpells(page.character.spells[k], spells'[k], o, ToLower(o.search), page.searchResults[k]);
    }
  }

  /** A search message other than the picks `SkipsNeededSearch` names either searches again
      or changes nothing the results depend on. */
  lemma QueryKeepsConsistent(page: CharacterPage, m: SearchMessage, statics: seq<StaticSpell>,
                             custom: seq<CustomSpell>, numCols: nat)
    requires Consistent(page) && !SkipsNeededSearch(page.search, m)
    ensures var r := Update(page, Query(m), statics, custom, numCols);
      r.Step? ==> Consistent(r.page)
  {
    var o := page.search;
    var (o', refresh) := ApplyOptionsAsWritten(o, m);
    if !refresh {
      assert Update(page, Query(m), statics, custom, numCols).page == page.(search := o');
      forall k | 0 <= k < 10
        ensures Lists(page.character.spells[k], o', ToLower(o'.search), page.searchResults[k])
      {
        var b := page.character.spells[k];
        forall i | 0 <= i < |b|
          ensures Admits(o', b[i].0) <==> Admits(o, b[i].0)
        {
          AsWrittenKeepsAdmission(o, m, b[i].0);
        }
        ListsSameHits(b, o, o', page.searchResults[k]);
      }
    }
  }

  /** Removing the spell at `i` keeps the others in order: each survivor comes from the
      position `m` or `m + 1` of the old list. */
  lemma RemovedFrom<T>(b: seq<T>, i: nat, m: nat)
    requires i < |b| && m < |b| - 1
    ensures (b[..i] + b[i + 1..])[m] == if m < i then b[m] else b[m + 1]
  {
  }

  /** Removing one spell keeps a list filed and free of equal spells. */
  lemma RemoveKeepsList(b: seq<Entry>, i: nat, k: nat)
    requires i < |b|
    ensures FiledList(b, k) ==> FiledList(b[..i] + b[i + 1..], k)
    ensures UniqueList(b) ==> UniqueList(b[..i] + b[i + 1..])
  {
    var b' := b[..i] + b[i + 1..];
    forall m | 0 <= m < |b'|
      ensures b'[m] == if m < i then b[m] else b[m + 1]
    {
      RemovedFrom(b, i, m);
    }
  }

  /** Swapping two spells keeps a list filed and free of equal spells. */
  lemma SwapKeepsList(b: seq<Entry>, i: nat, t: nat, k: nat)
    requires i < |b| && t < |b|
    ensures FiledList(b, k) ==> FiledList(Swap(b, i, t), k)
    ensures UniqueList(b) ==> UniqueList(Swap(b, i, t))
  {
    var b' := Swap(b, i, t);
    forall m | 0 <= m < |b'|
      ensures b'[m] == b[if m == i then t else if m == t then i else m]
    {
    }
  }

  /** Replacing one level by a list that is filed and free of equal spells keeps all of them
      so. */
  lemma LevelReplaced(spells: Buckets, spells': Buckets, k: nat)
    requires k < 10
    requires forall j :: 0 <= j < 10 && j != k ==> spells'[j] == spells[j]
    ensures Filed(spells) && FiledList(spells'[k], k) ==> Filed(spells')
    ensures Unique(spells) && UniqueList(spells'[k]) ==> Unique(spells')
  {
  }

  /** Removing a spell keeps the lists filed and free of equal spells. */
  lemma RemovedKeeps(page: CharacterPage, id: SpellId)
    ensures Filed(page.character.spells) ==> Filed(Removed(page, id).0.character.spells)
    ensures Unique(page.character.spells) ==> Unique(Removed(page, id).0.character.spells)
  {
    var k := AsU8(id.level) as nat;
    var b := page.character.spells[k];
    var found := Position(b, id.name.Deref());
    if found.Some? {
      var spells' := Removed(page, id).0.character.spells;
      RemoveKeepsList(b, found.value, k);
      assert spells'[k] == b[..found.value] + b[found.value + 1..];
      LevelReplaced(page.character.spells, spells', k);
    } else {
      assert Removed(page, id).0 == page;
    }
  }

  /** Moving a spell keeps the lists filed and free of equal spells. */
  lemma MovedKeeps(page: CharacterPage, id: SpellId, dir: MoveSpell, numCols: nat)
    ensures Filed(page.character.spells) ==> Filed(Moved(page, id, dir, numCols).0.character.spells)
    ensures Unique(page.character.spells) ==> Unique(Moved(page, id, dir, numCols).0.character.spells)
  {
    var k := AsU8(id.level) as nat;
    var b := page.character.spells[k];
    var found := Position(b, id.name.Deref());
    if found.Some? {
      var i := found.value;
      var t := MoveTarget(i, |b|, dir, numCols, page.tab.None?);
      var spells' := Moved(page, id, dir, numCols).0.character.spells;
      SwapKeepsList(b, i, t, k);
      assert spells'[k] == Swap(b, i, t);
      LevelReplaced(page.character.spells, spells', k);
    } else {
      assert Moved(page, id, dir, numCols).0 == page;
    }
  }

  /** Whether a step kept the lists filed and free of equal spells. */
  predicate KeepsLists(before: Buckets, r: Step) {
    r.Step? ==>
      (Filed(before) ==> Filed(r.page.character.spells))
      && (Unique(before) ==> Unique(r.page.character.spells))
  }

  /** Only the five messages about the spells change them; the others keep every list. */
  lemma UpdateSpellsFrame(page: CharacterPage, msg: CharacterMessage, statics: seq<StaticSpell>,
                          custom: seq<CustomSpell>, numCols: nat)
    requires !(msg.Prepare? || msg.PrepareAll? || msg.AddSpell? || msg.RemoveSpell? || msg.Move?)
    ensures var r := Update(page, msg, statics, custom, numCols);
      r.Step? ==> r.page.character.spells == page.character.spells
  {
  }

  /** Adding a spell keeps the lists filed and free of equal spells. */
  lemma AddKeepsLists(page: CharacterPage, id: SpellId, statics: seq<StaticSpell>,
                      custom: seq<CustomSpell>, numCols: nat)
    ensures KeepsLists(page.character.spells, Update(page, AddSpell(id), statics, custom, numCols))
  {
    var found := FindSpell(id.name.Deref(), statics, custom);
    if found.Some? {
      var r := Update(page, AddSpell(id), statics, custom, numCols);
      assert r.page.character.spells == WithSpell(page, found.value).character.spells;
      if Filed(page.character.spells) {
        WithSpellFiled(page, found.value);
      }
      if Unique(page.character.spells) {
        WithSpellUnique(page, found.value);
      }
    }
  }

  /** Flipping one prepared flag keeps the lists filed and free of equal spells. */
  lemma PrepareKeepsLists(page: CharacterPage, id: SpellId, statics: seq<StaticSpell>,
                          custom: seq<CustomSpell>, numCols: nat)
    ensures KeepsLists(page.character.spells, Update(page, Prepare(id), statics, custom, numCols))
  {
    var k := AsU8(id.level) as nat;
    var spells' := Prepared(page, id).0.character.spells;
    assert Update(page, Prepare(id), statics, custom, numCols).page.character.spells == spells';
    FlagsKeepList(page.character.spells[k], spells'[k], k);
    LevelReplaced(page.character.spells, spells', k);
  }

  /** A list whose flags changed, but not its spells, stays filed and free of equal spells. */
  lemma FlagsKeepList(b: seq<Entry>, b': seq<Entry>, k: nat)
    requires |b'| == |b| && forall i :: 0 <= i < |b| ==> b'[i].0 == b[i].0
    ensures FiledList(b, k) ==> FiledList(b', k)
    ensures UniqueList(b) ==> UniqueList(b')
  {
  }

  /** Setting every prepared flag keeps the lists filed and free of equal spells. */
  lemma PrepareAllKeepsLists(page: CharacterPage, prepare: bool, statics: seq<StaticSpell>,
                             custom: seq<CustomSpell>, numCols: nat)
    ensures KeepsLists(page.character.spells, Update(page, PrepareAll(prepare), statics, custom, numCols))
  {
    var spells' := AllPrepared(page.character.spells, prepare);
    assert Update(page, PrepareAll(prepare), statics, custom, numCols).page.character.spells == spells';
  }

  /** Removing a spell keeps the lists filed and free of equal spells. */
  lemma RemoveSpellKeepsLists(page: CharacterPage, id: SpellId, statics: seq<StaticSpell>,
                              custom: seq<CustomSpell>, numCols: nat)
    ensures KeepsLists(page.character.spells, Update(page, RemoveSpell(id), statics, custom, numCols))
  {
    var r := Update(page, RemoveSpell(id), statics, custom, numCols);
    RemovedKeeps(page, id);
    assert r.Step? ==> r.page.character.spells == Removed(page, id).0.character.spells;
  }

  /** Moving a spell keeps the lists filed and free of equal spells. */
  lemma MoveSpellKeepsLists(page: CharacterPage, id: SpellId, dir: MoveSpell, statics: seq<StaticSpell>,
                            custom: seq<CustomSpell>, numCols: nat)
    ensures KeepsLists(page.character.spells, Update(page, Move(id, dir), statics, custom, numCols))
  {
    var r := Update(page, Move(id, dir), statics, custom, numCols);
    MovedKeeps(page, id, dir, numCols);
    assert r.Step? ==> r.page.character.spells == Moved(page, id, dir, numCols).0.character.spells;
  }

  /** The messages that leave the spells alone keep the lists as they are. */
  lemma FrameKeepsLists(page: CharacterPage, msg: CharacterMessage, statics: seq<StaticSpell>,
                        custom: seq<CustomSpell>, numCols: nat)
    requires !(msg.Prepare? || msg.PrepareAll? || msg.AddSpell? || msg.RemoveSpell? || msg.Move?)
    ensures KeepsLists(page.character.spells, Update(page, msg, statics, custom, numCols))
  {
    UpdateSpellsFrame(page, msg, statics, custom, numCols);
  }

  /** Every message keeps each spell on the list of its own level, and each list free of
      equal spells. */
  lemma {:induction false} UpdateKeepsFiled(page: CharacterPage, msg: CharacterMessage, statics: seq<StaticSpell>,
                         custom: seq<CustomSpell>, numCols: nat)
    ensures var r := Update(page, msg, statics, custom, numCols);
      r.Step? && Filed(page.character.spells) ==> Filed(r.page.character.spells)
    ensures var r := Update(page, msg, statics, custom, numCols);
      r.Step? && Unique(page.character.spells) ==> Unique(r.page.character.spells)
  {
    match msg
    case AddSpell(id) => AddKeepsLists(page, id, statics, custom, numCols);
    case RemoveSpell(id) => RemoveSpellKeepsLists(page, id, statics, custom, numCols);
    case Move(id, dir) => MoveSpellKeepsLists(page, id, dir, statics, custom, numCols);
    case Prepare(id) => PrepareKeepsLists(page, id, statics, custom, numCols);
    case PrepareAll(prepare) => PrepareAllKeepsLists(page, prepare, statics, custom, numCols);
    case _ => FrameKeepsLists(page, msg, statics, custom, numCols);
  }
}

=== FILE: click_button.dfy ===
/** `src/click_button.rs`: a button that reacts to the left, right and middle mouse buttons.
    Its state remembers which buttons went down over it; a message is published when such a
    button comes back up over it. Layout geometry is abstracted to whether the cursor is
    inside the button's bounds. */
module ClickButtons {
  import opened Wrappers

  /** The three buttons the widget tracks. */
  datatype Tracked = LeftButton | RightButton | MiddleButton

  /** `mouse::Button`: the tracked ones and any other numbered button. */
  datatype MouseButton = Tracked(button: Tracked) | OtherButton(code: nat)

  /** `State`: which tracked buttons are currently held after going down over the widget. */
  datatype State = State(isLeftPressed: bool, isRightPressed: bool, isMiddlePressed: bool)

  /** `State::new`: nothing held. */
  const INITIAL: State := State(false, false, false)

  /** `State::is_pressed`, read side. */
  function IsPressed(st: State, b: Tracked): bool {
    match b
    case LeftButton => st.isLeftPressed
    case RightButton => st.isRightPressed
    case MiddleButton => st.isMiddlePressed
  }

  /** `State::is_pressed`, write side: the flag of `b` set to `v`, the others untouched. */
  function SetPressed(st: State, b: Tracked, v: bool): (r: State)
    ensures IsPressed(r, b) == v
    ensures forall o :: o != b ==> IsPressed(r, o) == IsPressed(st, o)
  {
    match b
    case LeftButton => st.(isLeftPressed := v)
    case RightButton => st.(isRightPressed := v)
    case MiddleButton => st.(isMiddlePressed := v)
  }

  /** `State::any_pressed`. */
  function AnyPressed(st: State): (r: bool)
    ensures r <==> exists b :: IsPressed(st, b)
  {
    assert IsPressed(st, LeftButton) == st.isLeftPressed;
    assert IsPressed(st, RightButton) == st.isRightPressed;
    assert IsPressed(st, MiddleButton) == st.isMiddlePressed;
    st.isLeftPressed || st.isRightPressed || st.isMiddlePressed
  }

  /** The three optional messages of a `ClickButton`. */
  datatype Handlers<M> = Handlers(onLeft: Option<M>, onRight: Option<M>, onMiddle: Option<M>)

  function Handler<M>(h: Handlers<M>, b: Tracked): Option<M> {
    match b
    case LeftButton => h.onLeft
    case RightButton => h.onRight
    case MiddleButton => h.onMiddle
  }

  /** `ClickButton::is_enabled`: some button has a message. */
  function IsEnabled<M>(h: Handlers<M>): (r: bool)
    ensures r <==> exists b :: Handler(h, b).Some?
  {
    assert Handler(h, LeftButton) == h.onLeft;
    assert Handler(h, RightButton) == h.onRight;
    assert Handler(h, MiddleButton) == h.onMiddle;
    h.onLeft.Some? || h.onMiddle.Some? || h.onRight.Some?
  }

  /** The events the widget distinguishes; everything else is `OtherEvent`. */
  datatype Event =
    | ButtonPressed(pressed: MouseButton)
    | ButtonReleased(released: MouseButton)
    | FingerPressed
    | FingerLifted
    | FingerLost
    | OtherEvent

  /** `event::Status`. */
  datatype Status = Captured | Ignored

  /** What one event does: the new state, the status, and the message published to the
      shell, if any. */
  datatype Handled<M> = Handled(state: State, status: Status, published: Option<M>)

  /** `button_pressed`: with a message for the button and the cursor inside, the button's
      flag is set and the event captured; otherwise nothing happens. */
  function Press<M>(onPress: Option<M>, b: Tracked, inside: bool, st: State): (r: Handled<M>)
    ensures r.published.None?
    ensures r.status == Captured <==> onPress.Some? && inside
    ensures r.status == Captured ==> r.state == SetPressed(st, b, true)
    ensures r.status == Ignored ==> r.state == st
  {
    if onPress.Some? && inside then Handled(SetPressed(st, b, true), Captured, None)
    else Handled(st, Ignored, None)
  }

  /** `button_released`: with a message for the button, the flag is cleared; the event is
      captured exactly when the flag was set, and the message is published exactly when the
      flag was set and the cursor is still inside. Without a message nothing happens. */
  function Release<M>(onPress: Option<M>, b: Tracked, inside: bool, st: State): (r: Handled<M>)
    ensures r.status == Captured <==> onPress.Some? && IsPressed(st, b)
    ensures r.published.Some? <==> onPress.Some? && IsPressed(st, b) && inside
    ensures r.published.Some? ==> r.published == onPress
    ensures onPress.Some? ==> r.state == SetPressed(st, b, false)
    ensures onPress.None? ==> r.state == st
  {
    match onPress
    case None => Handled(st, Ignored, None)
    case Some(msg) =>
      if IsPressed(st, b) then
        Handled(SetPressed(st, b, false), Captured, if inside then Some(msg) else None)
      else Handled(st, Ignored, None)
  }

  /** The free function `update`: touch presses and lifts act as the left button, losing the
      finger clears only the left flag, and every other event is ignored. */
  function Update<M>(event: Event, inside: bool, h: Handlers<M>, st: State): (r: Handled<M>)
    ensures event.FingerLost? ==> r == Handled(st.(isLeftPressed := false), Ignored, None)
  {
    match event
    case ButtonPressed(Tracked(b)) => Press(Handler(h, b), b, inside, st)
    case FingerPressed => Press(h.onLeft, LeftButton, inside, st)
    case ButtonReleased(Tracked(b)) => Release(Handler(h, b), b, inside, st)
    case FingerLifted => Release(h.onLeft, LeftButton, inside, st)
    case FingerLost => Handled(st.(isLeftPressed := false), Ignored, None)
    case _ => Handled(st, Ignored, None)
  }

  /** A finger acts as the left mouse button. */
  lemma TouchIsLeft<M>(inside: bool, h: Handlers<M>, st: State)
    ensures Update(FingerPressed, inside, h, st) == Update(ButtonPressed(Tracked(LeftButton)), inside, h, st)
    ensures Update(FingerLifted, inside, h, st) == Update(ButtonReleased(Tracked(LeftButton)), inside, h, st)
  {
  }

  /** Untracked buttons and unrelated events change nothing and publish nothing. */
  lemma {:induction false} OtherEventsIgnored<M>(event: Event, inside: bool, h: Handlers<M>, st: State)
    requires event.OtherEvent? || (event.ButtonPressed? && event.pressed.OtherButton?)
      || (event.ButtonReleased? && event.released.OtherButton?)
    ensures Update(event, inside, h, st) == Handled(st, Ignored, None)
  {
  }

  /** Only buttons that have a message are ever held. */
  predicate HeldHaveHandlers<M>(h: Handlers<M>, st: State) {
    forall b :: IsPressed(st, b) ==> Handler(h, b).Some?
  }

  /** Every event keeps the held buttons among those with a message, starting from the
      initial state where none is held. */
  lemma {:induction false} UpdateKeepsHeld<M>(event: Event, inside: bool, h: Handlers<M>, st: State)
    requires HeldHaveHandlers(h, st)
    ensures HeldHaveHandlers(h, Update(event, inside, h, st).state)
  {
    var r := Update(event, inside, h, st);
    forall b | IsPressed(r.state, b)
      ensures Handler(h, b).Some?
    {
      match event
      case FingerLost =>
        assert IsPressed(r.state, b) ==> IsPressed(st, b);
      case _ =>
    }
  }

  /** A disabled button never reacts: every event leaves it unheld, ignored and silent. */
  lemma {:induction false} DisabledIgnores<M>(event: Event, inside: bool, h: Handlers<M>, st: State)
    requires !IsEnabled(h) && st == INITIAL
    ensures Update(event, inside, h, st) == Handled(INITIAL, Ignored, None)
  {
    assert forall b :: Handler(h, b).None?;
  }

  /** A click: a press over the button followed by a release over it publishes the button's
      message, captures both events and leaves the state as it was when the button was not
      held before. */
  lemma {:induction false} ClickPublishes<M>(b: Tracked, h: Handlers<M>, st: State)
    requires Handler(h, b).Some? && !IsPressed(st, b)
    ensures var down := Update(ButtonPressed(Tracked(b)), true, h, st);
      var up := Update(ButtonReleased(Tracked(b)), true, h, down.state);
      down.status == Captured && up.status == Captured
      && up.published == Handler(h, b) && up.state == st
  {
    var down := Update(ButtonPressed(Tracked(b)), true, h, st);
    var up := Update(ButtonReleased(Tracked(b)), true, h, down.state);
    assert IsPressed(down.state, b);
    assert SetPressed(SetPressed(st, b, true), b, false) == st by {
      match b
      case LeftButton =>
      case RightButton =>
      case MiddleButton =>
    }
  }

  /** Dragging off: a release outside the button after a press on it publishes nothing but
      still ends the hold. */
  lemma {:induction false} ReleaseOutsideCancels<M>(b: Tracked, h: Handlers<M>, st: State)
    requires Handler(h, b).Some? && IsPressed(st, b)
    ensures var up := Update(ButtonReleased(Tracked(b)), false, h, st);
      up.published.None? && up.status == Captured && !IsPressed(up.state, b)
  {
    var up := Update(ButtonReleased(Tracked(b)), false, h, st);
    assert up == Release(Handler(h, b), b, false, st);
  }

  /** The style sheet entry `draw` picks. */
  datatype Appearance = Disabled | Pressed | Hovered | Active

  /** The style selection in `draw`: disabled without any message; otherwise pressed when
      hovered with a button held, hovered when hovered, and active when the cursor is away. */
  function Style<M>(h: Handlers<M>, mouseOver: bool, st: State): (r: Appearance)
    ensures r == Disabled <==> !IsEnabled(h)
    ensures r == Pressed <==> IsEnabled(h) && mouseOver && AnyPressed(st)
    ensures r == Hovered <==> IsEnabled(h) && mouseOver && !AnyPressed(st)
    ensures r == Active <==> IsEnabled(h) && !mouseOver
  {
    if !IsEnabled(h) then Disabled
    else if mouseOver then (if AnyPressed(st) then Pressed else Hovered)
    else Active
  }

  /** A press the button captured shows it pressed while the cursor stays over it, and the
      click that ends the hold of the only held button brings back the hovered look. */
  lemma {:induction false} PressShowsPressed<M>(b: Tracked, h: Handlers<M>, st: State)
    requires Update(ButtonPressed(Tracked(b)), true, h, st).status == Captured
    ensures Style(h, true, Update(ButtonPressed(Tracked(b)), true, h, st).state) == Pressed
    ensures st == INITIAL ==>
      var down := Update(ButtonPressed(Tracked(b)), true, h, st);
      Style(h, true, Update(ButtonReleased(Tracked(b)), true, h, down.state).state) == Hovered
  {
    var down := Update(ButtonPressed(Tracked(b)), true, h, st);
    assert IsPressed(down.state, b);
    assert Handler(h, b).Some?;
    if st == INITIAL {
      ClickPublishes(b, h, st);
      assert !AnyPressed(INITIAL);
    }
  }
}

=== FILE: data.dfy ===
/** The spell data types of `src/spells/data.rs`: classes, schools, casting times with their
    string codec, components with theirs, sources, and spell levels with level-indexed
    arrays. */
module SpellData {
  import opened Wrappers
  import opened Ints
  import opened Strings
  import opened StaticArc

  // ---- Class and School ----

  datatype Class = Artificer | Bard | Cleric | Druid | Paladin | Ranger | Sorcerer | Warlock | Wizard

  /** Declaration position, which the derived `Ord` follows. */
  function ClassOrdinal(c: Class): (r: nat)
    ensures r < 9
  {
    match c
    case Artificer => 0 case Bard => 1 case Cleric => 2 case Druid => 3 case Paladin => 4
    case Ranger => 5 case Sorcerer => 6 case Warlock => 7 case Wizard => 8
  }

  function ClassName(c: Class): string {
    match c
    case Artificer => "Artificer" case Bard => "Bard" case Cleric => "Cleric"
    case Druid => "Druid" case Paladin => "Paladin" case Ranger => "Ranger"
    case Sorcerer => "Sorcerer" case Warlock => "Warlock" case Wizard => "Wizard"
  }

  datatype School = Abjuration | Conjuration | Divination | Enchantment | Evocation
                  | Illusion | Transmutation | Necromancy

  function SchoolOrdinal(s: School): (r: nat)
    ensures r < 8
  {
    match s
    case Abjuration => 0 case Conjuration => 1 case Divination => 2 case Enchantment => 3
    case Evocation => 4 case Illusion => 5 case Transmutation => 6 case Necromancy => 7
  }

  lemma ClassOrdinalInjective(a: Class, b: Class)
    requires ClassOrdinal(a) == ClassOrdinal(b)
    ensures a == b
  {
  }

  lemma SchoolOrdinalInjective(a: School, b: School)
    requires SchoolOrdinal(a) == SchoolOrdinal(b)
    ensures a == b
  {
  }

  // ---- Level ----

  datatype Level = Cantrip | L1 | L2 | L3 | L4 | L5 | L6 | L7 | L8 | L9

  /** `Level::as_u8`: the spell level as a number, 0 for a cantrip. */
  function AsU8(l: Level): (n: u8)
    ensures n <= 9
    ensures n == 0 <==> l == Cantrip
  {
    match l
    case Cantrip => 0 case L1 => 1 case L2 => 2 case L3 => 3 case L4 => 4
    case L5 => 5 case L6 => 6 case L7 => 7 case L8 => 8 case L9 => 9
  }

  /** `Level::from_u8`: the level with that number, if there is one. */
  function FromU8(n: u8): (r: Option<Level>)
    ensures r.Some? <==> n <= 9
    ensures r.Some? ==> AsU8(r.value) == n
  {
    match n
    case 0 => Some(Cantrip) case 1 => Some(L1) case 2 => Some(L2) case 3 => Some(L3)
    case 4 => Some(L4) case 5 => Some(L5) case 6 => Some(L6) case 7 => Some(L7)
    case 8 => Some(L8) case 9 => Some(L9)
    case _ => None
  }

  /** Converting a level to its number and back is the identity. */
  lemma FromU8AsU8(l: Level)
    ensures FromU8(AsU8(l)) == Some(l)
  {
  }

  /** Two levels with the same number are the same level. */
  lemma AsU8Injective(a: Level, b: Level)
    requires AsU8(a) == AsU8(b)
    ensures a == b
  {
    FromU8AsU8(a);
    FromU8AsU8(b);
  }

  function NextChecked(l: Level): (r: Option<Level>)
    ensures r.None? <==> l == L9
    ensures r.Some? ==> AsU8(r.value) == AsU8(l) + 1
  {
    FromU8(AsU8(l) + 1)
  }

  function NextSaturating(l: Level): (r: Level)
    ensures l == L9 ==> r == l
    ensures l != L9 ==> AsU8(r) == AsU8(l) + 1
  {
    NextChecked(l).UnwrapOr(l)
  }

  /** `prev_checked`: `checked_sub(1)` then `from_u8`. */
  function PrevChecked(l: Level): (r: Option<Level>)
    ensures r.None? <==> l == Cantrip
    ensures r.Some? ==> AsU8(r.value) + 1 == AsU8(l)
  {
    var n := AsU8(l);
    if n == 0 then None else FromU8(n - 1)
  }

  function PrevSaturating(l: Level): (r: Level)
    ensures l == Cantrip ==> r == l
    ensures l != Cantrip ==> AsU8(r) + 1 == AsU8(l)
  {
    PrevChecked(l).UnwrapOr(l)
  }

  /** Stepping down then up, or up then down, comes back to the start. */
  lemma NextPrevInverse(l: Level)
    ensures l != L9 ==> PrevChecked(NextChecked(l).value) == Some(l)
    ensures l != Cantrip ==> NextChecked(PrevChecked(l).value) == Some(l)
  {
    if l != L9 {
      AsU8Injective(PrevChecked(NextChecked(l).value).value, l);
    }
    if l != Cantrip {
      AsU8Injective(NextChecked(PrevChecked(l).value).value, l);
    }
  }

  /** `add_checked`: only the offsets 1 and -1 are used; any other reaches `unreachable!`. */
  function AddChecked(l: Level, offset: isize): (r: Option<Level>)
    requires offset == 1 || offset == -1
    ensures r.Some? ==> AsU8(r.value) == AsU8(l) + offset
    ensures r.None? <==> (offset == 1 && l == L9) || (offset == -1 && l == Cantrip)
  {
    if offset == 1 then NextChecked(l) else PrevChecked(l)
  }

  /** `Display for Level`: "Cantrip" or the number. */
  function LevelDisplay(l: Level): (r: string)
    ensures l != Cantrip ==> r == NatToString(AsU8(l))
    ensures l == Cantrip ==> r == "Cantrip"
  {
    match l
    case Cantrip => "Cantrip"
    case _ => NatToString(AsU8(l))
  }

  /** `Deserialize for Level`: a `u8` that must name a level. */
  function LevelDeserialize(num: u8): (r: Result<Level, u8>)
    ensures r.Ok? <==> num <= 9
    ensures r.Ok? ==> AsU8(r.value) == num
    ensures r.Err? ==> r.error == num
  {
    match FromU8(num)
    case Some(l) => Ok(l)
    case None => Err(num)
  }

  /** `Serialize for Level` writes the number, which deserializes to the same level. */
  lemma LevelSerializeDeserialize(l: Level)
    ensures LevelDeserialize(AsU8(l)) == Ok(l)
  {
    FromU8AsU8(l);
  }

  /** `Index<Level> for [T; 10]`: one entry per level, cantrips first. */
  function Index10<T>(a: seq<T>, l: Level): (r: T)
    requires |a| == 10
    ensures r == a[AsU8(l)]
  {
    a[AsU8(l)]
  }

  /** `Index<Level> for [T; 9]`: one entry per levelled spell; indexing by `Cantrip`
      underflows and panics, so the caller must not. */
  function Index9<T>(a: seq<T>, l: Level): (r: T)
    requires |a| == 9 && l != Cantrip
    ensures r == a[AsU8(l) - 1]
  {
    a[AsU8(l) - 1]
  }

  /** `GetLevel for [T; 9]`: `None` for a cantrip. */
  function GetLevel9<T>(a: seq<T>, l: Level): (r: Option<T>)
    requires |a| == 9
    ensures r.None? <==> l == Cantrip
    ensures r.Some? ==> r.value == Index9(a, l)
  {
    if AsU8(l) == 0 then None else Some(a[AsU8(l) - 1])
  }

  /** `GetLevel for [T; 10]`: always present. */
  function GetLevel10<T>(a: seq<T>, l: Level): (r: Option<T>)
    requires |a| == 10
    ensures r == Some(Index10(a, l))
  {
    if AsU8(l) < |a| then Some(a[AsU8(l)]) else None
  }

  /** The level whose entry is at position `i` of a `[T; 10]`. */
  function LevelAt(i: nat): (l: Level)
    requires i < 10
    ensures AsU8(l) == i
  {
    FromU8(i).value
  }

  // ---- Source ----

  datatype Source = PlayersHandbook | XanatharsGuideToEverything | TashasCauldronOfEverything | Custom

  function SourceOrdinal(s: Source): (r: nat)
    ensures r < 4
  {
    match s
    case PlayersHandbook => 0 case XanatharsGuideToEverything => 1
    case TashasCauldronOfEverything => 2 case Custom => 3
  }

  /** `Source::STRINGS`, indexed by the variant's position. */
  const SOURCE_STRINGS: seq<string> := [
    "Player's Handbook",
    "Xanathar's Guide to Everything",
    "Tasha's Cauldron of Everything",
    "Custom"
  ]

  /** `Serialize` and `Display` for `Source`. */
  function SourceSerialize(s: Source): (r: string)
    ensures r in SOURCE_STRINGS
  {
    SOURCE_STRINGS[SourceOrdinal(s)]
  }

  /** `Deserialize for Source`: one of the four names, else an unknown-variant error carrying
      the string. */
  function SourceDeserialize(str: string): (r: Result<Source, string>)
    ensures r.Ok? <==> str in SOURCE_STRINGS
    ensures r.Ok? ==> SourceSerialize(r.value) == str
    ensures r.Err? ==> r.error == str
  {
    if str == "Player's Handbook" then Ok(PlayersHandbook)
    else if str == "Xanathar's Guide to Everything" then Ok(XanatharsGuideToEverything)
    else if str == "Tasha's Cauldron of Everything" then Ok(TashasCauldronOfEverything)
    else if str == "Custom" then Ok(Custom)
    else Err(str)
  }

  lemma SourceRoundTrip(s: Source)
    ensures SourceDeserialize(SourceSerialize(s)) == Ok(s)
  {
  }

  // ---- CastingTime ----

  datatype CastingTime =
    | Special
    | Action
    | BonusAction
    | Reaction(when: Option<StArc<string>>)
    | Minute(n: usize)
    | Hour(n: usize)

  /** `CastingTime::REACTION_PHRASE`. */
  const REACTION_PHRASE: string := ", which you take when "

  /** Why a casting-time string was refused. */
  datatype CastingTimeError =
    | NoNumber(text: string)
    | NotAnInteger(num: string)
    | NoReactionPhrase
    | NotACastingTime(rest: string)

  /** The shared front half of both parsers: the word(s) between the first space and the
      first comma, or `None` where the source's slice `str[space + 1..comma]` would have its
      bounds out of order and panic (a comma before the first space). */
  function CastingTimeWord(str: string): (r: Option<string>)
    ensures r.Some? ==> |r.value| <= |str|
  {
    var space := IndexOf(str, ' ');
    var comma := IndexOf(str, ',').UnwrapOr(|str|);
    var start := if space.Some? then space.value + 1 else 0;
    if start <= comma then Some(str[start..comma]) else None
  }

  /** Where the first comma is, or the length. */
  function CommaIndex(str: string): (r: nat)
    ensures r <= |str|
  {
    IndexOf(str, ',').UnwrapOr(|str|)
  }

  /** The `get_num` closure: the text before the first space, parsed as `usize`. */
  function GetNum(str: string): (r: Result<usize, CastingTimeError>)
    ensures r.Ok? ==> IndexOf(str, ' ').Some? && ParseUsize(str[..IndexOf(str, ' ').value]) == Some(r.value)
    ensures IndexOf(str, ' ').None? ==> r == Err(NoNumber(str))
  {
    match IndexOf(str, ' ')
    case None => Err(NoNumber(str))
    case Some(space) =>
      match ParseUsize(str[..space])
      case Some(n) => Ok(n)
      case None => Err(NotAnInteger(str[..space]))
  }

  /** `CastingTime::from_static`: a reaction must carry its trigger phrase, which is kept as
      a `Static` string. */
  function FromStatic(str: string): (r: Outcome<CastingTime, CastingTimeError>)
    ensures r == Panic <==> CastingTimeWord(str).None?
    ensures r.Done? && r.result.Ok? && r.result.value.Reaction? ==>
      var comma := CommaIndex(str);
      var w := r.result.value.when;
      w.Some? && w.value.Static? && str[comma..] == REACTION_PHRASE + w.value.Deref()
    ensures r.Done? && r.result.Ok? && (r.result.value.Minute? || r.result.value.Hour?) ==>
      GetNum(str) == Ok(r.result.value.n)
  {
    match CastingTimeWord(str)
    case None => Panic
    case Some(rest) =>
      var comma := CommaIndex(str);
      if rest == "Special" then Done(Ok(Special))
      else if rest == "Action" then Done(Ok(Action))
      else if rest == "Bonus Action" then Done(Ok(BonusAction))
      else if rest == "Reaction" then
        if StartsWith(str[comma..], REACTION_PHRASE)
        then
          assert str[comma..] == REACTION_PHRASE + str[comma + |REACTION_PHRASE|..];
          Done(Ok(Reaction(Some(Static(str[comma + |REACTION_PHRASE|..])))))
        else Done(Err(NoReactionPhrase))
      else if rest == "Minute" || rest == "Minutes" then
        match GetNum(str)
        case Ok(n) => Done(Ok(Minute(n)))
        case Err(e) => Done(Err(e))
      else if rest == "Hour" || rest == "Hours" then
        match GetNum(str)
        case Ok(n) => Done(Ok(Hour(n)))
        case Err(e) => Done(Err(e))
      else Done(Err(NotACastingTime(rest)))
  }

  /** The outcome of `from_static` for each word between the first space and the first comma:
      the three plain words give their variant; "Reaction" needs the trigger phrase right
      at the comma; "Minute(s)" and "Hour(s)" take the leading number, or pass on why it is
      missing or malformed; any other word is refused with that word. */
  lemma FromStaticByWord(str: string)
    requires CastingTimeWord(str).Some?
    ensures var w := CastingTimeWord(str).value; var r := FromStatic(str);
      (w == "Special" ==> r == Done(Ok(Special)))
      && (w == "Action" ==> r == Done(Ok(Action)))
      && (w == "Bonus Action" ==> r == Done(Ok(BonusAction)))
      && (w == "Reaction" ==>
            (StartsWith(str[CommaIndex(str)..], REACTION_PHRASE) <==> r.Done? && r.result.Ok?)
            && (!StartsWith(str[CommaIndex(str)..], REACTION_PHRASE) ==> r == Done(Err(NoReactionPhrase)))
            && (r.Done? && r.result.Ok? ==> r.result.value.Reaction?))
      && (w == "Minute" || w == "Minutes" ==>
            (GetNum(str).Ok? ==> r == Done(Ok(Minute(GetNum(str).value))))
            && (GetNum(str).Err? ==> r == Done(Err(GetNum(str).error))))
      && (w == "Hour" || w == "Hours" ==>
            (GetNum(str).Ok? ==> r == Done(Ok(Hour(GetNum(str).value))))
            && (GetNum(str).Err? ==> r == Done(Err(GetNum(str).error))))
      && (w !in KNOWN_WORDS ==> r == Done(Err(NotACastingTime(w))))
  {
  }

  /** The words `from_static` knows. */
  const KNOWN_WORDS: seq<string> :=
    ["Special", "Action", "Bonus Action", "Reaction", "Minute", "Minutes", "Hour", "Hours"]

  /** `Deserialize for CastingTime`: as `from_static`, except that a reaction without its
      trigger phrase is accepted as `Reaction(None)` and a phrase is kept as an `Arc`. */
  function Deserialize(str: string): (r: Outcome<CastingTime, CastingTimeError>)
    ensures r == Panic <==> CastingTimeWord(str).None?
    ensures r.Done? && r.result.Ok? && r.result.value.Reaction? && r.result.value.when.Some? ==>
      r.result.value.when.value.Arc?
  {
    match CastingTimeWord(str)
    case None => Panic
    case Some(rest) =>
      var comma := CommaIndex(str);
      if rest == "Special" then Done(Ok(Special))
      else if rest == "Action" then Done(Ok(Action))
      else if rest == "Bonus Action" then Done(Ok(BonusAction))
      else if rest == "Reaction" then
        Done(Ok(Reaction(
          if StartsWith(str[comma..], REACTION_PHRASE)
          then Some(Arc(str[comma + |REACTION_PHRASE|..]))
          else None)))
      else if rest == "Minute" || rest == "Minutes" then
        match GetNum(str)
        case Ok(n) => Done(Ok(Minute(n)))
        case Err(e) => Done(Err(e))
      else if rest == "Hour" || rest == "Hours" then
        match GetNum(str)
        case Ok(n) => Done(Ok(Hour(n)))
        case Err(e) => Done(Err(e))
      else Done(Err(NotACastingTime(rest)))
  }

  /** The reaction phrase moved into an `Arc`, everything else as it is. */
  function WithArcPhrase(ct: CastingTime): (r: CastingTime)
    ensures ct.Reaction? <==> r.Reaction?
    ensures !ct.Reaction? ==> r == ct
  {
    match ct
    case Reaction(Some(w)) => Reaction(Some(Arc(w.Deref())))
    case _ => ct
  }

  /** The two parsers agree everywhere except on reactions: a phrase that `from_static`
      keeps as `Static` the deserializer keeps as `Arc`, and a reaction `from_static` refuses
      for want of its phrase the deserializer accepts as `Reaction(None)`. */
  lemma {:induction false} FromStaticVersusDeserialize(str: string)
    ensures FromStatic(str).Done? && FromStatic(str).result.Ok? ==>
      Deserialize(str) == Done(Ok(WithArcPhrase(FromStatic(str).result.value)))
    ensures FromStatic(str) == Done(Err(NoReactionPhrase)) ==> Deserialize(str) == Done(Ok(Reaction(None)))
    ensures (FromStatic(str) == Panic ||
             (FromStatic(str).Done? && FromStatic(str).result.Err? &&
              FromStatic(str).result.error != NoReactionPhrase)) ==>
      Deserialize(str) == FromStatic(str)
  {
    match CastingTimeWord(str)
    case None =>
    case Some(rest) =>
      if rest == "Reaction" {
        var comma := CommaIndex(str);
        if StartsWith(str[comma..], REACTION_PHRASE) {
          var w := str[comma + |REACTION_PHRASE|..];
          assert FromStatic(str) == Done(Ok(Reaction(Some(Static(w)))));
          assert Deserialize(str) == Done(Ok(Reaction(Some(Arc(w)))));
        }
      }
  }

  /** The `n` followed by a space and a unit, pluralised unless `n` is 1. */
  function Quantity(n: nat, unit: string): string {
    NatToString(n) + Unit(n, unit)
  }

  /** The space and unit word after a number, with an "s" unless the number is 1. */
  function Unit(n: nat, unit: string): string {
    " " + unit + (if n == 1 then "" else "s")
  }

  /** `Serialize for CastingTime`. */
  function Serialize(ct: CastingTime): (r: string)
    ensures |r| > 0
  {
    match ct
    case Special => "Special"
    case Action => "1 Action"
    case BonusAction => "1 Bonus Action"
    case Reaction(None) => "1 Reaction"
    case Reaction(Some(when)) => "1 Reaction" + REACTION_PHRASE + when.Deref()
    case Minute(n) => if n == 1 then "1 Minute" else NatToString(n) + " Minutes"
    case Hour(n) => if n == 1 then "1 Hour" else NatToString(n) + " Hours"
  }

  /** `Display for CastingTime`, written with `write!` rather than string literals. */
  function Display(ct: CastingTime): (r: string)
    ensures |r| > 0
    ensures (ct.Minute? || ct.Hour?) ==> (r[|r| - 1] == 's' <==> ct.n != 1)
  {
    match ct
    case Special => "Special"
    case Action => "1 Action"
    case BonusAction => "1 Bonus Action"
    case Reaction(when) =>
      if when.Some? then "1 Reaction, which you take when " + when.value.Deref() else "1 Reaction"
    case Minute(n) => Quantity(n, "Minute")
    case Hour(n) => Quantity(n, "Hour")
  }

  /** Display and Serialize write the same text. */
  lemma DisplayIsSerialize(ct: CastingTime)
    ensures Display(ct) == Serialize(ct)
  {
    if ct.Minute? || ct.Hour? {
      QuantityIsSerialize(ct);
    } else if ct.Reaction? {
      ReactionDisplayIsSerialize(ct);
    }
  }

  lemma QuantityIsSerialize(ct: CastingTime)
    requires ct.Minute? || ct.Hour?
    ensures Display(ct) == Serialize(ct)
  {
    var unit := if ct.Minute? then "Minute" else "Hour";
    UnitText(ct.n, unit);
    assert Display(ct) == Quantity(ct.n, unit);
    if ct.n == 1 {
      assert NatToString(1) == "1";
      assert Quantity(1, unit) == "1" + " " + unit;
      if ct.Minute? { assert "1" + " " + "Minute" == "1 Minute"; }
      else { assert "1" + " " + "Hour" == "1 Hour"; }
    } else {
      assert Quantity(ct.n, unit) == NatToString(ct.n) + (" " + unit + "s");
      if ct.Minute? { assert " " + "Minute" + "s" == " Minutes"; }
      else { assert " " + "Hour" + "s" == " Hours"; }
    }
  }

  /** The unit text spelled out. */
  lemma UnitText(n: nat, unit: string)
    ensures Unit(n, unit) == " " + unit + (if n == 1 then "" else "s")
    ensures Unit(n, unit)[1..] == unit + (if n == 1 then "" else "s")
  {
  }

  lemma ReactionDisplayIsSerialize(ct: CastingTime)
    requires ct.Reaction?
    ensures Display(ct) == Serialize(ct)
  {
  }

  /** The text of a quantity parses back to its number and unit word. */
  lemma {:induction false} QuantityScan(n: usize, unit: string)
    requires ' ' !in unit && ',' !in unit
    ensures IndexOf(Quantity(n, unit), ' ') == Some(|NatToString(n)|)
    ensures CastingTimeWord(Quantity(n, unit)) == Some(Unit(n, unit)[1..])
    ensures GetNum(Quantity(n, unit)) == Ok(n)
  {
    QuantitySpace(n, unit);
    QuantityWord(n, unit);
    QuantityNum(n, unit);
  }

  /** The first space of a quantity's text follows its digits. */
  lemma QuantitySpace(n: nat, unit: string)
    requires ' ' !in unit && ',' !in unit
    ensures IndexOf(Quantity(n, unit), ' ') == Some(|NatToString(n)|)
  {
    UnitScan(n, unit);
    NatToStringHasNoChar(n, ' ');
    IndexOfConcat(NatToString(n), Unit(n, unit), ' ', 0);
  }

  /** The word of a quantity's text is its unit word. */
  lemma QuantityWord(n: nat, unit: string)
    requires ' ' !in unit && ',' !in unit
    ensures CastingTimeWord(Quantity(n, unit)) == Some(Unit(n, unit)[1..])
  {
    var digits := NatToString(n);
    var tail := Unit(n, unit);
    var str := Quantity(n, unit);
    QuantitySpace(n, unit);
    UnitScan(n, unit);
    NatToStringHasNoChar(n, ',');
    IndexOfAbsentConcat(digits, tail, ',');
    assert str[|digits| + 1..|str|] == tail[1..];
  }

  /** `get_num` reads the number of a quantity's text back. */
  lemma QuantityNum(n: usize, unit: string)
    requires ' ' !in unit && ',' !in unit
    ensures GetNum(Quantity(n, unit)) == Ok(n)
  {
    var digits := NatToString(n);
    var str := Quantity(n, unit);
    QuantitySpace(n, unit);
    assert str[..|digits|] == digits;
    ParseUsizeNatToString(n);
  }

  lemma UnitScan(n: nat, unit: string)
    requires ' ' !in unit && ',' !in unit
    ensures IndexOf(Unit(n, unit), ' ') == Some(0)
    ensures ',' !in Unit(n, unit)
  {
    var suffix := if n == 1 then "" else "s";
    assert Unit(n, unit) == " " + (unit + suffix);
    assert ',' !in unit + suffix;
  }

  /** Deserializing a serialized casting time gives it back, with any reaction phrase now an
      `Arc`; `from_static` does the same with the phrase `Static`, except for a reaction
      without a phrase, which it refuses. */
  lemma SerializeRoundTrip(ct: CastingTime)
    ensures Deserialize(Serialize(ct)) == Done(Ok(WithArcPhrase(ct)))
    ensures ct != Reaction(None) ==>
      (FromStatic(Serialize(ct)).Done? && FromStatic(Serialize(ct)).result.Ok? &&
       WithArcPhrase(FromStatic(Serialize(ct)).result.value) == WithArcPhrase(ct))
    ensures ct == Reaction(None) ==> FromStatic(Serialize(ct)) == Done(Err(NoReactionPhrase))
  {
    FromStaticVersusDeserialize(Serialize(ct));
    match ct
    case Special => ScanWordOnly(ct);
    case Action => ScanWordOnly(ct);
    case BonusAction => ScanWordOnly(ct);
    case Reaction(None) => ScanWordOnly(ct);
    case Reaction(Some(w)) => ScanReaction(w);
    case Minute(n) => ScanQuantity(ct);
    case Hour(n) => ScanQuantity(ct);
  }

  /** The serialized forms without a comma or a number to read. */
  lemma ScanWordOnly(ct: CastingTime)
    requires ct.Special? || ct.Action? || ct.BonusAction? || ct == Reaction(None)
    ensures FromStatic(Serialize(ct)) == if ct.Reaction? then Done(Err(NoReactionPhrase)) else Done(Ok(ct))
  {
    var str := Serialize(ct);
    match ct
    case Special =>
      ScanSpecial();
      FromStaticPlainWord(str, "Special", Special);
    case Action =>
      ScanAfterSpace(str, "Action");
      FromStaticPlainWord(str, "Action", Action);
    case BonusAction =>
      ScanAfterSpace(str, "Bonus Action");
      FromStaticPlainWord(str, "Bonus Action", BonusAction);
    case Reaction(None) =>
      ScanAfterSpace(str, "Reaction");
      assert !StartsWith(str[CommaIndex(str)..], REACTION_PHRASE);
  }

  /** The three words that need nothing more read. */
  lemma FromStaticPlainWord(str: string, word: string, ct: CastingTime)
    requires CastingTimeWord(str) == Some(word)
    requires (word == "Special" && ct == Special) || (word == "Action" && ct == Action)
      || (word == "Bonus Action" && ct == BonusAction)
    ensures FromStatic(str) == Done(Ok(ct))
  {
  }

  lemma ScanSpecial()
    ensures CastingTimeWord("Special") == Some("Special")
  {
    var str := "Special";
    assert ',' !in str && ' ' !in str;
    assert str[0..|str|] == str;
  }

  /** "1 " then a word without a comma: the word is what follows the first space. */
  lemma ScanAfterSpace(str: string, word: string)
    requires str == "1 " + word && ',' !in word
    ensures CastingTimeWord(str) == Some(word) && CommaIndex(str) == |str|
  {
    assert IndexOf(str, ' ') == Some(1);
    IndexOfAbsentConcat("1 ", word, ',');
    assert str[2..|str|] == word;
  }

  lemma ScanReaction(w: StArc<string>)
    ensures FromStatic(Serialize(Reaction(Some(w)))) == Done(Ok(Reaction(Some(Static(w.Deref())))))
  {
    var str := Serialize(Reaction(Some(w)));
    var tail := REACTION_PHRASE + w.Deref();
    assert str == "1 Reaction" + tail;
    ReactionWord(tail);
    assert str[10..] == tail;
    assert StartsWith(str[10..], REACTION_PHRASE);
    assert str[10 + |REACTION_PHRASE|..] == w.Deref();
  }

  /** The serialized words hold no comma. */
  lemma NoComma()
    ensures ',' !in "1 Reaction"
  {
  }

  /** "1 Reaction" and then a comma: the word is "Reaction", up to the comma at 10. */
  lemma ReactionWord(tail: string)
    requires |tail| > 0 && tail[0] == ','
    ensures CastingTimeWord("1 Reaction" + tail) == Some("Reaction")
    ensures CommaIndex("1 Reaction" + tail) == 10
  {
    var head := "1 Reaction";
    var str := head + tail;
    assert IndexOf(head, ' ') == Some(1);
    IndexOfPrefix(head, tail, ' ', 1);
    NoComma();
    assert IndexOf(tail, ',') == Some(0);
    IndexOfConcat(head, tail, ',', 0);
    assert str[2..10] == "Reaction";
  }

  lemma ScanQuantity(ct: CastingTime)
    requires ct.Minute? || ct.Hour?
    ensures FromStatic(Serialize(ct)) == Done(Ok(ct))
  {
    QuantityIsSerialize(ct);
    var unit := if ct.Minute? then "Minute" else "Hour";
    assert Serialize(ct) == Quantity(ct.n, unit);
    ReadUnit(ct.n, unit);
  }

  /** `get_num` and the word scan on "n Minute(s)" or "n Hour(s)": the count comes back and
      the word is the unit, plural exactly when the count is not 1. */
  lemma ScanUnit(n: usize, unit: string)
    requires unit == "Minute" || unit == "Hour"
    ensures GetNum(Quantity(n, unit)) == Ok(n)
    ensures CastingTimeWord(Quantity(n, unit)) == Some(if n == 1 then unit else unit + "s")
  {
    QuantityScan(n, unit);
    UnitText(n, unit);
    assert unit + "" == unit;
  }

  /** So "n Minute(s)" and "n Hour(s)" read back as that many minutes or hours. */
  lemma ReadUnit(n: usize, unit: string)
    requires unit == "Minute" || unit == "Hour"
    ensures FromStatic(Quantity(n, unit)) == Done(Ok(if unit == "Minute" then Minute(n) else Hour(n)))
  {
    ScanUnit(n, unit);
    var word := if n == 1 then unit else unit + "s";
    if unit == "Minute" {
      assert word == "Minute" || word == "Minutes";
    } else {
      assert word == "Hour" || word == "Hours";
    }
    FromStaticQuantity(Quantity(n, unit), n);
  }

  lemma FromStaticQuantity(str: string, n: usize)
    requires GetNum(str) == Ok(n)
    ensures CastingTimeWord(str) == Some("Minute") || CastingTimeWord(str) == Some("Minutes") ==>
      FromStatic(str) == Done(Ok(Minute(n)))
    ensures CastingTimeWord(str) == Some("Hour") || CastingTimeWord(str) == Some("Hours") ==>
      FromStatic(str) == Done(Ok(Hour(n)))
  {
  }

  /** `equals_ignore_reaction`: equality that does not look at the reaction phrase. */
  predicate EqualsIgnoreReaction(a: CastingTime, b: CastingTime) {
    match (a, b)
    case (Special, Special) => true
    case (Action, Action) => true
    case (BonusAction, BonusAction) => true
    case (Reaction(_), Reaction(_)) => true
    case (Minute(m1), Minute(m2)) => m1 == m2
    case (Hour(h1), Hour(h2)) => h1 == h2
    case _ => false
  }

  /** A casting time with any reaction phrase dropped. */
  function ErasePhrase(ct: CastingTime): (r: CastingTime)
    ensures !r.Reaction? || r.when.None?
    ensures ct.Reaction? <==> r.Reaction?
    ensures !ct.Reaction? ==> r == ct
  {
    if ct.Reaction? then Reaction(None) else ct
  }

  /** `equals_ignore_reaction` is plain equality once phrases are dropped; it is therefore
      an equivalence, and implied by equality. */
  lemma EqualsIgnoreReactionIsErasedEquality(a: CastingTime, b: CastingTime)
    ensures EqualsIgnoreReaction(a, b) <==> ErasePhrase(a) == ErasePhrase(b)
    ensures a == b ==> EqualsIgnoreReaction(a, b)
  {
  }

  /** The derived `Ord` of `CastingTime`, as a lexicographic key: variant position first,
      then the payload (`None < Some`, `Static < Arc`, then the text). */
  function CastingTimeKey(ct: CastingTime): (k: seq<int>)
    ensures |k| >= 1
  {
    match ct
    case Special => [0]
    case Action => [1]
    case BonusAction => [2]
    case Reaction(None) => [3, 0]
    case Reaction(Some(Static(w))) => [3, 1, 0] + Codes(w)
    case Reaction(Some(Arc(w))) => [3, 1, 1] + Codes(w)
    case Minute(n) => [4, n]
    case Hour(n) => [5, n]
  }

  /** Different casting times have different keys, so the key order is the derived one. */
  lemma CastingTimeKeyInjective(a: CastingTime, b: CastingTime)
    requires CastingTimeKey(a) == CastingTimeKey(b)
    ensures a == b
  {
    match a
    case Reaction(Some(wa)) =>
      var wb := b.when.value;
      assert CastingTimeKey(a)[3..] == Codes(wa.Deref());
      assert CastingTimeKey(b)[3..] == Codes(wb.Deref());
      CodesInjective(wa.Deref(), wb.Deref());
    case _ =>
  }

  // ---- Components ----

  /** Verbal, somatic and (optionally) material components. */
  datatype Components = Components(v: bool, s: bool, m: Option<string>)

  /** `Display for Components`: "V", "S" and "M (material)", comma separated. */
  function ComponentsDisplay(c: Components): string {
    var vPart := if c.v then "V" else "";
    var sPart := if c.s then (if c.v then ", " else "") + "S" else "";
    var mPart := if c.m.Some? then (if c.v || c.s then ", " else "") + "M (" + c.m.value + ")" else "";
    vPart + sPart + mPart
  }

  /** The inner `vsm` loop: which of 'V', 'S', 'M' occur (other characters are reported on
      the console and skipped, which is out of model). */
  function Vsm(str: string): (r: (bool, bool, bool))
    ensures r.0 <==> 'V' in str
    ensures r.1 <==> 'S' in str
    ensures r.2 <==> 'M' in str
    decreases |str|
  {
    if |str| == 0 then (false, false, false)
    else
      var rest := Vsm(str[1..]);
      assert str == [str[0]] + str[1..];
      (rest.0 || str[0] == 'V', rest.1 || str[0] == 'S', rest.2 || str[0] == 'M')
  }

  /** `Deserialize for Components`. The input is trimmed; with both a '(' and a ')' the text
      before the first '(' must name 'M' and the material is what lies between the first '('
      and the last ')'; otherwise there must be no 'M'. A failed `assert_eq!`, or a ')'
      before the '(' (an out-of-order slice), panics. */
  function ComponentsDeserialize(input: string): (r: Outcome<Components, string>)
    ensures r.Panic? || r.result.Ok?
    ensures r.Done? && r.result.value.m.Some? ==> '(' in Trim(input) && ')' in Trim(input)
    ensures r.Done? && r.result.value.m.None? ==> 'M' !in Trim(input)
  {
    ComponentsParse(Trim(input))
  }

  /** `Deserialize for Components` after the trim. */
  function ComponentsParse(str: string): (r: Outcome<Components, string>)
    ensures r.Panic? || r.result.Ok?
    ensures r.Done? && r.result.value.m.Some? ==> '(' in str && ')' in str
    ensures r.Done? && r.result.value.m.None? ==> 'M' !in str
  {
    match (IndexOf(str, '('), LastIndexOf(str, ')'))
    case (Some(start), Some(end)) =>
      var vsm := Vsm(str[..start]);
      if !vsm.2 || end < start + 1 then Panic
      else Done(Ok(Components(vsm.0, vsm.1, Some(str[start + 1..end]))))
    case _ =>
      var vsm := Vsm(str);
      if vsm.2 then Panic
      else Done(Ok(Components(vsm.0, vsm.1, None)))
  }

  /** The "V", "S" part of the display. */
  function VsPart(v: bool, s: bool): (r: string)
    ensures '(' !in r && ')' !in r && 'M' !in r
    ensures ('V' in r <==> v) && ('S' in r <==> s)
    ensures |r| > 0 ==> !IsWhitespace(r[0]) && !IsWhitespace(r[|r| - 1])
  {
    if v && s then "V, S" else if v then "V" else if s then "S" else ""
  }

  /** The display is the "V, S" part, then (with a material) the "M " head and the
      parenthesised material. */
  lemma ComponentsDisplayParts(c: Components)
    ensures c.m.None? ==> ComponentsDisplay(c) == VsPart(c.v, c.s)
    ensures c.m.Some? ==>
      ComponentsDisplay(c) == MaterialHead(c.v, c.s) + ("(" + c.m.value + ")")
  {
    var vs := (if c.v then "V" else "") + (if c.s then (if c.v then ", " else "") + "S" else "");
    assert vs == VsPart(c.v, c.s);
    if c.m.Some? {
      var sep := if c.v || c.s then ", " else "";
      MaterialTail(vs, sep, c.m.value);
      assert MaterialHead(c.v, c.s) == vs + sep + "M ";
    }
  }

  /** The material part regrouped around its '('. */
  lemma MaterialTail(vs: string, sep: string, m: string)
    ensures vs + (sep + "M (" + m + ")") == vs + sep + "M " + ("(" + m + ")")
  {
    assert "M (" + m + ")" == "M " + ("(" + m + ")");
  }

  /** Everything a display with a material writes before its '('. */
  function MaterialHead(v: bool, s: bool): (r: string)
    ensures '(' !in r && 'M' in r
    ensures ('V' in r <==> v) && ('S' in r <==> s)
    ensures |r| > 0 && !IsWhitespace(r[0])
  {
    var r := VsPart(v, s) + (if v || s then ", " else "") + "M ";
    assert r[|r| - 2] == 'M';
    r
  }

  /** Reading text with no '(' at all. */
  lemma DeserializeWithoutMaterial(str: string)
    requires '(' !in str
    ensures ComponentsParse(str) ==
      if 'M' in str then Panic else Done(Ok(Components('V' in str, 'S' in str, None)))
  {
  }

  /** Reading text of the form head "(" material ")" with no '(' in the head. */
  lemma DeserializeWithMaterial(str: string, head: string, mat: string)
    requires str == head + ("(" + mat + ")") && '(' !in head
    ensures ComponentsParse(str) ==
      if 'M' in head then Done(Ok(Components('V' in head, 'S' in head, Some(mat)))) else Panic
  {
    MaterialSlices(str, head, mat);
    var vsm := Vsm(head);
    assert ComponentsParse(str) ==
      if !vsm.2 then Panic else Done(Ok(Components(vsm.0, vsm.1, Some(mat))));
  }

  /** Where the parentheses of head "(" material ")" are, and what lies around them. */
  lemma MaterialSlices(str: string, head: string, mat: string)
    requires str == head + ("(" + mat + ")") && '(' !in head
    ensures IndexOf(str, '(') == Some(|head|) && LastIndexOf(str, ')') == Some(|str| - 1)
    ensures str[..|head|] == head && str[|head| + 1..|str| - 1] == mat
  {
    MaterialParens(str, head, mat);
    MaterialBetween(str, head, mat);
  }

  /** The first '(' ends the head and the last ')' ends the text. */
  lemma MaterialParens(str: string, head: string, mat: string)
    requires str == head + ("(" + mat + ")") && '(' !in head
    ensures IndexOf(str, '(') == Some(|head|) && LastIndexOf(str, ')') == Some(|str| - 1)
  {
    var tail := "(" + mat + ")";
    assert IndexOf(tail, '(') == Some(0);
    IndexOfConcat(head, tail, '(', 0);
    assert str[|str| - 1] == ')';
  }

  /** The text before the '(' and between the parentheses. */
  lemma MaterialBetween(str: string, head: string, mat: string)
    requires str == head + ("(" + mat + ")")
    ensures str[..|head|] == head && str[|head| + 1..|str| - 1] == mat
  {
    assert forall k :: 0 <= k < |mat| ==> str[|head| + 1..|str| - 1][k] == mat[k];
  }

  /** Writing components and reading them back is the identity. */
  lemma ComponentsRoundTrip(c: Components)
    ensures ComponentsDeserialize(ComponentsDisplay(c)) == Done(Ok(c))
  {
    var str := ComponentsDisplay(c);
    ComponentsDisplayParts(c);
    match c.m
    case None =>
      TrimNoop(str);
      DeserializeWithoutMaterial(str);
    case Some(mat) =>
      var head := MaterialHead(c.v, c.s);
      assert str[0] == head[0];
      assert str[|str| - 1] == ')';
      TrimNoop(str);
      DeserializeWithMaterial(str, head, mat);
  }

  /** 'M' with no parenthesised material, or material with no 'M' before it, is refused by
      a panic. */
  lemma ComponentsMismatchPanics(input: string)
    ensures var str := Trim(input);
      (('(' !in str || ')' !in str) && 'M' in str) ==> ComponentsDeserialize(input) == Panic
    ensures var str := Trim(input);
      ('(' in str && ')' in str && 'M' !in str[..IndexOf(str, '(').value]) ==>
        ComponentsDeserialize(input) == Panic
  {
  }
}

=== FILE: edits.dfy ===
/** The `EditSpell` arm of `src/main.rs`: one edit applied to the custom spell open in the
    spell editor, followed by saving that spell into the list of custom spells. */
module Edits {
  import opened Wrappers
  import opened Ints
  import opened Strings
  import opened SpellData
  import opened Spells
  import Utils
  import SA = StaticArc

  /** `settings::Edit`, with the payloads the handler in `src/main.rs` matches on. */
  datatype Edit =
    | SetSchool(school: School)
    | SetLevel(level: Level)
    | SetCastingTime(time: CastingTime)
    | SetCastingTimeN(text: string)
    | SetCastingTimeWhen(text: string)
    | SetRange(text: string)
    | SetComponentV(flag: bool)
    | SetComponentS(flag: bool)
    | SetComponentM(flag: bool)
    | SetComponentMaterial(text: string)
    | SetDuration(text: string)
    | SetRitual(flag: bool)
    | SetConcentration(flag: bool)
    | SetDescription(text: string)
    | SetHigherLevels(text: string)
    | ToggleClass(cls: Class)

  /** The two characters `\` `n` that the description editor turns into a line break. */
  const ESCAPE: string := "\\n"

  /** The `nullify` closure: an empty text means the field is absent. */
  function Nullify(s: string): (r: Option<string>)
    ensures r.None? <==> |s| == 0
    ensures r.Some? ==> r.value == s
  {
    if |s| == 0 then None else Some(s)
  }

  // ---- Description: the `\n` rewrite ----

  /** An escape pair starts at `j`: a backslash followed by an `n`. */
  predicate EscapeAt(s: string, j: nat) {
    j + 1 < |s| && s[j] == '\\' && s[j + 1] == 'n'
  }

  /** `EscapeAt` is the substring test `find` performs for this needle. */
  lemma EscapeAtOccurs(s: string, j: nat)
    ensures OccursAt(s, ESCAPE, j) <==> EscapeAt(s, j)
  {
    if EscapeAt(s, j) {
      assert s[j..j + 2] == ESCAPE;
    }
  }

  /** Reference meaning of the rewrite: scanning left to right, every `\` `n` pair becomes
      a line break and every other character is kept. */
  function Unescape(s: string): string
    decreases |s|
  {
    if |s| < 2 then s
    else if EscapeAt(s, 0) then ['\n'] + Unescape(s[2..])
    else [s[0]] + Unescape(s[1..])
  }

  /** A prefix in which no escape pair starts passes through unchanged. */
  lemma {:induction false} UnescapePrefix(s: string, i: nat)
    requires i <= |s|
    requires forall j: nat :: j < i ==> !EscapeAt(s, j)
    ensures Unescape(s) == s[..i] + Unescape(s[i..])
    decreases i
  {
    if i > 0 {
      assert !EscapeAt(s, 0);
      var t := s[1..];
      forall j: nat | j < i - 1
        ensures !EscapeAt(t, j)
      {
        assert !EscapeAt(s, j + 1);
      }
      UnescapePrefix(t, i - 1);
      assert t[..i - 1] == s[1..i];
      assert t[i - 1..] == s[i..];
      assert [s[0]] + s[1..i] == s[..i];
      if |s| >= 2 {
        assert Unescape(s) == [s[0]] + Unescape(t);
      } else {
        assert s[i..] == [] && s[..i] == s;
      }
    }
  }

  /** Text without escape pairs is its own rewrite. */
  lemma UnescapeNoEscape(s: string)
    requires forall j: nat :: j <= |s| ==> !OccursAt(s, ESCAPE, j)
    ensures Unescape(s) == s
  {
    forall j: nat | j < |s|
      ensures !EscapeAt(s, j)
    {
      EscapeAtOccurs(s, j);
    }
    UnescapePrefix(s, |s|);
    assert s[|s|..] == [];
  }

  /** Before the first escape pair nothing changes, and the line break put in its place
      cannot end a new pair. */
  lemma ReplacedPrefixClean(s: string, i: nat, t: string)
    requires forall j: nat :: j < i ==> !OccursAt(s, ESCAPE, j)
    requires i + 2 <= |s| && t == s[..i] + ['\n'] + s[i + 2..]
    ensures forall j: nat :: j < i ==> !EscapeAt(t, j)
  {
    forall j: nat | j < i
      ensures !EscapeAt(t, j)
    {
      EscapeAtOccurs(s, j);
      assert t[j] == s[j];
      if j + 1 < i {
        assert t[j + 1] == s[j + 1];
      } else {
        assert t[j + 1] == '\n';
      }
    }
  }

  /** One round of the loop: replacing the first escape pair by a line break does not change
      the rewrite of the whole text. */
  lemma {:induction false} ReplaceFirstEscape(s: string, i: nat)
    requires FindSub(s, ESCAPE) == Some(i)
    ensures i + 2 <= |s|
    ensures Unescape(s[..i] + ['\n'] + s[i + 2..]) == Unescape(s)
  {
    EscapeAtOccurs(s, i);
    var t := s[..i] + ['\n'] + s[i + 2..];
    var rest := s[i + 2..];
    forall j: nat | j < i
      ensures !EscapeAt(s, j)
    {
      EscapeAtOccurs(s, j);
    }
    ReplacedPrefixClean(s, i, t);
    UnescapePrefix(s, i);
    UnescapePrefix(t, i);
    assert s[i..][2..] == rest;
    assert Unescape(s[i..]) == ['\n'] + Unescape(rest);
    assert t[..i] == s[..i];
    assert t[i..] == ['\n'] + rest;
    assert Unescape(['\n'] + rest) == ['\n'] + Unescape(rest) by {
      if |rest| > 0 {
        assert (['\n'] + rest)[1..] == rest;
      }
    }
  }

  /** The `Edit::Description` loop: while the text holds `\` `n`, the first such pair is
      replaced by a line break. The result is the reference rewrite of the input and holds no
      escape pair any more. */
  method RewriteNewlines(input: string) returns (r: string)
    ensures r == Unescape(input)
    ensures !Contains(r, ESCAPE)
  {
    r := input;
    var found := FindSub(r, ESCAPE);
    while found.Some?
      invariant found == FindSub(r, ESCAPE)
      invariant Unescape(r) == Unescape(input)
      decreases |r|
    {
      var idx := found.value;
      ReplaceFirstEscape(r, idx);
      r := r[..idx] + ['\n'] + r[idx + 2..];
      found := FindSub(r, ESCAPE);
    }
    UnescapeNoEscape(r);
  }

  /** The first character of a rewrite: a line break for a leading pair, else the first
      character itself. */
  lemma UnescapeHead(t: string)
    requires |t| > 0
    ensures |Unescape(t)| > 0
    ensures Unescape(t)[0] == if EscapeAt(t, 0) then '\n' else t[0]
  {
  }

  /** No escape pair survives the rewrite: the line breaks it writes cannot pair up, and a
      kept backslash is never followed by an `n`. */
  lemma {:induction false} UnescapeClean(s: string)
    ensures forall j: nat :: !EscapeAt(Unescape(s), j)
    decreases |s|
  {
    if |s| >= 2 {
      var r := Unescape(s);
      if EscapeAt(s, 0) {
        var tail := s[2..];
        UnescapeClean(tail);
        assert r == ['\n'] + Unescape(tail);
        forall j: nat
          ensures !EscapeAt(r, j)
        {
          if j > 0 {
            assert !EscapeAt(Unescape(tail), j - 1);
          }
        }
      } else {
        var tail := s[1..];
        UnescapeClean(tail);
        UnescapeHead(tail);
        assert r == [s[0]] + Unescape(tail);
        forall j: nat
          ensures !EscapeAt(r, j)
        {
          if j > 0 {
            assert !EscapeAt(Unescape(tail), j - 1);
          } else {
            assert r[1] == Unescape(tail)[0];
          }
        }
      }
    }
  }

  /** The rewrite is idempotent: its output holds no pair, so rewriting again changes
      nothing. */
  lemma UnescapeIdempotent(s: string)
    ensures Unescape(Unescape(s)) == Unescape(s)
  {
    var r := Unescape(s);
    UnescapeClean(s);
    forall j: nat | j < |r|
      ensures !EscapeAt(r, j)
    {
    }
    UnescapePrefix(r, |r|);
    assert r[|r|..] == [];
  }

  // ---- Class: membership toggle ----

  predicate NoDuplicates<T(==)>(s: seq<T>) {
    forall i, j :: 0 <= i < j < |s| ==> s[i] != s[j]
  }

  /** The `Edit::Class` arm: the first occurrence of the class is removed, or the class is
      pushed when it is missing. */
  function ToggledClasses(classes: seq<Class>, c: Class): (r: seq<Class>)
    ensures c !in classes ==> r == classes + [c]
    ensures c in classes ==> |r| == |classes| - 1
  {
    match Utils.FindIndex(classes, (d: Class) => d == c)
    case Some(idx) => classes[..idx] + classes[idx + 1..]
    case None => classes + [c]
  }

  /** On a duplicate-free class list the toggle flips the membership of that class, keeps the
      membership of every other class and keeps the list duplicate-free. */
  lemma {:induction false} ToggleFlips(classes: seq<Class>, c: Class)
    requires NoDuplicates(classes)
    ensures var r := ToggledClasses(classes, c);
      (c in r <==> c !in classes)
      && (forall d :: d != c ==> (d in r <==> d in classes))
      && NoDuplicates(r)
  {
    var r := ToggledClasses(classes, c);
    match Utils.FindIndex(classes, (d: Class) => d == c)
    case None =>
    case Some(idx) =>
      assert r == classes[..idx] + classes[idx + 1..];
      forall d | d != c
        ensures d in r <==> d in classes
      {
        if d in classes {
          var k :| 0 <= k < |classes| && classes[k] == d;
          if k < idx {
            assert r[k] == d;
          } else {
            assert r[k - 1] == d;
          }
        }
      }
      forall k | 0 <= k < |r|
        ensures r[k] != c
      {
        if k < idx {
          assert r[k] == classes[k];
        } else {
          assert r[k] == classes[k + 1] && classes[idx] == c;
        }
      }
      forall i, j | 0 <= i < j < |r|
        ensures r[i] != r[j]
      {
        var i' := if i < idx then i else i + 1;
        var j' := if j < idx then j else j + 1;
        assert r[i] == classes[i'] && r[j] == classes[j'];
      }
  }

  /** Toggling a missing class twice gives the list back. */
  lemma ToggleTwice(classes: seq<Class>, c: Class)
    requires c !in classes
    ensures ToggledClasses(ToggledClasses(classes, c), c) == classes
  {
    var once := classes + [c];
    var p := (d: Class) => d == c;
    var k := Utils.FindIndex(once, p);
    assert p(once[|classes|]);
    assert k.Some? && k.value == |classes| by {
      assert forall j :: 0 <= j < |classes| ==> !p(once[j]);
    }
    assert once[..|classes|] == classes;
  }

  // ---- The edit as a whole ----

  /** The fields of a custom spell that the editor can change. */
  datatype Field =
    | SchoolField | LevelField | CastingTimeField | RangeField | ComponentsField
    | DurationField | RitualField | ConcentrationField | DescriptionField
    | HigherLevelsField | ClassesField

  /** The one field an edit names. */
  function FieldOf(edit: Edit): Field {
    match edit
    case SetSchool(_) => SchoolField
    case SetLevel(_) => LevelField
    case SetCastingTime(_) => CastingTimeField
    case SetCastingTimeN(_) => CastingTimeField
    case SetCastingTimeWhen(_) => CastingTimeField
    case SetRange(_) => RangeField
    case SetComponentV(_) => ComponentsField
    case SetComponentS(_) => ComponentsField
    case SetComponentM(_) => ComponentsField
    case SetComponentMaterial(_) => ComponentsField
    case SetDuration(_) => DurationField
    case SetRitual(_) => RitualField
    case SetConcentration(_) => ConcentrationField
    case SetDescription(_) => DescriptionField
    case SetHigherLevels(_) => HigherLevelsField
    case ToggleClass(_) => ClassesField
  }

  /** `a` with field `f` taken from `b`. */
  function WithField(a: CustomSpell, b: CustomSpell, f: Field): CustomSpell {
    match f
    case SchoolField => a.(school := b.school)
    case LevelField => a.(level := b.level)
    case CastingTimeField => a.(castingTime := b.castingTime)
    case RangeField => a.(range := b.range)
    case ComponentsField => a.(components := b.components)
    case DurationField => a.(duration := b.duration)
    case RitualField => a.(ritual := b.ritual)
    case ConcentrationField => a.(conc := b.conc)
    case DescriptionField => a.(description := b.description)
    case HigherLevelsField => a.(higherLevels := b.higherLevels)
    case ClassesField => a.(classes := b.classes)
  }

  /** `b` is `a` with at most field `f` changed: the name, the lowercase copies and the page
      are never edited, and every editable field other than `f` is kept. */
  predicate KeepsAllBut(a: CustomSpell, b: CustomSpell, f: Field) {
    b == WithField(a, b, f)
  }

  /** The value the handler gives the field an edit names: the payload itself, the
      `nullify`d text, the rewritten description, the toggled classes, the casting time with
      a parsed count or a new trigger phrase, or the components with one part set. */
  predicate SetsNamedField(spell: CustomSpell, r: CustomSpell, edit: Edit) {
    match edit
    case SetSchool(school) => r.school == school
    case SetLevel(level) => r.level == level
    case SetCastingTime(time) => r.castingTime == time
    case SetCastingTimeN(text) => r.castingTime == CastingTimeN(spell.castingTime, text)
    case SetCastingTimeWhen(text) =>
      r.castingTime == (if spell.castingTime.Reaction? then Reaction(Some(SA.Arc(text))) else spell.castingTime)
    case SetRange(text) => r.range == Nullify(text)
    case SetComponentV(_) => r.components == ComponentsWith(spell.components, edit)
    case SetComponentS(_) => r.components == ComponentsWith(spell.components, edit)
    case SetComponentM(_) => r.components == ComponentsWith(spell.components, edit)
    case SetComponentMaterial(_) => r.components == ComponentsWith(spell.components, edit)
    case SetDuration(text) => r.duration == Nullify(text)
    case SetRitual(ritual) => r.ritual == ritual
    case SetConcentration(conc) => r.conc == conc
    case SetDescription(text) => r.description == Unescape(text)
    case SetHigherLevels(text) => r.higherLevels == Nullify(text)
    case ToggleClass(c) => r.classes == ToggledClasses(spell.classes, c)
  }

  /** One `Edit` applied to the open spell. The name never changes, so the spell is saved back
      under the name it was opened with; every edit touches only the field it names, leaving
      the lowercase copies as they were, and sets that field as the handler does. */
  function ApplyEdit(spell: CustomSpell, edit: Edit): (r: CustomSpell)
    ensures KeepsAllBut(spell, r, FieldOf(edit))
    ensures SetsNamedField(spell, r, edit)
  {
    if FieldOf(edit) == CastingTimeField then EditCastingTime(spell, edit)
    else if FieldOf(edit) == ComponentsField then EditComponents(spell, edit)
    else if edit.SetRange? || edit.SetDuration? || edit.SetHigherLevels? then EditText(spell, edit)
    else if edit.SetDescription? || edit.ToggleClass? then EditProse(spell, edit)
    else EditFlag(spell, edit)
  }

  /** The school, level, ritual and concentration edits store their payload. */
  function EditFlag(spell: CustomSpell, edit: Edit): (r: CustomSpell)
    requires edit.SetSchool? || edit.SetLevel? || edit.SetRitual? || edit.SetConcentration?
    ensures KeepsAllBut(spell, r, FieldOf(edit))
    ensures SetsNamedField(spell, r, edit)
  {
    match edit
    case SetSchool(school) => spell.(school := school)
    case SetLevel(level) => spell.(level := level)
    case SetRitual(ritual) => spell.(ritual := ritual)
    case SetConcentration(conc) => spell.(conc := conc)
  }

  /** The three casting-time edits. */
  function EditCastingTime(spell: CustomSpell, edit: Edit): (r: CustomSpell)
    requires FieldOf(edit) == CastingTimeField
    ensures KeepsAllBut(spell, r, FieldOf(edit))
    ensures SetsNamedField(spell, r, edit)
  {
    match edit
    case SetCastingTime(time) => spell.(castingTime := time)
    case SetCastingTimeN(text) => spell.(castingTime := CastingTimeN(spell.castingTime, text))
    case SetCastingTimeWhen(text) =>
      if spell.castingTime.Reaction? then spell.(castingTime := Reaction(Some(SA.Arc(text))))
      else spell
  }

  /** The four component edits. */
  function EditComponents(spell: CustomSpell, edit: Edit): (r: CustomSpell)
    requires FieldOf(edit) == ComponentsField
    ensures KeepsAllBut(spell, r, FieldOf(edit))
    ensures SetsNamedField(spell, r, edit)
  {
    spell.(components := ComponentsWith(spell.components, edit))
  }

  /** The range, duration and higher-levels edits store their `nullify`d text. */
  function EditText(spell: CustomSpell, edit: Edit): (r: CustomSpell)
    requires edit.SetRange? || edit.SetDuration? || edit.SetHigherLevels?
    ensures KeepsAllBut(spell, r, FieldOf(edit))
    ensures SetsNamedField(spell, r, edit)
  {
    match edit
    case SetRange(text) => spell.(range := Nullify(text))
    case SetDuration(text) => spell.(duration := Nullify(text))
    case SetHigherLevels(text) => spell.(higherLevels := Nullify(text))
  }

  /** The description edit and the class toggle. */
  function EditProse(spell: CustomSpell, edit: Edit): (r: CustomSpell)
    requires edit.SetDescription? || edit.ToggleClass?
    ensures KeepsAllBut(spell, r, FieldOf(edit))
    ensures SetsNamedField(spell, r, edit)
  {
    match edit
    case SetDescription(text) => spell.(description := Unescape(text))
    case ToggleClass(c) => spell.(classes := ToggledClasses(spell.classes, c))
  }

  /** `Edit::CastingTimeN`: a number that parses replaces the count of a minute or hour
      casting time; anything else leaves the casting time alone. */
  function CastingTimeN(time: CastingTime, text: string): (r: CastingTime)
    ensures ParseUsize(text).None? || !(time.Minute? || time.Hour?) ==> r == time
    ensures ParseUsize(text).Some? && time.Minute? ==> r == Minute(ParseUsize(text).value)
    ensures ParseUsize(text).Some? && time.Hour? ==> r == Hour(ParseUsize(text).value)
  {
    match ParseUsize(text)
    case None => time
    case Some(n) =>
      match time
      case Minute(_) => Minute(n)
      case Hour(_) => Hour(n)
      case _ => time
  }

  /** The four component edits. With components present only the named part changes. Without
      them, a fresh set is made holding just that part, whatever the flag says. */
  function ComponentsWith(c: Option<Components>, edit: Edit): (r: Option<Components>)
    requires edit.SetComponentV? || edit.SetComponentS? || edit.SetComponentM? || edit.SetComponentMaterial?
    ensures r.Some?
    ensures c.Some? && edit.SetComponentV? ==> r.value == c.value.(v := edit.flag)
    ensures c.Some? && edit.SetComponentS? ==> r.value == c.value.(s := edit.flag)
    ensures c.Some? && edit.SetComponentM? ==> r.value == c.value.(m := if edit.flag then Some("") else None)
    ensures edit.SetComponentMaterial? ==> r.value.m == Some(edit.text)
    ensures c.None? ==> r.value.v == edit.SetComponentV? && r.value.s == edit.SetComponentS?
    ensures c.None? ==> (r.value.m.Some? <==> edit.SetComponentM? || edit.SetComponentMaterial?)
  {
    match edit
    case SetComponentV(v) =>
      if c.Some? then Some(c.value.(v := v)) else Some(Components(true, false, None))
    case SetComponentS(s) =>
      if c.Some? then Some(c.value.(s := s)) else Some(Components(false, true, None))
    case SetComponentM(m) =>
      if c.Some? then Some(c.value.(m := if m then Some("") else None))
      else Some(Components(false, false, Some("")))
    case SetComponentMaterial(mat) =>
      if c.Some? then Some(c.value.(m := Some(mat))) else Some(Components(false, false, Some(mat)))
  }

  // ---- Saving the edited spell ----

  predicate DistinctCustomNames(custom: seq<CustomSpell>) {
    forall i, j :: 0 <= i < j < |custom| ==> custom[i].name != custom[j].name
  }

  /** After the edit: the first saved spell with the same name is overwritten by the edited
      one, and a spell saved for the first time is appended. */
  function SaveCustom(custom: seq<CustomSpell>, spell: CustomSpell): (r: seq<CustomSpell>)
    ensures spell in r
    ensures |custom| <= |r| <= |custom| + 1
  {
    match Utils.FindIndex(custom, (s: CustomSpell) => s.name == spell.name)
    case Some(idx) =>
      var r := custom[idx := spell];
      assert r[idx] == spell;
      r
    case None => custom + [spell]
  }

  /** Saving adds an entry exactly when no saved spell has the name yet, keeps every spell of
      another name and brings in nothing but the edited spell. */
  lemma {:induction false} SaveCustomKeeps(custom: seq<CustomSpell>, spell: CustomSpell)
    ensures var r := SaveCustom(custom, spell);
      (|r| == |custom| + 1 <==> forall k :: 0 <= k < |custom| ==> custom[k].name != spell.name)
      && (forall s :: s in custom && s.name != spell.name ==> s in r)
      && (forall s :: s in r ==> s == spell || s in custom)
  {
    var p := (s: CustomSpell) => s.name == spell.name;
    var r := SaveCustom(custom, spell);
    match Utils.FindIndex(custom, p)
    case Some(idx) =>
      assert r == custom[idx := spell];
      forall s | s in custom && s.name != spell.name
        ensures s in r
      {
        var k :| 0 <= k < |custom| && custom[k] == s;
        assert r[k] == s;
      }
    case None =>
      assert r == custom + [spell];
  }

  /** Saving keeps the spell names distinct, and then the edited spell is the only one under
      its name. */
  lemma {:induction false} SaveCustomDistinct(custom: seq<CustomSpell>, spell: CustomSpell)
    requires DistinctCustomNames(custom)
    ensures DistinctCustomNames(SaveCustom(custom, spell))
    ensures forall s :: s in SaveCustom(custom, spell) && s.name == spell.name ==> s == spell
  {
    var p := (s: CustomSpell) => s.name == spell.name;
    var r := SaveCustom(custom, spell);
    match Utils.FindIndex(custom, p)
    case Some(idx) =>
      assert r == custom[idx := spell];
      forall k | 0 <= k < |r| && k != idx
        ensures r[k] == custom[k] && r[k].name != spell.name
      {
        assert custom[k].name != custom[idx].name;
      }
    case None =>
      assert r == custom + [spell];
      forall k | 0 <= k < |custom|
        ensures r[k] == custom[k] && r[k].name != spell.name
      {
        assert !p(custom[k]);
      }
  }
}

=== FILE: history.dfy ===
/** The undo history of `src/main.rs`: `save_states`, a list of snapshots, and `state`, the
    cursor that is set while an earlier snapshot is shown. */
module History {
  import opened Wrappers
  import Ints

  /** The recorded snapshots and the undo cursor. */
  datatype History<S> = History(states: seq<S>, cursor: Option<nat>)

  /** The shape the app keeps: at least the start-up snapshot, and a cursor that points at one
      of the snapshots. */
  predicate Valid<S>(h: History<S>) {
    |h.states| > 0 && (h.cursor.Some? ==> h.cursor.value < |h.states|)
  }

  /** The position of the snapshot on show: the cursor, or the latest without one. */
  function Current<S>(h: History<S>): nat {
    if h.cursor.Some? then h.cursor.value else Ints.SaturatingSub(|h.states|, 1)
  }

  /** `save_state`: a snapshot recorded after an undo drops the snapshots that could have
      been redone, then becomes the latest; the cursor is cleared. */
  function Save<S>(h: History<S>, s: S): (r: History<S>)
    ensures Valid(r) && r.cursor.None? && r.states[|r.states| - 1] == s
    ensures Valid(h) ==> r.states == h.states[..Current(h) + 1] + [s]
    ensures Valid(h) ==> Current(r) == Current(h) + 1
  {
    var kept := match h.cursor
      case Some(idx) => h.states[..Ints.Min(idx + 1, |h.states|)]
      case None => h.states;
    History(kept + [s], None)
  }

  /** The `Undo` arm: one snapshot back, stopping at the first; from no cursor that is the one
      before the latest. The index is the snapshot to load, present exactly when the cursor
      changed. */
  function Undo<S>(h: History<S>): (r: (History<S>, Option<nat>))
    ensures r.0.states == h.states && r.0.cursor.Some?
    ensures Valid(h) ==> Valid(r.0)
    ensures Current(r.0) == Ints.SaturatingSub(Current(h), 1)
    ensures r.1.Some? <==> r.0.cursor != h.cursor
    ensures r.1.Some? ==> r.1.value == Current(r.0)
  {
    var idx := match h.cursor
      case Some(i) => Ints.SaturatingSub(i, 1)
      case None => Ints.SaturatingSub(|h.states|, 2);
    (History(h.states, Some(idx)), if h.cursor != Some(idx) then Some(idx) else None)
  }

  /** The `Redo` arm: nothing without a cursor; otherwise one snapshot forwards, stopping at
      the latest. The index is the snapshot to load, present exactly when the cursor moved. */
  function Redo<S>(h: History<S>): (r: (History<S>, Option<nat>))
    ensures r.0.states == h.states
    ensures h.cursor.None? ==> r == (h, None)
    ensures Valid(h) ==> Valid(r.0)
    ensures Valid(h) ==> Current(r.0) == Ints.Min(Current(h) + 1, |h.states| - 1)
    ensures Valid(h) ==> (r.1.Some? <==> Current(r.0) != Current(h))
    ensures r.1.Some? ==> r.1.value == Current(r.0)
  {
    match h.cursor
    case None => (h, None)
    case Some(i) =>
      var idx := Ints.Min(i + 1, Ints.SaturatingSub(|h.states|, 1));
      (History(h.states, Some(idx)), if idx != i then Some(idx) else None)
  }

  /** Redo takes back an undo that moved. */
  lemma UndoThenRedo<S>(h: History<S>)
    requires Valid(h) && Current(h) > 0
    ensures Current(Redo(Undo(h).0).0) == Current(h)
  {
  }

  /** After a change is recorded, undo shows the snapshot that was on show before it, and redo
      then shows the change again. */
  lemma {:induction false} SaveThenUndo<S>(h: History<S>, s: S)
    requires Valid(h)
    ensures var u := Undo(Save(h, s)).0;
      u.states[Current(u)] == h.states[Current(h)]
      && Redo(u).0.states[Current(Redo(u).0)] == s
  {
    var saved := Save(h, s);
    assert saved.states[Current(h)] == h.states[..Current(h) + 1][Current(h)];
  }
}

=== FILE: hotkey.dfy ===
/** `src/hotkey.rs`: the keyboard shortcuts, as a table from a pressed key and its modifier
    set to an app message. */
module Hotkeys {
  import opened Wrappers
  import Tabs

  /** The keys the table mentions; every other key is `OtherKey`. */
  datatype KeyCode =
    | Grave | Key0 | Key1 | Key2 | Key3 | Key4 | Key5 | Key6 | Key7 | Key8 | Key9
    | A | F | N | S | Y | Z
    | Tab | Insert | Enter | NumpadEnter | Left | Right
    | OtherKey(code: nat)

  /** `keyboard::Modifiers`: which of shift, control, alt and logo are held. */
  datatype Modifiers = Modifiers(shift: bool, ctrl: bool, alt: bool, logo: bool)

  const NONE: Modifiers := Modifiers(false, false, false, false)
  const CTRL: Modifiers := Modifiers(false, true, false, false)
  const SHIFT: Modifiers := Modifiers(true, false, false, false)
  const CTRL_ALT: Modifiers := Modifiers(false, true, true, false)
  const CTRL_SHIFT: Modifiers := Modifiers(true, true, false, false)

  /** `keyboard::Event`: a key press, or any other keyboard event. */
  datatype KeyEvent = KeyPressed(key: KeyCode, modifiers: Modifiers) | OtherEvent

  /** `hotkey::Message`. */
  datatype HotkeyMessage =
    | ToCharacter(index: nat)
    | Find(force: bool)
    | NewCharacter
    | Move(dir: Tabs.Direction, tabOnly: bool)
    | Undo
    | Redo
    | CharacterTab(tab: nat)
    | AddSpell(character: nat)
    | CustomSpellNextField(forwards: bool)

  /** The digit a number-row key stands for. */
  function DigitOf(k: KeyCode): (r: Option<nat>)
    ensures r.Some? ==> r.value < 10
  {
    match k
    case Key0 => Some(0)
    case Key1 => Some(1)
    case Key2 => Some(2)
    case Key3 => Some(3)
    case Key4 => Some(4)
    case Key5 => Some(5)
    case Key6 => Some(6)
    case Key7 => Some(7)
    case Key8 => Some(8)
    case Key9 => Some(9)
    case _ => None
  }

  /** The keys that move to the next field of the spell editor. */
  predicate FieldKey(k: KeyCode) {
    k == Tab || k == Enter || k == NumpadEnter
  }

  /** The control-held table. */
  function CtrlKey(k: KeyCode): Option<HotkeyMessage> {
    match k
    case Grave => Some(Find(true))
    case Key1 => Some(ToCharacter(1))
    case Key2 => Some(ToCharacter(2))
    case Key3 => Some(ToCharacter(3))
    case Key4 => Some(ToCharacter(4))
    case Key5 => Some(ToCharacter(5))
    case Key6 => Some(ToCharacter(6))
    case Key7 => Some(ToCharacter(7))
    case Key8 => Some(ToCharacter(8))
    case Key9 => Some(ToCharacter(9))
    case Key0 => Some(ToCharacter(0))
    case F => Some(Find(false))
    case S => Some(Find(true))
    case Tab => Some(Move(Tabs.Right, true))
    case Insert => Some(NewCharacter)
    case N => Some(NewCharacter)
    case Z => Some(Undo)
    case Y => Some(Redo)
    case _ => None
  }

  /** The control-and-alt table. */
  function CtrlAltKey(k: KeyCode): Option<HotkeyMessage> {
    match k
    case Key1 => Some(AddSpell(0))
    case Key2 => Some(AddSpell(1))
    case Key3 => Some(AddSpell(2))
    case Key4 => Some(AddSpell(3))
    case Key5 => Some(AddSpell(4))
    case Key6 => Some(AddSpell(5))
    case Key7 => Some(AddSpell(6))
    case Left => Some(Move(Tabs.Left, false))
    case Right => Some(Move(Tabs.Right, false))
    case _ => None
  }

  /** The control-and-shift table. */
  function CtrlShiftKey(k: KeyCode): Option<HotkeyMessage> {
    match k
    case Tab => Some(Move(Tabs.Left, true))
    case F => Some(Find(true))
    case S => Some(Find(true))
    case _ => None
  }

  /** The shift-held table. */
  function ShiftKey(k: KeyCode): Option<HotkeyMessage> {
    if FieldKey(k) then Some(CustomSpellNextField(false)) else None
  }

  /** The table with no modifier held. */
  function PlainKey(k: KeyCode): Option<HotkeyMessage> {
    match k
    case Grave => Some(CharacterTab(1))
    case Key0 => Some(CharacterTab(1))
    case Key1 => Some(CharacterTab(2))
    case Key2 => Some(CharacterTab(3))
    case Key3 => Some(CharacterTab(4))
    case Key4 => Some(CharacterTab(5))
    case Key5 => Some(CharacterTab(6))
    case Key6 => Some(CharacterTab(7))
    case Key7 => Some(CharacterTab(8))
    case Key8 => Some(CharacterTab(9))
    case Key9 => Some(CharacterTab(10))
    case A => Some(CharacterTab(0))
    case Tab => Some(CustomSpellNextField(true))
    case Enter => Some(CustomSpellNextField(true))
    case NumpadEnter => Some(CustomSpellNextField(true))
    case _ => None
  }

  /** `hotkey::handle`: the message a keyboard event stands for, if any. */
  function Handle(event: KeyEvent): (r: Option<HotkeyMessage>)
    // only key presses with one of five modifier sets do anything
    ensures r.Some? ==> event.KeyPressed?
    ensures r.Some? ==> event.modifiers in {NONE, CTRL, SHIFT, CTRL_ALT, CTRL_SHIFT}
    // control and a digit d opens character d, control-0 included
    ensures event.KeyPressed? && event.modifiers == CTRL && DigitOf(event.key).Some? ==>
      r == Some(ToCharacter(DigitOf(event.key).value))
    // a bare digit d selects level tab d + 1; grave as 0; A the "all" tab
    ensures event.KeyPressed? && event.modifiers == NONE && DigitOf(event.key).Some? ==>
      r == Some(CharacterTab(DigitOf(event.key).value + 1))
    ensures event == KeyPressed(Grave, NONE) ==> r == Some(CharacterTab(1))
    ensures event == KeyPressed(A, NONE) ==> r == Some(CharacterTab(0))
    // control-alt 1..7 add the first search result to characters 0..6
    ensures event.KeyPressed? && event.modifiers == CTRL_ALT && DigitOf(event.key).Some? ==>
      var d := DigitOf(event.key).value;
      r == if 1 <= d <= 7 then Some(AddSpell(d - 1)) else None
    // tab, enter: next field forwards bare, backwards with shift
    ensures event.KeyPressed? && FieldKey(event.key) && event.modifiers == NONE ==>
      r == Some(CustomSpellNextField(true))
    ensures event.KeyPressed? && FieldKey(event.key) && event.modifiers == SHIFT ==>
      r == Some(CustomSpellNextField(false))
    // the moves, each from exactly one binding
    ensures r == Some(Move(Tabs.Right, true)) <==> event == KeyPressed(Tab, CTRL)
    ensures r == Some(Move(Tabs.Left, true)) <==> event == KeyPressed(Tab, CTRL_SHIFT)
    ensures r == Some(Move(Tabs.Left, false)) <==> event == KeyPressed(Left, CTRL_ALT)
    ensures r == Some(Move(Tabs.Right, false)) <==> event == KeyPressed(Right, CTRL_ALT)
    ensures r == Some(Undo) <==> event == KeyPressed(Z, CTRL)
    ensures r == Some(Redo) <==> event == KeyPressed(Y, CTRL)
    ensures r == Some(NewCharacter) <==>
      event == KeyPressed(Insert, CTRL) || event == KeyPressed(N, CTRL)
  {
    match event
    case OtherEvent => None
    case KeyPressed(key, modifiers) =>
      if modifiers == CTRL then CtrlKey(key)
      else if modifiers == CTRL_ALT then CtrlAltKey(key)
      else if modifiers == CTRL_SHIFT then CtrlShiftKey(key)
      else if modifiers == SHIFT then ShiftKey(key)
      else if modifiers == NONE then PlainKey(key)
      else None
  }
}

=== FILE: icon.dfy ===
/** `src/icon.rs`: the Bootstrap icons bundled in the application's icon font, and the
    character each one is drawn with. The table is generated: the icon on line `i` of the
    font's icon list gets code point 0x61 + i. */
module Icons {

  /** `Icon`, in declaration order, which is the order of the generator's icon list. */
  datatype Icon =
    | ArrowUp | ArrowDown | ArrowLeft | ArrowRight | ArrowClockwise
    | ArrowsCollapse | ArrowsExpand | DiamondFill | Diamond | Trash
    | Check | Check2 | X | BrightnessHigh | Moon
    | ChevronExpand | ChevronContract | InfoCircle | Archive

  /** The number of bundled icons. */
  const ICON_COUNT: nat := 19

  /** The first code point the generator hands out. */
  const FIRST_CODE_POINT: nat := 0x61

  /** The position of the icon in the generator's list. */
  function Ordinal(icon: Icon): (r: nat)
    ensures r < ICON_COUNT
  {
    match icon
    case ArrowUp => 0 case ArrowDown => 1 case ArrowLeft => 2 case ArrowRight => 3
    case ArrowClockwise => 4 case ArrowsCollapse => 5 case ArrowsExpand => 6
    case DiamondFill => 7 case Diamond => 8 case Trash => 9 case Check => 10
    case Check2 => 11 case X => 12 case BrightnessHigh => 13 case Moon => 14
    case ChevronExpand => 15 case ChevronContract => 16 case InfoCircle => 17
    case Archive => 18
  }

  /** Different icons sit on different lines of the list. */
  lemma OrdinalInjective(a: Icon, b: Icon)
    requires Ordinal(a) == Ordinal(b)
    ensures a == b
  {
  }

  /** `icon_to_char`: the generated table. Each entry is the generator's code point for that
      icon's line, so every icon is drawn with a lowercase letter from 'a' to 's'. */
  function IconToChar(icon: Icon): (r: char)
    ensures r as int == FIRST_CODE_POINT + Ordinal(icon)
    ensures 'a' <= r <= 's'
  {
    match icon
    case ArrowUp => '\U{61}'
    case ArrowDown => '\U{62}'
    case ArrowLeft => '\U{63}'
    case ArrowRight => '\U{64}'
    case ArrowClockwise => '\U{65}'
    case ArrowsCollapse => '\U{66}'
    case ArrowsExpand => '\U{67}'
    case DiamondFill => '\U{68}'
    case Diamond => '\U{69}'
    case Trash => '\U{6a}'
    case Check => '\U{6b}'
    case Check2 => '\U{6c}'
    case X => '\U{6d}'
    case BrightnessHigh => '\U{6e}'
    case Moon => '\U{6f}'
    case ChevronExpand => '\U{70}'
    case ChevronContract => '\U{71}'
    case InfoCircle => '\U{72}'
    case Archive => '\U{73}'
  }

  /** No two icons share a character, so the font can tell them apart. */
  lemma {:induction false} IconToCharInjective(a: Icon, b: Icon)
    requires IconToChar(a) == IconToChar(b)
    ensures a == b
  {
    OrdinalInjective(a, b);
  }

  /** The generator's numbering hands out every letter from 'a' to 's' exactly once: each such
      letter is the character of some icon. */
  lemma {:induction false} IconToCharOnto(c: char)
    requires 'a' <= c <= 's'
    ensures exists icon :: IconToChar(icon) == c
  {
    var all := [ArrowUp, ArrowDown, ArrowLeft, ArrowRight, ArrowClockwise,
                ArrowsCollapse, ArrowsExpand, DiamondFill, Diamond, Trash,
                Check, Check2, X, BrightnessHigh, Moon,
                ChevronExpand, ChevronContract, InfoCircle, Archive];
    var k := c as int - FIRST_CODE_POINT;
    assert Ordinal(all[k]) == k;
    assert IconToChar(all[k]) == c;
  }

  /** `Display for Icon`: writes exactly the icon's character. */
  function Display(icon: Icon): (r: string)
    ensures |r| == 1 && r[0] == IconToChar(icon)
  {
    [IconToChar(icon)]
  }
}

=== FILE: ints.dfy ===
/** Fixed-width integers of the source, as bounded subsets of `int`, and the saturating and
    clamping arithmetic the source performs on them. */
module Ints {

  const U8_LIMIT: int := 0x100
  const U32_LIMIT: int := 0x1_0000_0000
  const U64_LIMIT: int := 0x1_0000_0000_0000_0000
  const I32_MIN: int := -0x8000_0000
  const I32_LIMIT: int := 0x8000_0000
  /** `usize` on the 64-bit targets the application ships for. */
  const USIZE_LIMIT: int := 0x1_0000_0000_0000_0000
  const ISIZE_MIN: int := -0x8000_0000_0000_0000
  const ISIZE_LIMIT: int := 0x8000_0000_0000_0000

  type u8 = x: int | 0 <= x < U8_LIMIT
  type u32 = x: int | 0 <= x < U32_LIMIT
  type u64 = x: int | 0 <= x < U64_LIMIT
  type i32 = x: int | I32_MIN <= x < I32_LIMIT
  type usize = x: int | 0 <= x < USIZE_LIMIT
  type isize = x: int | ISIZE_MIN <= x < ISIZE_LIMIT

  /** `Ord::clamp(x, lo, hi)`; Rust panics when `lo > hi`, which the requires excludes. */
  function Clamp(x: int, lo: int, hi: int): (r: int)
    requires lo <= hi
    ensures lo <= r <= hi
    ensures lo <= x <= hi ==> r == x
    ensures x < lo ==> r == lo
    ensures hi < x ==> r == hi
  {
    if x < lo then lo else if hi < x then hi else x
  }

  /** `u32::saturating_add_signed(self, delta)`. */
  function SaturatingAddSigned32(x: u32, delta: i32): (r: u32)
    ensures 0 <= x + delta < U32_LIMIT ==> r == x + delta
    ensures x + delta < 0 ==> r == 0
    ensures U32_LIMIT <= x + delta ==> r == U32_LIMIT - 1
  {
    Clamp(x + delta, 0, U32_LIMIT - 1)
  }

  /** `usize::saturating_sub(self, k)`. */
  function SaturatingSub(x: nat, k: nat): (r: nat)
    ensures k <= x ==> r == x - k
    ensures x < k ==> r == 0
  {
    if k <= x then x - k else 0
  }

  /** `usize::wrapping_sub(self, 1)`. */
  function WrappingDec(x: usize): (r: usize)
    ensures x == 0 ==> r == USIZE_LIMIT - 1
    ensures 0 < x ==> r == x - 1
  {
    if x == 0 then USIZE_LIMIT - 1 else x - 1
  }

  function Min(a: int, b: int): (r: int)
    ensures r <= a && r <= b
    ensures r == a || r == b
  {
    if a <= b then a else b
  }
}

=== FILE: new_page.dfy ===
/** `src/new.rs`: the new-character page, a name field and a button that submits it. */
module NewPages {
  import opened Wrappers

  /** `new::Message`: the field was edited, or the name was submitted. */
  datatype NewMessage = Name(name: string) | Submit

  /** `NewPage`: the text of the name field. */
  datatype NewPage = NewPage(name: string)

  /** Whether some open character already has this name. */
  predicate Taken(name: string, characters: seq<string>) {
    exists i :: 0 <= i < |characters| && characters[i] == name
  }

  /** `NewPage::update`: editing only sets the field; submitting hands out the name, and
      clears the field, when it is not empty and no open character has it. */
  function Update(page: NewPage, msg: NewMessage, characters: seq<string>): (r: (NewPage, Option<string>))
    ensures msg.Name? ==> r == (NewPage(msg.name), None)
    ensures msg.Submit? ==> (r.1.Some? <==> page.name != [] && !Taken(page.name, characters))
    ensures msg.Submit? && r.1.Some? ==> r.1.value == page.name && r.0.name == []
    ensures msg.Submit? && r.1.None? ==> r.0 == page
    ensures r.1.Some? ==> !Taken(r.1.value, characters)
  {
    match msg
    case Name(name) => (NewPage(name), None)
    case Submit =>
      if page.name != [] && !AnyNamed(characters, page.name) then (NewPage([]), Some(page.name))
      else (page, None)
  }

  /** The `iter().any(..)` over the open characters' names. */
  function AnyNamed(characters: seq<string>, name: string): (r: bool)
    ensures r <==> Taken(name, characters)
  {
    if characters == [] then false
    else characters[0] == name || AnyNamed(characters[1..], name)
  }

  /** A name that was handed out can be submitted no second time once its character is open:
      the field is then empty, and typing the name again is turned down. */
  lemma {:induction false} SubmitOnce(page: NewPage, characters: seq<string>)
    requires Update(page, Submit, characters).1.Some?
    ensures var (page', name) := Update(page, Submit, characters);
      Update(page', Submit, characters + [name.value]).1.None?
      && Update(NewPage(name.value), Submit, characters + [name.value]).1.None?
  {
    var name := page.name;
    var more := characters + [name];
    assert more[|characters|] == name;
  }
}

=== FILE: search.dfy ===
/** The advanced search of `src/search.rs`: the pick-list helpers, the eight searchers, the
    sorted selection vectors they keep, and `SearchOptions::search`, which filters every
    spell by the enabled searchers and the name needle, sorts by name and keeps at most 100. */
module Search {
  import opened Wrappers
  import opened Ints
  import opened Strings
  import opened Sorting
  import opened Utils
  import opened SpellData
  import opened Spells
  import SA = StaticArc

  // ---- modes and pick-list options ----

  /** `Mode`: which advanced searcher a pick-list entry enables. */
  datatype Mode = ByLevel | ByClass | BySchool | ByCastingTime | ByRitual | ByConcentration | ByText | BySource

  /** `Mode::ALL`, in pick-list order. */
  const MODES: seq<Mode> := [ByLevel, ByClass, BySchool, ByCastingTime, ByRitual, ByConcentration, ByText, BySource]

  const MODE_TITLE: string := "Advanced Search"

  /** `Display for Mode`. */
  function ModeDisplay(m: Mode): (r: string)
    ensures |r| > 0
  {
    match m
    case ByLevel => "Level"
    case ByClass => "Class"
    case BySchool => "School"
    case ByCastingTime => "Casting Time"
    case ByRitual => "Ritual"
    case ByConcentration => "Concentration"
    case ByText => "Text"
    case BySource => "Source"
  }

  /** Every mode is offered exactly once, and no mode displays as the pick list's title. */
  lemma ModesComplete(m: Mode)
    ensures m in MODES
    ensures ModeDisplay(m) != MODE_TITLE
    ensures forall i, j :: 0 <= i < j < |MODES| ==> ModeDisplay(MODES[i]) != ModeDisplay(MODES[j])
  {
  }

  /** `PLOption<T>`: a pick-list entry, `PLNone` being the title shown when nothing is
      picked. */
  datatype PLOption<T> = PLNone | PLSome(t: T)

  /** `Unwrap for PLOption`; `None` stands for the panic on `PLNone`. */
  function PLUnwrap<T>(o: PLOption<T>): (r: Option<T>)
    ensures r.None? <==> o.PLNone?
    ensures r.Some? ==> o == PLSome(r.value)
  {
    match o
    case PLSome(t) => Some(t)
    case PLNone => None
  }

  /** `From<Option<T>> for PLOption<T>`. */
  function PLFromOption<T>(o: Option<T>): (r: PLOption<T>)
    ensures PLUnwrap(r) == o
  {
    match o
    case Some(t) => PLSome(t)
    case None => PLNone
  }

  /** `Display for PLOption<T>`: the type's title for `PLNone`, the payload's display
      otherwise. */
  function PLDisplay<T>(o: PLOption<T>, title: string, show: T -> string): (r: string)
    ensures o.PLNone? ==> r == title
    ensures o.PLSome? ==> r == show(o.t)
  {
    match o
    case PLNone => title
    case PLSome(t) => show(t)
  }

  /** `PickListLevel`: a level number, 255 being the pick list's title. */
  datatype PickListLevel = PickListLevel(n: u8)

  const PICK_LIST_LEVEL_NONE: PickListLevel := PickListLevel(U8_LIMIT - 1)

  /** `PickListLevel::ALL`. */
  const PICK_LIST_LEVELS: seq<PickListLevel> := seq(10, i requires 0 <= i < 10 => PickListLevel(i))

  /** `Unwrap for PickListLevel`; `None` stands for the panic on the title value. */
  function PickListLevelUnwrap(p: PickListLevel): (r: Option<u8>)
    ensures r.None? <==> p.n == U8_LIMIT - 1
    ensures r.Some? ==> r.value == p.n
  {
    if p == PICK_LIST_LEVEL_NONE then None else Some(p.n)
  }

  /** `Display for PickListLevel`: the digit for 0 through 9, "Level" for anything else. */
  function PickListLevelDisplay(p: PickListLevel): (r: string)
    ensures p.n <= 9 ==> |r| == 1 && IsDigit(r[0]) && DigitValue(r[0]) == p.n
    ensures p.n > 9 <==> r == "Level"
  {
    if p.n <= 9 then [DigitChar(p.n)] else "Level"
  }

  /** None of the offered levels is the title, so unwrapping a picked level never panics. */
  lemma PickListLevelsUnwrap(i: nat)
    requires i < |PICK_LIST_LEVELS|
    ensures PickListLevelUnwrap(PICK_LIST_LEVELS[i]) == Some(i)
    ensures PickListLevelDisplay(PICK_LIST_LEVELS[i]) == [DigitChar(i)]
  {
  }

  /** The pick lists offer the entries of `all` not already chosen (`add_to_row`). */
  function Offered<T(==)>(all: seq<T>, chosen: seq<T>): (r: seq<T>)
    ensures forall i :: 0 <= i < |r| ==> r[i] in all && r[i] !in chosen
    ensures forall i :: 0 <= i < |all| && all[i] !in chosen ==> all[i] in r
  {
    var p := (x: T) => x !in chosen;
    var r := Filter(all, p);
    assert forall i :: 0 <= i < |all| && all[i] !in chosen ==> p(all[i]);
    r
  }

  /** The casting times the casting-time pick list offers, in order. */
  const CASTING_TIME_CHOICES: seq<CastingTime> := [
    Action, BonusAction, Reaction(None), Minute(1), Minute(10), Hour(1), Hour(8), Hour(12),
    Hour(24), Special]

  /** The only reaction the casting-time pick list ever offers is one without a trigger
      phrase. */
  lemma OfferedReactionHasNoPhrase(chosen: seq<CastingTime>, ct: CastingTime)
    requires ct in Offered(CASTING_TIME_CHOICES, chosen) && ct.Reaction?
    ensures ct == Reaction(None)
  {
    OfferedIsChoice(CASTING_TIME_CHOICES, chosen, ct);
    ChoiceReaction(ct);
  }

  lemma OfferedIsChoice<T>(all: seq<T>, chosen: seq<T>, x: T)
    requires x in Offered(all, chosen)
    ensures x in all && x !in chosen
  {
    var offered := Offered(all, chosen);
    var i :| 0 <= i < |offered| && offered[i] == x;
  }

  lemma ChoiceReaction(ct: CastingTime)
    requires ct in CASTING_TIME_CHOICES && ct.Reaction?
    ensures ct == Reaction(None)
  {
  }

  // ---- the searchers ----

  /** One enabled advanced searcher with its current selection. */
  datatype Searcher =
    | LevelSearch(levels: seq<u8>)
    | ClassSearch(classes: seq<Class>)
    | SchoolSearch(schools: seq<School>)
    | CastingTimeSearch(times: seq<CastingTime>)
    | RitualSearch(ritual: bool)
    | ConcentrationSearch(concentration: bool)
    | TextSearch(text: string)
    | SourceSearch(sources: seq<Source>)

  /** `Searcher::is_empty`: an empty selection constrains nothing; the two check-boxes always
      constrain. */
  predicate IsEmpty(s: Searcher) {
    match s
    case LevelSearch(levels) => |levels| == 0
    case ClassSearch(classes) => |classes| == 0
    case SchoolSearch(schools) => |schools| == 0
    case CastingTimeSearch(times) => |times| == 0
    case RitualSearch(_) => false
    case ConcentrationSearch(_) => false
    case TextSearch(text) => |text| == 0
    case SourceSearch(sources) => |sources| == 0
  }

  /** Whether one `|`-separated alternative of the text search hits the spell's lowercased
      description or higher-levels text. */
  predicate TextAlternativeHits(spell: Spell, alternative: string) {
    Contains(DescLower(spell), alternative) ||
    (HigherLevelsLower(spell).Some? && Contains(HigherLevelsLower(spell).value, alternative))
  }

  /** `Searcher::matches`. The casting-time searcher uses the derived equality, which also
      compares a reaction's trigger phrase. */
  predicate Matches(s: Searcher, spell: Spell) {
    match s
    case LevelSearch(levels) => AsU8(LevelOf(spell)) in levels
    case ClassSearch(classes) => exists i :: 0 <= i < |Classes(spell)| && Classes(spell)[i] in classes
    case SchoolSearch(schools) => SchoolOf(spell) in schools
    case CastingTimeSearch(times) => CastingTimeOf(spell) in times
    case RitualSearch(ritual) => Ritual(spell) == ritual
    case ConcentrationSearch(concentration) => Concentration(spell) == concentration
    case TextSearch(text) => Any(Split(text, '|'), (alt: string) => TextAlternativeHits(spell, alt))
    case SourceSearch(sources) => SourceOf(spell) in sources
  }

  /** `Searcher::matches` with the casting-time searcher comparing with
      `equals_ignore_reaction`, the corrected reading; the other searchers are unchanged. */
  predicate MatchesCorrected(s: Searcher, spell: Spell) {
    match s
    case CastingTimeSearch(times) =>
      exists i :: 0 <= i < |times| && EqualsIgnoreReaction(times[i], CastingTimeOf(spell))
    case _ => Matches(s, spell)
  }

  /** The text searcher matches exactly when some alternative hits. */
  lemma TextMatchesIff(text: string, spell: Spell)
    ensures Matches(TextSearch(text), spell) <==>
      exists k :: 0 <= k < |Split(text, '|')| && TextAlternativeHits(spell, Split(text, '|')[k])
  {
    var alts := Split(text, '|');
    var hits := (alt: string) => TextAlternativeHits(spell, alt);
    AnyIffExists(alts, hits);
    assert Matches(TextSearch(text), spell) == Any(alts, hits);
    if Any(alts, hits) {
      var k :| 0 <= k < |alts| && hits(alts[k]);
      assert TextAlternativeHits(spell, alts[k]);
      assert Matches(TextSearch(text), spell);
    } else {
      assert forall k :: 0 <= k < |alts| ==> !TextAlternativeHits(spell, alts[k]) by {
        forall k | 0 <= k < |alts| ensures !TextAlternativeHits(spell, alts[k]) {
          assert !hits(alts[k]);
        }
      }
      assert !Matches(TextSearch(text), spell);
    }
  }

  /** Why `search` drops empty searchers before matching: an empty level, class, school,
      casting-time or source selection matches no spell, and an empty text matches every
      spell. */
  lemma EmptySearcherMatches(s: Searcher, spell: Spell)
    requires IsEmpty(s)
    ensures !s.TextSearch? ==> !Matches(s, spell)
    ensures s.TextSearch? ==> Matches(s, spell)
  {
    if s.TextSearch? {
      assert IndexOf("", '|') == None;
      assert Split("", '|') == [""];
      assert OccursAt(DescLower(spell), "", 0);
      TextMatchesIff("", spell);
      assert TextAlternativeHits(spell, Split("", '|')[0]);
    }
  }

  /** A text search ending in `|` has an empty last alternative, which every spell's
      description contains, so it matches every spell. */
  lemma TrailingBarMatchesAll(prefix: string, spell: Spell)
    requires '|' !in prefix
    ensures Matches(TextSearch(prefix + "|"), spell)
  {
    var text := prefix + "|";
    IndexOfConcat(prefix, "|", '|', 0);
    assert IndexOf(text, '|') == Some(|prefix|);
    assert text[|prefix| + 1..] == "";
    assert Split(text, '|') == [prefix, ""];
    assert OccursAt(DescLower(spell), "", 0);
    TextMatchesIff(text, spell);
    assert TextAlternativeHits(spell, Split(text, '|')[1]);
  }

  /** A bundled reaction spell always carries its trigger phrase, which the picked
      `Reaction(None)` never has: as written, picking "Reaction" matches no bundled reaction
      spell, while the intended comparison matches all of them. */
  lemma ReactionSearchAsWritten(st: StaticSpell, phrase: string)
    requires st.castingTime == Reaction(Some(SA.Static(phrase)))
    ensures !Matches(CastingTimeSearch([Reaction(None)]), StaticEntry(st))
    ensures MatchesCorrected(CastingTimeSearch([Reaction(None)]), StaticEntry(st))
  {
    assert EqualsIgnoreReaction([Reaction(None)][0], CastingTimeOf(StaticEntry(st)));
  }

  /** With the corrected comparison, picking "Reaction" matches exactly the reaction spells,
      whatever their trigger phrase. */
  lemma {:induction false} ReactionChoiceMatchesReactions(spell: Spell)
    ensures MatchesCorrected(CastingTimeSearch([Reaction(None)]), spell) <==> CastingTimeOf(spell).Reaction?
  {
    var times := [Reaction(None)];
    if CastingTimeOf(spell).Reaction? {
      assert EqualsIgnoreReaction(times[0], CastingTimeOf(spell));
    } else {
      assert !EqualsIgnoreReaction(times[0], CastingTimeOf(spell));
    }
  }

  /** Apart from the casting-time searcher the two readings agree, and on a non-reaction
      casting time they agree as well; whatever the as-written comparison accepts, the
      corrected one accepts too. */
  lemma MatchesAgreeOffReaction(s: Searcher, spell: Spell)
    ensures Matches(s, spell) ==> MatchesCorrected(s, spell)
    ensures !s.CastingTimeSearch? || !CastingTimeOf(spell).Reaction? ==>
      (MatchesCorrected(s, spell) <==> Matches(s, spell))
  {
    if s.CastingTimeSearch? {
      var ct := CastingTimeOf(spell);
      if Matches(s, spell) {
        var i :| 0 <= i < |s.times| && s.times[i] == ct;
        assert EqualsIgnoreReaction(s.times[i], ct);
      }
      if MatchesCorrected(s, spell) && !ct.Reaction? {
        var i :| 0 <= i < |s.times| && EqualsIgnoreReaction(s.times[i], ct);
        EqualsIgnoreReactionIsErasedEquality(s.times[i], ct);
        assert s.times[i] == ct;
      }
    }
  }

  // ---- the options ----

  /** `SearchOptions`: the lowercased name needle and the optional searchers, `None` meaning
      that searcher is switched off. */
  datatype SearchOptions = SearchOptions(
    search: string,
    levelSearch: Option<seq<u8>>,
    classSearch: Option<seq<Class>>,
    castingTimeSearch: Option<seq<CastingTime>>,
    schoolSearch: Option<seq<School>>,
    ritualSearch: Option<bool>,
    concentrationSearch: Option<bool>,
    textSearch: Option<string>,
    sourceSearch: Option<seq<Source>>)

  /** `SearchOptions::default()`: an empty needle and no searcher. */
  const DEFAULT_OPTIONS: SearchOptions :=
    SearchOptions("", None, None, None, None, None, None, None, None)

  /** `toggle_mode`: an enabled searcher is switched off, a disabled one switched on with its
      default. */
  function ToggleMode<T>(search: Option<T>, default: T): (r: Option<T>)
    ensures search.Some? <==> r.None?
    ensures search.None? ==> r == Some(default)
  {
    match search
    case Some(_) => None
    case None => Some(default)
  }

  /** Toggling a mode twice from off gives off again, and from on gives the default. */
  lemma ToggleModeTwice<T>(search: Option<T>, default: T)
    ensures search.None? ==> ToggleMode(ToggleMode(search, default), default) == None
    ensures search.Some? ==> ToggleMode(ToggleMode(search, default), default) == Some(default)
  {
  }

  /** The enabled searchers, in the order `search` lists them. */
  function Searchers(o: SearchOptions): (r: seq<Searcher>) {
    Flatten(SearcherParts(o))
  }

  predicate NonEmpty(s: Searcher) {
    !IsEmpty(s)
  }

  /** The spell passes every non-empty searcher of the list. */
  predicate PassesAll(ss: seq<Searcher>, spell: Spell) {
    var act := Filter(ss, NonEmpty);
    forall i :: 0 <= i < |act| ==> Matches(act[i], spell)
  }

  /** The spell passes every enabled, non-empty searcher. */
  predicate Admits(o: SearchOptions, spell: Spell) {
    PassesAll(Searchers(o), spell)
  }

  /** The searcher has nothing selected or matches the spell. */
  predicate Constrains(s: Searcher, spell: Spell) {
    IsEmpty(s) || Matches(s, spell)
  }

  predicate AllConstrain(ss: seq<Searcher>, spell: Spell) {
    forall i :: 0 <= i < |ss| ==> Constrains(ss[i], spell)
  }

  /** The conjunction of the eight fields, each either off, empty or matching. */
  predicate AdmitsByField(o: SearchOptions, spell: Spell) {
    (o.levelSearch.Some? ==> Constrains(LevelSearch(o.levelSearch.value), spell))
    && (o.classSearch.Some? ==> Constrains(ClassSearch(o.classSearch.value), spell))
    && (o.schoolSearch.Some? ==> Constrains(SchoolSearch(o.schoolSearch.value), spell))
    && (o.castingTimeSearch.Some? ==> Constrains(CastingTimeSearch(o.castingTimeSearch.value), spell))
    && (o.ritualSearch.Some? ==> Constrains(RitualSearch(o.ritualSearch.value), spell))
    && (o.concentrationSearch.Some? ==> Constrains(ConcentrationSearch(o.concentrationSearch.value), spell))
    && (o.textSearch.Some? ==> Constrains(TextSearch(o.textSearch.value), spell))
    && (o.sourceSearch.Some? ==> Constrains(SourceSearch(o.sourceSearch.value), spell))
  }

  /** Filtering out the empty searchers and requiring the rest to match is the same as
      asking every enabled searcher to be empty or to match. */
  lemma PassesAllConstrain(ss: seq<Searcher>, spell: Spell)
    ensures PassesAll(ss, spell) <==> AllConstrain(ss, spell)
  {
    FilterAll(ss, NonEmpty, (s: Searcher) => Matches(s, spell));
  }

  /** A property holds of every element of a concatenation of optional parts exactly when
      it holds of each part's element. */
  lemma AllOfParts<T>(parts: seq<seq<T>>, q: T -> bool)
    requires forall k :: 0 <= k < |parts| ==> |parts[k]| <= 1
    ensures (forall i :: 0 <= i < |Flatten(parts)| ==> q(Flatten(parts)[i])) <==>
      (forall k :: 0 <= k < |parts| && |parts[k]| == 1 ==> q(parts[k][0]))
    decreases |parts|
  {
    if |parts| > 0 {
      var rest := Flatten(parts[1..]);
      AllOfParts(parts[1..], q);
      assert Flatten(parts) == parts[0] + rest;
      assert forall k :: 1 <= k < |parts| ==> parts[1..][k - 1] == parts[k];
      assert forall i :: 0 <= i < |rest| ==> Flatten(parts)[|parts[0]| + i] == rest[i];
      if |parts[0]| == 1 {
        assert Flatten(parts)[0] == parts[0][0];
      }
    }
  }

  /** The searcher lists each option contributes, in `search`'s order. */
  function SearcherParts(o: SearchOptions): (r: seq<seq<Searcher>>)
    ensures |r| == 8 && forall k :: 0 <= k < 8 ==> |r[k]| <= 1
  {
    [ (if o.levelSearch.Some? then [LevelSearch(o.levelSearch.value)] else []),
      (if o.classSearch.Some? then [ClassSearch(o.classSearch.value)] else []),
      (if o.schoolSearch.Some? then [SchoolSearch(o.schoolSearch.value)] else []),
      (if o.castingTimeSearch.Some? then [CastingTimeSearch(o.castingTimeSearch.value)] else []),
      (if o.ritualSearch.Some? then [RitualSearch(o.ritualSearch.value)] else []),
      (if o.concentrationSearch.Some? then [ConcentrationSearch(o.concentrationSearch.value)] else []),
      (if o.textSearch.Some? then [TextSearch(o.textSearch.value)] else []),
      (if o.sourceSearch.Some? then [SourceSearch(o.sourceSearch.value)] else []) ]
  }

  /** The eight-part case of `AllOfParts`, spelled out part by part. */
  lemma AllOfEightParts<T>(parts: seq<seq<T>>, q: T -> bool)
    requires |parts| == 8 && forall k :: 0 <= k < 8 ==> |parts[k]| <= 1
    ensures (forall i :: 0 <= i < |Flatten(parts)| ==> q(Flatten(parts)[i])) <==>
      (|parts[0]| == 1 ==> q(parts[0][0])) && (|parts[1]| == 1 ==> q(parts[1][0]))
      && (|parts[2]| == 1 ==> q(parts[2][0])) && (|parts[3]| == 1 ==> q(parts[3][0]))
      && (|parts[4]| == 1 ==> q(parts[4][0])) && (|parts[5]| == 1 ==> q(parts[5][0]))
      && (|parts[6]| == 1 ==> q(parts[6][0])) && (|parts[7]| == 1 ==> q(parts[7][0]))
  {
    AllOfParts(parts, q);
  }

  /** Field by field, every enabled searcher is empty or matches. */
  lemma AllConstrainByField(o: SearchOptions, spell: Spell)
    ensures AllConstrain(Searchers(o), spell) <==> AdmitsByField(o, spell)
  {
    var parts := SearcherParts(o);
    var q := (s: Searcher) => Constrains(s, spell);
    AllOfEightParts(parts, q);
    assert AllConstrain(Searchers(o), spell) <==>
      forall i :: 0 <= i < |Flatten(parts)| ==> q(Flatten(parts)[i]);
  }

  /** With every option off there is no searcher. */
  lemma SearchersOfNone(o: SearchOptions)
    requires o.levelSearch.None? && o.classSearch.None? && o.schoolSearch.None?
    requires o.castingTimeSearch.None? && o.ritualSearch.None? && o.concentrationSearch.None?
    requires o.textSearch.None? && o.sourceSearch.None?
    ensures Searchers(o) == []
  {
    FlattenEmpty(SearcherParts(o));
  }

  /** `search`'s filter, field by field: each enabled searcher either has an empty selection
      or matches. */
  lemma AdmitsIff(o: SearchOptions, spell: Spell)
    ensures Admits(o, spell) <==> AdmitsByField(o, spell)
  {
    PassesAllConstrain(Searchers(o), spell);
    AllConstrainByField(o, spell);
  }

  /** An enabled ritual or concentration check-box always constrains: it is never empty. */
  lemma CheckBoxesConstrain(o: SearchOptions, spell: Spell)
    requires Admits(o, spell)
    ensures o.ritualSearch.Some? ==> Ritual(spell) == o.ritualSearch.value
    ensures o.concentrationSearch.Some? ==> Concentration(spell) == o.concentrationSearch.value
  {
    AdmitsIff(o, spell);
  }

  /** With every searcher off, the filter admits every spell. */
  lemma NoSearchersAdmitAll(o: SearchOptions, spell: Spell)
    requires Searchers(o) == []
    ensures Admits(o, spell)
  {
  }

  // ---- the selection vectors ----

  /** The orders the selection vectors are sorted by (derived `Ord` of each element type). */
  function U8Key(n: u8): seq<int> { [n] }
  function ClassKey(c: Class): seq<int> { [ClassOrdinal(c)] }
  function SchoolKey(s: School): seq<int> { [SchoolOrdinal(s)] }
  function SourceKey(s: Source): seq<int> { [SourceOrdinal(s)] }

  predicate NoDuplicates<T(==)>(s: seq<T>) {
    forall i, j :: 0 <= i < j < |s| ==> s[i] != s[j]
  }

  /** The `toggle` inside `SearchPage::update`: remove the first equal entry, or push the entry
      and re-sort. */
  function Toggle<T(==)>(vec: seq<T>, entry: T, key: T -> seq<int>): (r: seq<T>)
    ensures entry in vec ==> |r| == |vec| - 1 && multiset(r) == multiset(vec) - multiset{entry}
    ensures entry !in vec ==> multiset(r) == multiset(vec) + multiset{entry} && SortedBy(r, key)
  {
    match FindIndex(vec, (t: T) => t == entry)
    case Some(idx) =>
      var r := TryRemove(vec, idx).1;
      assert vec == vec[..idx] + [vec[idx]] + vec[idx + 1..];
      assert r == vec[..idx] + vec[idx + 1..];
      r
    case None => SortBy(vec + [entry], key)
  }

  /** Removing from a sorted vector keeps it sorted, so `toggle` keeps every selection
      sorted. */
  lemma ToggleSorted<T>(vec: seq<T>, entry: T, key: T -> seq<int>)
    requires SortedBy(vec, key)
    ensures SortedBy(Toggle(vec, entry, key), key)
  {
    var r := Toggle(vec, entry, key);
    if entry in vec {
      var idx := FindIndex(vec, (t: T) => t == entry).value;
      assert r == vec[..idx] + vec[idx + 1..];
      forall i, j | 0 <= i < j < |r| ensures LexLe(key(r[i]), key(r[j])) {
        var i' := if i < idx then i else i + 1;
        var j' := if j < idx then j else j + 1;
        assert r[i] == vec[i'] && r[j] == vec[j'];
      }
    }
  }

  /** `toggle` flips the membership of the entry, leaves every other value's membership
      alone, and never creates a duplicate. */
  lemma ToggleMembership<T>(vec: seq<T>, entry: T, key: T -> seq<int>, x: T)
    requires NoDuplicates(vec)
    ensures entry in Toggle(vec, entry, key) <==> entry !in vec
    ensures x != entry ==> (x in Toggle(vec, entry, key) <==> x in vec)
    ensures NoDuplicates(Toggle(vec, entry, key))
  {
    var r := Toggle(vec, entry, key);
    assert forall y :: y in r <==> y in multiset(r);
    assert forall y :: y in vec <==> y in multiset(vec);
    MultiplicityAtMostOne(vec, entry);
    forall y | true ensures multiset(r)[y] <= 1 {
      MultiplicityAtMostOne(vec, y);
    }
    NoDuplicatesOfMultiplicity(r);
  }

  /** In a vector without duplicates each value occurs at most once. */
  lemma MultiplicityAtMostOne<T>(s: seq<T>, x: T)
    requires NoDuplicates(s)
    ensures multiset(s)[x] <= 1
    ensures x in s ==> multiset(s)[x] == 1
  {
    if x in s {
      var k :| 0 <= k < |s| && s[k] == x;
      OccursOnce(s, k);
    } else {
      assert x !in multiset(s);
    }
  }

  /** The element at `k` of a vector without duplicates occurs there only. */
  lemma OccursOnce<T>(s: seq<T>, k: nat)
    requires NoDuplicates(s) && k < |s|
    ensures multiset(s)[s[k]] == 1
  {
    var x := s[k];
    var pre, post := s[..k], s[k + 1..];
    assert s == pre + [x] + post;
    forall i | 0 <= i < |pre| ensures pre[i] != x {
      assert pre[i] == s[i];
    }
    forall i | 0 <= i < |post| ensures post[i] != x {
      assert post[i] == s[k + 1 + i];
    }
    assert x !in pre && x !in post;
    assert multiset(pre)[x] == 0 && multiset(post)[x] == 0;
    assert multiset(s) == multiset(pre) + multiset{x} + multiset(post);
  }

  /** A vector in which every value occurs at most once has no duplicates. */
  lemma NoDuplicatesOfMultiplicity<T>(s: seq<T>)
    requires forall y :: multiset(s)[y] <= 1
    ensures NoDuplicates(s)
  {
    forall i, j | 0 <= i < j < |s| ensures s[i] != s[j] {
      var pre, post := s[..j], s[j + 1..];
      assert s == pre + [s[j]] + post;
      assert s[i] == pre[i];
      assert multiset(s) == multiset(pre) + multiset{s[j]} + multiset(post);
      assert multiset(s)[s[j]] == multiset(pre)[s[j]] + 1 + multiset(post)[s[j]];
      assert multiset(s)[s[j]] <= 1;
      assert s[i] in multiset(pre);
    }
  }

  // ---- the search ----

  /** Every bundled spell followed by every custom spell. */
  function AllSpells(statics: seq<StaticSpell>, custom: seq<CustomSpell>): (r: seq<Spell>)
    ensures |r| == |statics| + |custom|
    ensures forall i :: 0 <= i < |statics| ==> r[i] == StaticEntry(statics[i])
    ensures forall j :: 0 <= j < |custom| ==> r[|statics| + j] == CustomEntry(custom[j])
  {
    seq(|statics|, i requires 0 <= i < |statics| => StaticEntry(statics[i]))
    + seq(|custom|, j requires 0 <= j < |custom| => CustomEntry(custom[j]))
  }

  /** The derived order on `Spell::name`, a `StArc`: bundled names first, then by code
      point. */
  function NameKey(s: Spell): (k: seq<int>)
    ensures |k| == 1 + |Name(s).Deref()|
    ensures k[0] == 0 <==> s.StaticEntry?
  {
    [if Name(s).Static? then 0 else 1] + Codes(Name(s).Deref())
  }

  /** The most results a search shows. */
  const MAX_RESULTS: nat := 100

  /** Passes the searchers and has the needle in its lowercased name. */
  predicate Wanted(o: SearchOptions, spell: Spell) {
    Admits(o, spell) && Contains(NameLower(spell), o.search)
  }

  /** The two filters of `search`: exactly the wanted spells, in their original order. */
  function Candidates(o: SearchOptions, statics: seq<StaticSpell>, custom: seq<CustomSpell>): (r: seq<Spell>)
    ensures forall i :: 0 <= i < |r| ==> Wanted(o, r[i])
    ensures forall x :: x in r ==> x in AllSpells(statics, custom) && Wanted(o, x)
    ensures forall x :: x in AllSpells(statics, custom) && Wanted(o, x) ==> x in r
    ensures multiset(r) <= multiset(AllSpells(statics, custom))
  {
    var all := AllSpells(statics, custom);
    FilterTwice(all, Admitted(o), Named(o.search), (x: Spell) => Wanted(o, x));
    Filter(Filter(all, Admitted(o)), Named(o.search))
  }

  /** The first filter of `search`, as a test. */
  function Admitted(o: SearchOptions): Spell -> bool {
    (s: Spell) => Admits(o, s)
  }

  /** The second filter of `search`, as a test. */
  function Named(needle: string): Spell -> bool {
    (s: Spell) => Contains(NameLower(s), needle)
  }

  /** Options with the same needle that admit the same spells give the same results. */
  lemma SearchSpellsSameAdmission(o: SearchOptions, o': SearchOptions, statics: seq<StaticSpell>, custom: seq<CustomSpell>)
    requires o'.search == o.search
    requires forall s :: s in AllSpells(statics, custom) ==> (Admits(o', s) <==> Admits(o, s))
    ensures SearchSpells(o', statics, custom) == SearchSpells(o, statics, custom)
  {
    var all := AllSpells(statics, custom);
    FilterSameTest(all, Admitted(o), Admitted(o'));
  }

  /** `SearchOptions::search`, before the results are wrapped for display. */
  function SearchSpells(o: SearchOptions, statics: seq<StaticSpell>, custom: seq<CustomSpell>): (r: seq<Spell>)
    ensures |r| <= MAX_RESULTS
  {
    Take(SortBy(Candidates(o, statics, custom), NameKey), MAX_RESULTS)
  }

  /** The results are at most a hundred wanted spells, sorted by name, each drawn from the
      spells on offer. */
  lemma SearchSpellsSound(o: SearchOptions, statics: seq<StaticSpell>, custom: seq<CustomSpell>)
    ensures var r := SearchSpells(o, statics, custom);
      |r| <= MAX_RESULTS && SortedBy(r, NameKey)
      && (forall i :: 0 <= i < |r| ==> Wanted(o, r[i]))
      && multiset(r) <= multiset(AllSpells(statics, custom))
  {
    var candidates := Candidates(o, statics, custom);
    var sorted := SortBy(candidates, NameKey);
    TakeSorted(sorted, MAX_RESULTS, NameKey);
    var wanted := (s: Spell) => Wanted(o, s);
    PermutationKeepsTest(candidates, sorted, wanted);
    TakeKeepsTest(sorted, MAX_RESULTS, wanted);
  }

  /** Nothing wanted is dropped unless the results are full, and then every result sorts no
      later than it. */
  lemma SearchSpellsComplete(o: SearchOptions, statics: seq<StaticSpell>, custom: seq<CustomSpell>, x: Spell)
    requires x in AllSpells(statics, custom) && Wanted(o, x)
    requires x !in SearchSpells(o, statics, custom)
    ensures |SearchSpells(o, statics, custom)| == MAX_RESULTS
    ensures forall i :: 0 <= i < |SearchSpells(o, statics, custom)| ==>
      LexLe(NameKey(SearchSpells(o, statics, custom)[i]), NameKey(x))
  {
    var candidates := Candidates(o, statics, custom);
    var sorted := SortBy(candidates, NameKey);
    assert SearchSpells(o, statics, custom) == Take(sorted, MAX_RESULTS);
    assert x in candidates;
    assert x in multiset(sorted);
    var j :| 0 <= j < |sorted| && sorted[j] == x;
    TakeBounded(sorted, MAX_RESULTS, NameKey, j);
  }

  // ---- the options part of `SearchPage::update` ----

  /** `search::Message`. */
  datatype SearchMessage =
    | Refresh
    | CollapseAll
    | Collapse(id: SpellId)
    | SearchFor(needle: string)
    | PickMode(mode: Mode)
    | ResetModes
    | PickLevel(level: u8)
    | PickCastingTime(castingTime: CastingTime)
    | PickClass(cls: Class)
    | PickSchool(school: School)
    | PickSource(source: Source)
    | ToggleRitual(ritual: bool)
    | ToggleConcentration(concentration: bool)
    | SearchText(text: string)

  /** `SearchPage::update`'s effect on the options, and whether it asks for a new search, as
      written: picking a mode re-searches only for the ritual check-box. `Refresh`,
      `CollapseAll` and `Collapse` leave the options alone. */
  function ApplyOptionsAsWritten(o: SearchOptions, msg: SearchMessage): (r: (SearchOptions, bool))
    ensures msg.SearchFor? ==> r == (o.(search := ToLower(msg.needle)), true)
    ensures msg.ResetModes? ==> r.1 && r.0.search == o.search && Searchers(r.0) == []
    ensures msg.PickMode? ==> r.0.search == o.search && (r.1 <==> msg.mode == ByRitual)
    ensures msg.PickLevel? ==> r.1 == o.levelSearch.Some?
    ensures msg.PickClass? ==> r.1 == o.classSearch.Some?
    ensures msg.PickSchool? ==> r.1 == o.schoolSearch.Some?
    ensures msg.PickCastingTime? ==> r.1 == o.castingTimeSearch.Some?
    ensures msg.PickSource? ==> r.1 == o.sourceSearch.Some?
    ensures msg.ToggleRitual? ==> r.1 == o.ritualSearch.Some?
    ensures msg.ToggleConcentration? ==> r.1 == o.concentrationSearch.Some?
    ensures msg.SearchText? ==> r.1 == o.textSearch.Some?
    ensures !r.1 && !msg.PickMode? ==> r.0 == o
    ensures msg.Refresh? || msg.CollapseAll? || msg.Collapse? ==> r == (o, false)
  {
    match msg
    case SearchFor(needle) => (o.(search := ToLower(needle)), true)
    case Refresh => (o, false)
    case CollapseAll => (o, false)
    case Collapse(_) => (o, false)
    case PickMode(mode) => (ToggleSearcher(o, mode), mode == ByRitual)
    case ResetModes =>
      var o' := SearchOptions(o.search, None, None, None, None, None, None, None, None);
      SearchersOfNone(o');
      (o', true)
    case _ => PickValue(o, msg)
  }

  /** The `PickMode` arm: the mode's searcher switched off, or on with its default. */
  function ToggleSearcher(o: SearchOptions, mode: Mode): (r: SearchOptions)
    ensures r.search == o.search
  {
    match mode
    case ByLevel => o.(levelSearch := ToggleMode(o.levelSearch, []))
    case ByClass => o.(classSearch := ToggleMode(o.classSearch, []))
    case BySchool => o.(schoolSearch := ToggleMode(o.schoolSearch, []))
    case ByCastingTime => o.(castingTimeSearch := ToggleMode(o.castingTimeSearch, []))
    case ByRitual => o.(ritualSearch := ToggleMode(o.ritualSearch, false))
    case ByConcentration => o.(concentrationSearch := ToggleMode(o.concentrationSearch, false))
    case ByText => o.(textSearch := ToggleMode(o.textSearch, ""))
    case BySource => o.(sourceSearch := ToggleMode(o.sourceSearch, []))
  }

  /** The arms that pick a value for one searcher: each acts, and asks for a search, only
      when that searcher is switched on. */
  function PickValue(o: SearchOptions, msg: SearchMessage): (r: (SearchOptions, bool))
    requires !msg.SearchFor? && !msg.Refresh? && !msg.CollapseAll? && !msg.Collapse?
    requires !msg.PickMode? && !msg.ResetModes?
    ensures msg.PickLevel? ==> r.1 == o.levelSearch.Some?
    ensures msg.PickClass? ==> r.1 == o.classSearch.Some?
    ensures msg.PickSchool? ==> r.1 == o.schoolSearch.Some?
    ensures msg.PickCastingTime? ==> r.1 == o.castingTimeSearch.Some?
    ensures msg.PickSource? ==> r.1 == o.sourceSearch.Some?
    ensures msg.ToggleRitual? ==> r.1 == o.ritualSearch.Some?
    ensures msg.ToggleConcentration? ==> r.1 == o.concentrationSearch.Some?
    ensures msg.SearchText? ==> r.1 == o.textSearch.Some?
    ensures !r.1 ==> r.0 == o
  {
    match msg
    case PickLevel(level) =>
      (if o.levelSearch.Some? then o.(levelSearch := Some(Toggle(o.levelSearch.value, level, U8Key))) else o,
       o.levelSearch.Some?)
    case PickClass(cls) =>
      (if o.classSearch.Some? then o.(classSearch := Some(Toggle(o.classSearch.value, cls, ClassKey))) else o,
       o.classSearch.Some?)
    case PickSchool(school) =>
      (if o.schoolSearch.Some? then o.(schoolSearch := Some(Toggle(o.schoolSearch.value, school, SchoolKey))) else o,
       o.schoolSearch.Some?)
    case PickCastingTime(ct) =>
      (if o.castingTimeSearch.Some?
       then o.(castingTimeSearch := Some(Toggle(o.castingTimeSearch.value, ct, CastingTimeKey)))
       else o,
       o.castingTimeSearch.Some?)
    case PickSource(source) =>
      (if o.sourceSearch.Some? then o.(sourceSearch := Some(Toggle(o.sourceSearch.value, source, SourceKey))) else o,
       o.sourceSearch.Some?)
    case ToggleRitual(ritual) =>
      (if o.ritualSearch.Some? then o.(ritualSearch := Some(ritual)) else o, o.ritualSearch.Some?)
    case ToggleConcentration(conc) =>
      (if o.concentrationSearch.Some? then o.(concentrationSearch := Some(conc)) else o,
       o.concentrationSearch.Some?)
    case SearchText(text) =>
      (if o.textSearch.Some? then o.(textSearch := Some(ToLower(text))) else o, o.textSearch.Some?)
  }

  /** Picking a mode switches that one searcher on or off and touches no other; switching
      the ritual check-box on already constrains (to non-ritual spells), hence the search. */
  lemma PickModeToggles(o: SearchOptions, mode: Mode)
    ensures var o' := ApplyOptionsAsWritten(o, PickMode(mode)).0;
      (mode == ByLevel ==> o' == o.(levelSearch := ToggleMode(o.levelSearch, [])))
      && (mode == ByClass ==> o' == o.(classSearch := ToggleMode(o.classSearch, [])))
      && (mode == BySchool ==> o' == o.(schoolSearch := ToggleMode(o.schoolSearch, [])))
      && (mode == ByCastingTime ==> o' == o.(castingTimeSearch := ToggleMode(o.castingTimeSearch, [])))
      && (mode == ByRitual ==> o' == o.(ritualSearch := ToggleMode(o.ritualSearch, false)))
      && (mode == ByConcentration ==>
            o' == o.(concentrationSearch := ToggleMode(o.concentrationSearch, false)))
      && (mode == ByText ==> o' == o.(textSearch := ToggleMode(o.textSearch, "")))
      && (mode == BySource ==> o' == o.(sourceSearch := ToggleMode(o.sourceSearch, [])))
  {
  }

  /** After `ResetModes` the filter admits every spell. */
  lemma ResetModesAdmitsAll(o: SearchOptions, spell: Spell)
    ensures Admits(ApplyOptionsAsWritten(o, ResetModes).0, spell)
  {
    NoSearchersAdmitAll(ApplyOptionsAsWritten(o, ResetModes).0, spell);
  }

  /** A picked level lands in the selection exactly when it was not there, and the selection
      stays sorted and free of duplicates. */
  lemma PickLevelToggles(o: SearchOptions, level: u8)
    requires o.levelSearch.Some? && SortedBy(o.levelSearch.value, U8Key) && NoDuplicates(o.levelSearch.value)
    ensures var o' := ApplyOptionsAsWritten(o, PickLevel(level)).0;
      o'.levelSearch.Some? && (level in o'.levelSearch.value <==> level !in o.levelSearch.value)
      && SortedBy(o'.levelSearch.value, U8Key) && NoDuplicates(o'.levelSearch.value)
  {
    ToggleSorted(o.levelSearch.value, level, U8Key);
    ToggleMembership(o.levelSearch.value, level, U8Key, level);
  }

  /** Whether the searcher a mode controls is switched off. */
  predicate ModeOff(o: SearchOptions, mode: Mode) {
    match mode
    case ByLevel => o.levelSearch.None?
    case ByClass => o.classSearch.None?
    case BySchool => o.schoolSearch.None?
    case ByCastingTime => o.castingTimeSearch.None?
    case ByRitual => o.ritualSearch.None?
    case ByConcentration => o.concentrationSearch.None?
    case ByText => o.textSearch.None?
    case BySource => o.sourceSearch.None?
  }

  /** As written, switching the concentration check-box on skips the search although its
      default (unchecked) already rules out every concentration spell: such a spell stays
      listed while the options no longer admit it. */
  lemma PickConcentrationAsWritten(o: SearchOptions, spell: Spell)
    requires o.concentrationSearch.None? && Concentration(spell) && Admits(o, spell)
    ensures var (o', refresh) := ApplyOptionsAsWritten(o, PickMode(ByConcentration));
      !refresh && !Admits(o', spell)
  {
    var o' := ApplyOptionsAsWritten(o, PickMode(ByConcentration)).0;
    AdmitsIff(o', spell);
  }

  /** As written, switching off a level search with a selection skips the search too: a
      spell of another level stays hidden while the options admit it again. */
  lemma PickLevelOffAsWritten(o: SearchOptions, spell: Spell)
    requires o.levelSearch == Some([AsU8(L1)]) && LevelOf(spell) == Cantrip
    requires o.classSearch.None? && o.schoolSearch.None? && o.castingTimeSearch.None?
    requires o.ritualSearch.None? && o.concentrationSearch.None? && o.textSearch.None?
    requires o.sourceSearch.None?
    ensures var (o', refresh) := ApplyOptionsAsWritten(o, PickMode(ByLevel));
      !refresh && !Admits(o, spell) && Admits(o', spell)
  {
    var o' := ApplyOptionsAsWritten(o, PickMode(ByLevel)).0;
    AdmitsIff(o, spell);
    SearchersOfNone(o');
    NoSearchersAdmitAll(o', spell);
  }

  /** The picks after which the as-written update skips a search the admitted spells call
      for: a check-box other than ritual switched on, or any searcher but ritual switched
      off. */
  predicate SkipsNeededSearch(o: SearchOptions, msg: SearchMessage) {
    msg.PickMode? && msg.mode != ByRitual && (msg.mode == ByConcentration || !ModeOff(o, msg.mode))
  }

  /** The options update re-searching whenever picking a mode can change what is admitted:
      for both check-boxes, whose defaults constrain, and when a searcher is switched off. */
  function ApplyOptions(o: SearchOptions, msg: SearchMessage): (r: (SearchOptions, bool))
    ensures r.0 == ApplyOptionsAsWritten(o, msg).0
    ensures msg.PickMode? ==>
      (r.1 <==> msg.mode == ByRitual || msg.mode == ByConcentration || !ModeOff(o, msg.mode))
    ensures !msg.PickMode? ==> r.1 == ApplyOptionsAsWritten(o, msg).1
    ensures r.1 <==> ApplyOptionsAsWritten(o, msg).1 || SkipsNeededSearch(o, msg)
  {
    var (o', refresh) := ApplyOptionsAsWritten(o, msg);
    (o', refresh || SkipsNeededSearch(o, msg))
  }

  /** An update that asks for no new search changes neither the needle nor which spells the
      options admit, so the list on screen stays what a search would give. */
  lemma ApplyOptionsKeepsAdmission(o: SearchOptions, msg: SearchMessage, spell: Spell)
    requires !ApplyOptions(o, msg).1
    ensures ApplyOptions(o, msg).0.search == o.search
    ensures Admits(ApplyOptions(o, msg).0, spell) <==> Admits(o, spell)
  {
    if msg.PickMode? {
      var o' := ApplyOptions(o, msg).0;
      PickModeOnByField(o, msg.mode, spell);
      AdmitsIff(o, spell);
      AdmitsIff(o', spell);
    }
  }

  /** The update as written keeps the needle and the admitted spells whenever it asks for no
      search, except after the picks `SkipsNeededSearch` names. */
  lemma AsWrittenKeepsAdmission(o: SearchOptions, msg: SearchMessage, spell: Spell)
    requires !ApplyOptionsAsWritten(o, msg).1 && !SkipsNeededSearch(o, msg)
    ensures ApplyOptionsAsWritten(o, msg).0.search == o.search
    ensures Admits(ApplyOptionsAsWritten(o, msg).0, spell) <==> Admits(o, spell)
  {
    ApplyOptionsKeepsAdmission(o, msg, spell);
  }

  /** `ApplyOptionsKeepsAdmission` for a mode, field by field. */
  lemma PickModeOnByField(o: SearchOptions, mode: Mode, spell: Spell)
    requires ModeOff(o, mode) && mode != ByRitual && mode != ByConcentration
    ensures AdmitsByField(ApplyOptionsAsWritten(o, PickMode(mode)).0, spell) <==> AdmitsByField(o, spell)
  {
  }
}

=== FILE: search_page.dfy ===
/** The search tab of `src/search.rs`: the listed results, each with an add-button per open
    character, and `SearchPage::update`. */
module SearchPages {
  import opened Wrappers
  import opened Utils
  import opened Sorting
  import opened Spells
  import opened Search
  import opened Characters

  /** `search::Spell`: a result with its own collapse override and, per open character, the
      character's name and whether the add-button is active. */
  datatype Listed = Listed(spell: Spell, collapse: Option<bool>, buttons: seq<(string, bool)>)

  /** Whether a character already knows a spell equal to this one, on any level. */
  predicate KnowsSpell(c: Character, spell: Spell) {
    exists e :: e in Flatten(c.spells) && SpellEq(e.0, spell)
  }

  /** `search::Spell::from`: one button per character, active exactly when that character
      does not know the spell yet. */
  function ToListed(spell: Spell, characters: seq<CharacterPage>): (r: Listed)
    ensures r.spell == spell && r.collapse.None? && |r.buttons| == |characters|
    ensures forall i :: 0 <= i < |characters| ==>
      r.buttons[i].0 == characters[i].character.name
      && (r.buttons[i].1 <==> !KnowsSpell(characters[i].character, spell))
  {
    var buttons := seq(|characters|, i requires 0 <= i < |characters| =>
      (characters[i].character.name, !KnowsAny(characters[i].character, spell)));
    Listed(spell, None, buttons)
  }

  /** The `flatten().any(..)` of `Spell::from`. */
  function KnowsAny(c: Character, spell: Spell): (r: bool)
    ensures r <==> KnowsSpell(c, spell)
  {
    var flat := Flatten(c.spells);
    var p := (e: Entry) => SpellEq(e.0, spell);
    AnyIffExists(flat, p);
    assert forall e :: e in flat ==> exists i :: 0 <= i < |flat| && flat[i] == e;
    Any(flat, p)
  }

  /** `search` followed by `Spell::from` on each result. */
  function Listing(o: SearchOptions, statics: seq<StaticSpell>, custom: seq<CustomSpell>,
                   characters: seq<CharacterPage>): (r: seq<Listed>)
    ensures |r| == |SearchSpells(o, statics, custom)| && |r| <= MAX_RESULTS
    ensures forall i :: 0 <= i < |r| ==>
      r[i] == ToListed(SearchSpells(o, statics, custom)[i], characters)
  {
    ListAll(SearchSpells(o, statics, custom), characters)
  }

  /** `Spell::from` on each spell found, in order. */
  function ListAll(found: seq<Spell>, characters: seq<CharacterPage>): (r: seq<Listed>)
    ensures |r| == |found|
    ensures forall i :: 0 <= i < |r| ==> r[i].spell == found[i]
  {
    seq(|found|, i requires 0 <= i < |found| => ToListed(found[i], characters))
  }

  /** `SearchPage`: the collapse-all toggle, the options and the listed results. */
  datatype SearchPage = SearchPage(collapse: bool, options: SearchOptions, spells: seq<Listed>)

  /** The listed spells are what a search with the current options finds. */
  predicate Fresh(page: SearchPage, statics: seq<StaticSpell>, custom: seq<CustomSpell>) {
    var found := SearchSpells(page.options, statics, custom);
    |page.spells| == |found| && forall i :: 0 <= i < |found| ==> page.spells[i].spell == found[i]
  }

  /** The listed spells after `CollapseAll`: every override dropped. */
  function ClearOverrides(spells: seq<Listed>): (r: seq<Listed>)
    ensures |r| == |spells|
    ensures forall i :: 0 <= i < |r| ==> r[i] == spells[i].(collapse := None)
  {
    seq(|spells|, i requires 0 <= i < |spells| => spells[i].(collapse := None))
  }

  /** The `Collapse` arm: the first result with that id flips its override, or gets the
      opposite of the page-wide setting when it has none. */
  function CollapseOne(spells: seq<Listed>, id: SpellId, collapse: bool): (r: seq<Listed>)
    ensures |r| == |spells|
    ensures forall i :: 0 <= i < |r| ==> r[i].spell == spells[i].spell && r[i].buttons == spells[i].buttons
    ensures var at := FindIndex(spells, (l: Listed) => Id(l.spell) == id);
      forall i :: 0 <= i < |r| && at != Some(i) ==> r[i] == spells[i]
    ensures var at := FindIndex(spells, (l: Listed) => Id(l.spell) == id);
      at.Some? ==> r[at.value].collapse == Some(
        if spells[at.value].collapse.Some? then !spells[at.value].collapse.value else !collapse)
  {
    match FindIndex(spells, (l: Listed) => Id(l.spell) == id)
    case None => spells
    case Some(i) =>
      var c := match spells[i].collapse
        case Some(b) => !b
        case None => !collapse;
      spells[i := spells[i].(collapse := Some(c))]
  }

  /** `SearchPage::update` as written: the options update of `ApplyOptionsAsWritten`, and a
      new listing for `Refresh` or when that update asks for one. */
  function UpdatePage(page: SearchPage, msg: SearchMessage, statics: seq<StaticSpell>,
                      custom: seq<CustomSpell>, characters: seq<CharacterPage>): (r: SearchPage)
    ensures r.options == ApplyOptionsAsWritten(page.options, msg).0
    ensures msg.CollapseAll? ==> r.collapse == !page.collapse
    ensures !msg.CollapseAll? ==> r.collapse == page.collapse
    ensures msg.Refresh? || ApplyOptionsAsWritten(page.options, msg).1 ==>
      r.spells == Listing(r.options, statics, custom, characters)
    ensures msg.CollapseAll? ==> r.spells == ClearOverrides(page.spells)
    ensures msg.Collapse? ==> r.spells == CollapseOne(page.spells, msg.id, page.collapse)
    ensures !msg.Refresh? && !msg.CollapseAll? && !msg.Collapse? && !ApplyOptionsAsWritten(page.options, msg).1 ==>
      r.spells == page.spells
  {
    UpdateWith(page, msg, ApplyOptionsAsWritten(page.options, msg), statics, custom, characters)
  }

  /** `SearchPage::update` with the corrected options update, which also searches again after
      the picks `SkipsNeededSearch` names; on every other message it is the page as written. */
  function UpdatePageCorrected(page: SearchPage, msg: SearchMessage, statics: seq<StaticSpell>,
                               custom: seq<CustomSpell>, characters: seq<CharacterPage>): (r: SearchPage)
    ensures r.options == ApplyOptions(page.options, msg).0
    ensures ApplyOptions(page.options, msg).1 ==> r.spells == Listing(r.options, statics, custom, characters)
    ensures !SkipsNeededSearch(page.options, msg) ==> r == UpdatePage(page, msg, statics, custom, characters)
  {
    UpdateWith(page, msg, ApplyOptions(page.options, msg), statics, custom, characters)
  }

  /** The arms of `SearchPage::update`, given the options update's result `applied`. */
  function UpdateWith(page: SearchPage, msg: SearchMessage, applied: (SearchOptions, bool),
                      statics: seq<StaticSpell>, custom: seq<CustomSpell>,
                      characters: seq<CharacterPage>): (r: SearchPage)
    requires msg.Refresh? || msg.CollapseAll? || msg.Collapse? ==> applied == (page.options, false)
    ensures r.options == applied.0
    ensures msg.CollapseAll? ==> r.collapse == !page.collapse
    ensures !msg.CollapseAll? ==> r.collapse == page.collapse
    ensures msg.Refresh? || applied.1 ==> r.spells == Listing(r.options, statics, custom, characters)
    ensures msg.CollapseAll? ==> r.spells == ClearOverrides(page.spells)
    ensures msg.Collapse? ==> r.spells == CollapseOne(page.spells, msg.id, page.collapse)
    ensures !msg.Refresh? && !msg.CollapseAll? && !msg.Collapse? && !applied.1 ==> r.spells == page.spells
  {
    match msg
    case Refresh => page.(spells := Listing(page.options, statics, custom, characters))
    case CollapseAll => page.(collapse := !page.collapse, spells := ClearOverrides(page.spells))
    case Collapse(id) => page.(spells := CollapseOne(page.spells, id, page.collapse))
    case _ => OptionsStep(page, applied, statics, custom, characters)
  }

  /** The arms of `SearchPage::update` that change the options: the options as updated, and
      a new listing exactly when the update asks for a search. */
  function OptionsStep(page: SearchPage, applied: (SearchOptions, bool), statics: seq<StaticSpell>,
                       custom: seq<CustomSpell>, characters: seq<CharacterPage>): (r: SearchPage)
    ensures r.options == applied.0 && r.collapse == page.collapse
    ensures applied.1 ==> r.spells == Listing(r.options, statics, custom, characters)
    ensures !applied.1 ==> r.spells == page.spells
  {
    var (o, refresh) := applied;
    var p := page.(options := o);
    if refresh then p.(spells := Listing(o, statics, custom, characters)) else p
  }

  /** As written, every message except the picks `SkipsNeededSearch` names keeps the listed
      spells what a search with the current options finds. */
  lemma {:induction false} UpdatePageKeepsFresh(page: SearchPage, msg: SearchMessage, statics: seq<StaticSpell>,
                             custom: seq<CustomSpell>, characters: seq<CharacterPage>)
    requires Fresh(page, statics, custom) && !SkipsNeededSearch(page.options, msg)
    ensures Fresh(UpdatePage(page, msg, statics, custom, characters), statics, custom)
  {
    var applied := ApplyOptionsAsWritten(page.options, msg);
    if !applied.1 {
      forall s | s in AllSpells(statics, custom)
        ensures Admits(applied.0, s) <==> Admits(page.options, s)
      {
        AsWrittenKeepsAdmission(page.options, msg, s);
      }
    }
    UpdateWithKeepsFresh(page, msg, applied, statics, custom, characters);
  }

  /** With the corrected options update, every message keeps the listed spells what a search
      with the current options finds. */
  lemma {:induction false} UpdatePageCorrectedKeepsFresh(page: SearchPage, msg: SearchMessage,
                                      statics: seq<StaticSpell>, custom: seq<CustomSpell>,
                                      characters: seq<CharacterPage>)
    requires Fresh(page, statics, custom)
    ensures Fresh(UpdatePageCorrected(page, msg, statics, custom, characters), statics, custom)
  {
    var applied := ApplyOptions(page.options, msg);
    if !applied.1 {
      forall s | s in AllSpells(statics, custom)
        ensures Admits(applied.0, s) <==> Admits(page.options, s)
      {
        ApplyOptionsKeepsAdmission(page.options, msg, s);
      }
    }
    UpdateWithKeepsFresh(page, msg, applied, statics, custom, characters);
  }

  /** As written, switching the concentration check-box on leaves a listed concentration
      spell on screen although no search with the new options finds it. */
  lemma PickConcentrationStale(page: SearchPage, i: nat, statics: seq<StaticSpell>,
                               custom: seq<CustomSpell>, characters: seq<CharacterPage>)
    requires Fresh(page, statics, custom) && page.options.concentrationSearch.None?
    requires i < |page.spells| && Concentration(page.spells[i].spell)
    ensures !Fresh(UpdatePage(page, PickMode(ByConcentration), statics, custom, characters), statics, custom)
  {
    var o := page.options;
    var r := UpdatePage(page, PickMode(ByConcentration), statics, custom, characters);
    var spell := page.spells[i].spell;
    SearchSpellsSound(o, statics, custom);
    assert Admits(o, spell);
    PickConcentrationAsWritten(o, spell);
    assert r.spells[i].spell == spell && !Admits(r.options, spell);
    SearchSpellsSound(r.options, statics, custom);
  }

  /** The freshness argument for any options update: a message that lists again, or one whose
      update keeps the needle and the admitted spells, keeps a fresh page fresh. */
  lemma {:induction false} UpdateWithKeepsFresh(page: SearchPage, msg: SearchMessage, applied: (SearchOptions, bool),
                                                statics: seq<StaticSpell>, custom: seq<CustomSpell>,
                                                characters: seq<CharacterPage>)
    requires Fresh(page, statics, custom)
    requires msg.Refresh? || msg.CollapseAll? || msg.Collapse? ==> applied == (page.options, false)
    requires !applied.1 ==> applied.0.search == page.options.search
    requires !applied.1 ==> forall s :: s in AllSpells(statics, custom) ==> (Admits(applied.0, s) <==> Admits(page.options, s))
    ensures Fresh(UpdateWith(page, msg, applied, statics, custom, characters), statics, custom)
  {
    var r := UpdateWith(page, msg, applied, statics, custom, characters);
    if msg.Refresh? || applied.1 {
      ListingFresh(r, statics, custom, characters);
    } else if msg.CollapseAll? {
      ClearedSameSpells(page.spells, r.spells);
      SameSpellsFresh(page, r, statics, custom);
    } else if msg.Collapse? {
      assert r.spells == CollapseOne(page.spells, msg.id, page.collapse);
      SameSpellsFresh(page, r, statics, custom);
    } else {
      KeptSpellsFresh(page, applied.0, statics, custom);
      assert r == page.(options := applied.0);
    }
  }

  /** Dropping the overrides keeps the spells listed. */
  lemma ClearedSameSpells(spells: seq<Listed>, cleared: seq<Listed>)
    requires cleared == ClearOverrides(spells)
    ensures |cleared| == |spells| && forall i :: 0 <= i < |spells| ==> cleared[i].spell == spells[i].spell
  {
  }

  /** A page listing a fresh search is fresh. */
  lemma ListingFresh(page: SearchPage, statics: seq<StaticSpell>, custom: seq<CustomSpell>,
                     characters: seq<CharacterPage>)
    requires page.spells == Listing(page.options, statics, custom, characters)
    ensures Fresh(page, statics, custom)
  {
  }

  /** Changing only the overrides of a fresh page keeps it fresh. */
  lemma SameSpellsFresh(page: SearchPage, page': SearchPage, statics: seq<StaticSpell>, custom: seq<CustomSpell>)
    requires Fresh(page, statics, custom) && page'.options == page.options
    requires |page'.spells| == |page.spells|
    requires forall i :: 0 <= i < |page.spells| ==> page'.spells[i].spell == page.spells[i].spell
    ensures Fresh(page', statics, custom)
  {
  }

  /** New options with the same needle that admit the same spells find what the old ones
      found. */
  lemma KeptSpellsFresh(page: SearchPage, o': SearchOptions, statics: seq<StaticSpell>, custom: seq<CustomSpell>)
    requires Fresh(page, statics, custom) && o'.search == page.options.search
    requires forall s :: s in AllSpells(statics, custom) ==> (Admits(o', s) <==> Admits(page.options, s))
    ensures Fresh(page.(options := o'), statics, custom)
  {
    SearchSpellsSameAdmission(page.options, o', statics, custom);
  }
}

=== FILE: settings.dfy ===
/** The settings tab of `src/settings.rs`: the custom-spell editor's search list and a fresh
    settings page. */
module Settings {
  import opened Ints
  import opened Strings
  import opened Sorting
  import opened Spells

  /** `SpellEditor`: either a list of custom spells to pick from, or one spell being edited. */
  datatype SpellEditor = Searching(spells: seq<CustomSpell>) | Editing(spell: CustomSpell)

  /** The most spells the editor lists. */
  const MAX_EDITOR_RESULTS: nat := 20

  /** The order of `sorted_unstable_by_key(name_lower)`: by code point. */
  function LowerKey(s: CustomSpell): seq<int> {
    Codes(s.nameLower)
  }

  /** The test of `searching`'s filter. */
  function NameHas(needle: string): CustomSpell -> bool {
    (s: CustomSpell) => Contains(s.nameLower, needle)
  }

  /** `SpellEditor::searching`: copies of the custom spells whose lowercased name contains
      the needle, sorted by that name, at most twenty. */
  function SearchingEditor(needle: string, spells: seq<CustomSpell>): (r: SpellEditor)
    ensures r.Searching?
    ensures |r.spells| <= MAX_EDITOR_RESULTS
    ensures SortedBy(r.spells, LowerKey)
    ensures forall i :: 0 <= i < |r.spells| ==> Contains(r.spells[i].nameLower, needle)
    ensures multiset(r.spells) <= multiset(spells)
  {
    var found := Filter(spells, NameHas(needle));
    var sorted := SortBy(found, LowerKey);
    TakeSorted(sorted, MAX_EDITOR_RESULTS, LowerKey);
    PermutationKeepsTest(found, sorted, NameHas(needle));
    Searching(Take(sorted, MAX_EDITOR_RESULTS))
  }

  /** Nothing matching is left out unless the list is full, and then everything listed sorts
      no later than it. */
  lemma SearchingEditorComplete(needle: string, spells: seq<CustomSpell>, x: CustomSpell)
    requires x in spells && Contains(x.nameLower, needle)
    requires x !in SearchingEditor(needle, spells).spells
    ensures |SearchingEditor(needle, spells).spells| == MAX_EDITOR_RESULTS
    ensures forall i :: 0 <= i < MAX_EDITOR_RESULTS ==>
      LexLe(LowerKey(SearchingEditor(needle, spells).spells[i]), LowerKey(x))
  {
    var found := Filter(spells, NameHas(needle));
    var sorted := SortBy(found, LowerKey);
    var r := Take(sorted, MAX_EDITOR_RESULTS);
    assert SearchingEditor(needle, spells).spells == r;
    assert NameHas(needle)(x);
    assert x in found;
    assert x in multiset(sorted);
    var j :| 0 <= j < |sorted| && sorted[j] == x;
    TakeBounded(sorted, MAX_EDITOR_RESULTS, LowerKey, j);
  }

  /** With the empty needle every spell matches, so the list is as long as it can be. */
  lemma SearchingEmptyNeedle(spells: seq<CustomSpell>)
    ensures |SearchingEditor("", spells).spells| == Min(MAX_EDITOR_RESULTS, |spells|)
  {
    var found := Filter(spells, NameHas(""));
    forall i | 0 <= i < |spells| ensures NameHas("")(spells[i]) {
      assert OccursAt(spells[i].nameLower, "", 0);
    }
    FilterKeepsAll(spells, NameHas(""));
    var sorted := SortBy(found, LowerKey);
    assert |sorted| == |multiset(sorted)| == |multiset(found)| == |found|;
  }

  /** `SettingsPage`: the character-name field, the spell-name field and the editor. */
  datatype SettingsPage = SettingsPage(name: string, spellName: string, spellEditor: SpellEditor)

  /** `SettingsPage::new`: empty fields and the editor listing the custom spells for the
      empty needle. */
  function NewSettingsPage(custom: seq<CustomSpell>): (r: SettingsPage)
    ensures r.name == "" && r.spellName == ""
    ensures r.spellEditor == SearchingEditor("", custom)
    ensures |r.spellEditor.spells| == Min(MAX_EDITOR_RESULTS, |custom|)
  {
    SearchingEmptyNeedle(custom);
    SettingsPage("", "", SearchingEditor("", custom))
  }
}

=== FILE: sorting.dfy ===
/** Rust's derived `Ord`, modelled as the lexicographic order on a key of integers, and the
    sort-then-truncate idiom the search pages use. */
module Sorting {
  import opened Ints

  /** Lexicographic `<=` on integer sequences, a proper prefix being smaller (as for Rust
      slices, strings and tuples). */
  predicate LexLe(a: seq<int>, b: seq<int>)
    decreases |a|
  {
    |a| == 0 || (|b| > 0 && (a[0] < b[0] || (a[0] == b[0] && LexLe(a[1..], b[1..]))))
  }

  predicate LexLt(a: seq<int>, b: seq<int>) {
    LexLe(a, b) && a != b
  }

  lemma {:induction false} LexLeRefl(a: seq<int>)
    ensures LexLe(a, a)
    decreases |a|
  {
    if |a| > 0 {
      LexLeRefl(a[1..]);
    }
  }

  lemma {:induction false} LexLeTotal(a: seq<int>, b: seq<int>)
    ensures LexLe(a, b) || LexLe(b, a)
    decreases |a|
  {
    if |a| > 0 && |b| > 0 && a[0] == b[0] {
      LexLeTotal(a[1..], b[1..]);
    }
  }

  lemma {:induction false} LexLeTrans(a: seq<int>, b: seq<int>, c: seq<int>)
    requires LexLe(a, b) && LexLe(b, c)
    ensures LexLe(a, c)
    decreases |a|
  {
    if |a| > 0 && a[0] == b[0] && b[0] == c[0] {
      LexLeTrans(a[1..], b[1..], c[1..]);
    }
  }

  lemma {:induction false} LexLeAntisym(a: seq<int>, b: seq<int>)
    requires LexLe(a, b) && LexLe(b, a)
    ensures a == b
    decreases |a|
  {
    if |a| > 0 {
      LexLeAntisym(a[1..], b[1..]);
      assert a == [a[0]] + a[1..] && b == [b[0]] + b[1..];
    }
  }

  /** A list whose keys never decrease. */
  predicate SortedBy<T>(s: seq<T>, key: T -> seq<int>) {
    forall i, j :: 0 <= i < j < |s| ==> LexLe(key(s[i]), key(s[j]))
  }

  /** Every key in `s` is at least `k`. */
  predicate AllAtLeast<T>(k: seq<int>, s: seq<T>, key: T -> seq<int>) {
    forall i :: 0 <= i < |s| ==> LexLe(k, key(s[i]))
  }

  lemma AllAtLeastOfMultiset<T>(k: seq<int>, s: seq<T>, t: seq<T>, key: T -> seq<int>)
    requires AllAtLeast(k, s, key) && multiset(t) <= multiset(s)
    ensures AllAtLeast(k, t, key)
  {
    forall i | 0 <= i < |t| ensures LexLe(k, key(t[i])) {
      assert t[i] in multiset(t);
      assert t[i] in multiset(s);
      var j :| 0 <= j < |s| && s[j] == t[i];
    }
  }

  /** Insertion into a sorted list, after the elements with an equal key. */
  function Insert<T>(x: T, s: seq<T>, key: T -> seq<int>): (r: seq<T>)
    requires SortedBy(s, key)
    ensures multiset(r) == multiset(s) + multiset{x}
    ensures SortedBy(r, key)
    decreases |s|
  {
    if |s| == 0 then [x]
    else if LexLt(key(x), key(s[0])) then
      InsertFront(x, s, key);
      [x] + s
    else
      var tail := Insert(x, s[1..], key);
      InsertBehind(x, s, tail, key);
      [s[0]] + tail
  }

  /** An element whose key is below the first key goes in front. */
  lemma InsertFront<T>(x: T, s: seq<T>, key: T -> seq<int>)
    requires SortedBy(s, key) && |s| > 0 && LexLt(key(x), key(s[0]))
    ensures SortedBy([x] + s, key)
  {
    assert AllAtLeast(key(x), s, key) by {
      forall i | 0 <= i < |s| ensures LexLe(key(x), key(s[i])) {
        if i > 0 { LexLeTrans(key(x), key(s[0]), key(s[i])); }
      }
    }
  }

  /** An element whose key is not below the first key goes into the rest. */
  lemma InsertBehind<T>(x: T, s: seq<T>, tail: seq<T>, key: T -> seq<int>)
    requires SortedBy(s, key) && |s| > 0 && !LexLt(key(x), key(s[0]))
    requires multiset(tail) == multiset(s[1..]) + multiset{x} && SortedBy(tail, key)
    ensures multiset([s[0]] + tail) == multiset(s) + multiset{x}
    ensures SortedBy([s[0]] + tail, key)
  {
    assert s == [s[0]] + s[1..];
    assert AllAtLeast(key(s[0]), tail, key) by {
      LexLeTotal(key(x), key(s[0]));
      assert AllAtLeast(key(s[0]), s[1..] + [x], key);
      assert multiset(s[1..] + [x]) == multiset(tail);
      AllAtLeastOfMultiset(key(s[0]), s[1..] + [x], tail, key);
    }
  }

  /** Sorting by key: a sorted permutation of the input. Rust's `sort` is stable and
      `sort_unstable` is not; both yield some sorted permutation, which is what is stated. */
  function SortBy<T>(s: seq<T>, key: T -> seq<int>): (r: seq<T>)
    ensures multiset(r) == multiset(s)
    ensures SortedBy(r, key)
    decreases |s|
  {
    if |s| == 0 then []
    else
      assert s == s[..|s| - 1] + [s[|s| - 1]];
      Insert(s[|s| - 1], SortBy(s[..|s| - 1], key), key)
  }

  /** `iter.take(n)`. */
  function Take<T>(s: seq<T>, n: nat): (r: seq<T>)
    ensures |r| == Min(n, |s|)
    ensures r == s[..|r|]
    ensures multiset(r) <= multiset(s)
  {
    if n <= |s| then
      assert s == s[..n] + s[n..];
      s[..n]
    else s
  }

  /** A prefix of a sorted list is sorted, and nothing left out has a smaller key than
      anything kept. */
  lemma TakeSorted<T>(s: seq<T>, n: nat, key: T -> seq<int>)
    requires SortedBy(s, key)
    ensures SortedBy(Take(s, n), key)
    ensures forall i, j :: 0 <= i < |Take(s, n)| <= j < |s| ==> LexLe(key(s[i]), key(s[j]))
  {
  }

  /** The first `n` elements are kept. */
  lemma TakeHas<T>(s: seq<T>, n: nat, j: nat)
    requires j < |s|
    ensures j < n ==> s[j] in Take(s, n)
  {
    if j < n {
      assert Take(s, n)[j] == s[j];
    }
  }

  /** An element of a sorted list that the first `n` leave out comes after all of them, and
      there are `n` of them. */
  lemma TakeBounded<T>(s: seq<T>, n: nat, key: T -> seq<int>, j: nat)
    requires SortedBy(s, key) && j < |s| && s[j] !in Take(s, n)
    ensures |Take(s, n)| == n
    ensures forall i :: 0 <= i < n ==> LexLe(key(Take(s, n)[i]), key(s[j]))
  {
    TakeHas(s, n, j);
    forall i | 0 <= i < n
      ensures LexLe(key(Take(s, n)[i]), key(s[j]))
    {
      assert Take(s, n)[i] == s[i];
    }
  }

  /** The first `n` elements of a list whose elements all pass a test pass it too. */
  lemma TakeKeepsTest<T>(s: seq<T>, n: nat, p: T -> bool)
    requires forall i :: 0 <= i < |s| ==> p(s[i])
    ensures forall i :: 0 <= i < |Take(s, n)| ==> p(Take(s, n)[i])
  {
    forall i | 0 <= i < |Take(s, n)|
      ensures p(Take(s, n)[i])
    {
      assert Take(s, n)[i] == s[i];
    }
  }

  /** A reordering of a list whose elements all pass a test passes it too. */
  lemma PermutationKeepsTest<T>(s: seq<T>, r: seq<T>, p: T -> bool)
    requires forall i :: 0 <= i < |s| ==> p(s[i])
    requires multiset(r) == multiset(s)
    ensures forall i :: 0 <= i < |r| ==> p(r[i])
  {
    forall i | 0 <= i < |r|
      ensures p(r[i])
    {
      assert r[i] in multiset(s);
      var j :| 0 <= j < |s| && s[j] == r[i];
    }
  }

  /** The elements of a list that satisfy `p`, in order (`iter.filter(p)`). */
  function Filter<T>(s: seq<T>, p: T -> bool): (r: seq<T>)
    ensures |r| <= |s|
    ensures forall i :: 0 <= i < |r| ==> p(r[i])
    ensures multiset(r) <= multiset(s)
    ensures forall x :: x in s && p(x) ==> x in r
    ensures forall x :: x in r ==> x in s && p(x)
    decreases |s|
  {
    if |s| == 0 then []
    else
      assert s == [s[0]] + s[1..];
      if p(s[0]) then [s[0]] + Filter(s[1..], p) else Filter(s[1..], p)
  }

  /** Asking `q` of everything the filter keeps is asking it of everything satisfying `p`. */
  lemma {:induction false} FilterAll<T>(s: seq<T>, p: T -> bool, q: T -> bool)
    ensures (forall i :: 0 <= i < |Filter(s, p)| ==> q(Filter(s, p)[i])) <==>
      (forall i :: 0 <= i < |s| && p(s[i]) ==> q(s[i]))
    decreases |s|
  {
    if |s| > 0 {
      FilterAll(s[1..], p, q);
      var rest := Filter(s[1..], p);
      if p(s[0]) {
        assert Filter(s, p) == [s[0]] + rest;
      } else {
        assert Filter(s, p) == rest;
      }
      assert forall i :: 1 <= i < |s| ==> s[1..][i - 1] == s[i];
    }
  }

  /** Filtering with two tests that agree on every element gives the same list. */
  lemma {:induction false} FilterSameTest<T>(s: seq<T>, p: T -> bool, q: T -> bool)
    requires forall i :: 0 <= i < |s| ==> (p(s[i]) <==> q(s[i]))
    ensures Filter(s, p) == Filter(s, q)
    decreases |s|
  {
    if |s| > 0 {
      assert forall i :: 1 <= i < |s| ==> s[1..][i - 1] == s[i];
      FilterSameTest(s[1..], p, q);
    }
  }

  /** A filter that every element passes keeps the whole list. */
  lemma {:induction false} FilterKeepsAll<T>(s: seq<T>, p: T -> bool)
    requires forall i :: 0 <= i < |s| ==> p(s[i])
    ensures Filter(s, p) == s
    decreases |s|
  {
    if |s| > 0 {
      assert forall i :: 1 <= i < |s| ==> s[1..][i - 1] == s[i];
      FilterKeepsAll(s[1..], p);
      assert s == [s[0]] + s[1..];
    }
  }

  /** Two filters in a row keep, in order, exactly what passes both. */
  lemma FilterTwice<T>(s: seq<T>, p: T -> bool, q: T -> bool, w: T -> bool)
    requires forall x :: w(x) <==> p(x) && q(x)
    ensures var r := Filter(Filter(s, p), q);
      (forall i :: 0 <= i < |r| ==> w(r[i]))
      && (forall x :: x in r ==> x in s && w(x))
      && (forall x :: x in s && w(x) ==> x in r)
      && multiset(r) <= multiset(s)
  {
    var f := Filter(s, p);
    var r := Filter(f, q);
    assert forall x :: x in s && w(x) ==> x in f;
  }
}

=== FILE: spell.dfy ===
/** Spells as `src/spells/spell.rs` defines them: the built-in `StaticSpell`, the user's
    `CustomSpell`, the `Spell` enum over both, their accessors and `find_spell`. */
module Spells {
  import opened Wrappers
  import opened Ints
  import opened Strings
  import opened Utils
  import opened SpellData
  import SA = StaticArc

  /** A spell from the bundled list. `name_lower`, `desc_lower` and `higher_levels_lower`
      are lowered copies kept for searching. */
  datatype StaticSpell = StaticSpell(
    name: string,
    nameLower: string,
    level: Level,
    castingTime: CastingTime,
    range: string,
    duration: string,
    components: Components,
    school: School,
    ritual: bool,
    conc: bool,
    description: string,
    descLower: string,
    higherLevels: Option<string>,
    higherLevelsLower: Option<string>,
    classes: seq<Class>,
    source: Source,
    page: u32)

  /** A spell the user wrote; most fields are optional. */
  datatype CustomSpell = CustomSpell(
    name: string,
    nameLower: string,
    level: Level,
    castingTime: CastingTime,
    range: Option<string>,
    components: Option<Components>,
    duration: Option<string>,
    school: School,
    ritual: bool,
    conc: bool,
    description: string,
    descLower: string,
    higherLevels: Option<string>,
    higherLevelsLower: Option<string>,
    classes: seq<Class>,
    page: Option<u32>)

  /** The raw record the bundled JSON is read into before its casting time is parsed. */
  datatype DeserializeSpell = DeserializeSpell(
    name: string,
    level: Level,
    castingTime: string,
    range: string,
    duration: string,
    components: Components,
    school: School,
    ritual: bool,
    conc: bool,
    description: string,
    higherLevels: Option<string>,
    classes: seq<Class>,
    source: Source,
    page: u32)

  datatype Spell = StaticEntry(st: StaticSpell) | CustomEntry(cu: CustomSpell)

  /** Identifies a spell on a character sheet: its name and level. */
  datatype SpellId = SpellId(name: SA.StArc<string>, level: Level)

  /** `PartialEq for CustomSpell`: two custom spells are equal when their names are. */
  predicate CustomEq(a: CustomSpell, b: CustomSpell) {
    a.name == b.name
  }

  /** The derived `PartialEq for Spell`: static spells compare every field, custom ones by
      name, and a static spell never equals a custom one. */
  predicate SpellEq(a: Spell, b: Spell) {
    match (a, b)
    case (StaticEntry(x), StaticEntry(y)) => x == y
    case (CustomEntry(x), CustomEntry(y)) => CustomEq(x, y)
    case _ => false
  }

  /** `SpellEq` is an equivalence: each spell is equal to itself, and the relation is
      symmetric and transitive. */
  lemma SpellEqEquivalence(a: Spell, b: Spell, c: Spell)
    ensures SpellEq(a, a)
    ensures SpellEq(a, b) ==> SpellEq(b, a)
    ensures SpellEq(a, b) && SpellEq(b, c) ==> SpellEq(a, c)
  {
  }

  /** Custom spells that differ in any field but the name are still equal. */
  lemma CustomEqIgnoresContents(a: CustomSpell, level: Level, description: string)
    ensures SpellEq(CustomEntry(a), CustomEntry(a.(level := level, description := description)))
  {
  }

  /** `CustomSpell::new`: a blank cantrip with the given name. */
  function NewCustomSpell(name: string): (r: CustomSpell)
    ensures r.name == name && r.nameLower == ToLower(name)
    ensures r.level == Cantrip && r.castingTime == Action && r.school == Abjuration
    ensures r.range.None? && r.duration.None? && r.components.None? && r.page.None?
    ensures !r.ritual && !r.conc
    ensures r.description == "" && r.descLower == ""
    ensures r.higherLevels.None? && r.higherLevelsLower.None?
    ensures r.classes == []
  {
    CustomSpell(name, ToLower(name), Cantrip, Action, None, None, None, Abjuration, false, false,
                "", "", None, None, [], None)
  }

  /** `StaticSpell::id`: a static name. */
  function StaticId(s: StaticSpell): (r: SpellId)
    ensures r.name == SA.Static(s.name) && r.level == s.level
  {
    SpellId(SA.FromStatic(s.name), s.level)
  }

  /** `CustomSpell::id`: a shared name. */
  function CustomId(s: CustomSpell): (r: SpellId)
    ensures r.name == SA.Arc(s.name) && r.level == s.level
  {
    SpellId(SA.FromArc(s.name), s.level)
  }

  /** Custom spells equal by name have the same id exactly when they have the same level. */
  lemma CustomIdOfEqual(a: CustomSpell, b: CustomSpell)
    requires CustomEq(a, b)
    ensures CustomId(a) == CustomId(b) <==> a.level == b.level
  {
  }

  // ---- accessors of `Spell` ----

  function Id(s: Spell): (r: SpellId)
    ensures r.level == LevelOf(s) && r.name.Deref() == Name(s).Deref()
  {
    match s
    case StaticEntry(x) => StaticId(x)
    case CustomEntry(x) => CustomId(x)
  }

  function LevelOf(s: Spell): Level {
    match s
    case StaticEntry(x) => x.level
    case CustomEntry(x) => x.level
  }

  function Classes(s: Spell): seq<Class> {
    match s
    case StaticEntry(x) => x.classes
    case CustomEntry(x) => x.classes
  }

  function SchoolOf(s: Spell): School {
    match s
    case StaticEntry(x) => x.school
    case CustomEntry(x) => x.school
  }

  function Ritual(s: Spell): bool {
    match s
    case StaticEntry(x) => x.ritual
    case CustomEntry(x) => x.ritual
  }

  function Concentration(s: Spell): bool {
    match s
    case StaticEntry(x) => x.conc
    case CustomEntry(x) => x.conc
  }

  /** `Spell::name`: `Static` for a bundled spell, `Arc` for a custom one. */
  function Name(s: Spell): (r: SA.StArc<string>)
    ensures r.Static? <==> s.StaticEntry?
  {
    match s
    case StaticEntry(x) => SA.FromStatic(x.name)
    case CustomEntry(x) => SA.FromArc(x.name)
  }

  function NameLower(s: Spell): string {
    match s
    case StaticEntry(x) => x.nameLower
    case CustomEntry(x) => x.nameLower
  }

  function Description(s: Spell): string {
    match s
    case StaticEntry(x) => x.description
    case CustomEntry(x) => x.description
  }

  function DescLower(s: Spell): string {
    match s
    case StaticEntry(x) => x.descLower
    case CustomEntry(x) => x.descLower
  }

  function HigherLevels(s: Spell): Option<string> {
    match s
    case StaticEntry(x) => x.higherLevels
    case CustomEntry(x) => x.higherLevels
  }

  function HigherLevelsLower(s: Spell): Option<string> {
    match s
    case StaticEntry(x) => x.higherLevelsLower
    case CustomEntry(x) => x.higherLevelsLower
  }

  function CastingTimeOf(s: Spell): CastingTime {
    match s
    case StaticEntry(x) => x.castingTime
    case CustomEntry(x) => x.castingTime
  }

  function ComponentsOf(s: Spell): (r: Option<Components>)
    ensures s.StaticEntry? ==> r == Some(s.st.components)
    ensures s.CustomEntry? ==> r == s.cu.components
  {
    match s
    case StaticEntry(x) => Some(x.components)
    case CustomEntry(x) => x.components
  }

  /** `Spell::duration`. */
  function Duration(s: Spell): (r: Option<string>)
    ensures s.StaticEntry? ==> r == Some(s.st.duration)
    ensures s.CustomEntry? ==> r == s.cu.duration
  {
    match s
    case StaticEntry(x) => Some(x.duration)
    case CustomEntry(x) => x.duration
  }

  /** `Spell::range` as the source writes it: it reads the duration field for both
      variants. */
  function RangeAsWritten(s: Spell): (r: Option<string>)
    ensures r == Duration(s)
  {
    match s
    case StaticEntry(x) => Some(x.duration)
    case CustomEntry(x) => x.duration
  }

  /** `Spell::range` reading the range field, as its name and the "Range:" label it feeds
      evidently intend. */
  function Range(s: Spell): (r: Option<string>)
    ensures s.StaticEntry? ==> r == Some(s.st.range)
    ensures s.CustomEntry? ==> r == s.cu.range
  {
    match s
    case StaticEntry(x) => Some(x.range)
    case CustomEntry(x) => x.range
  }

  /** Any spell whose range and duration differ shows its duration as its range. */
  lemma RangeAsWrittenShowsDuration(s: Spell)
    requires s.StaticEntry? && s.st.range != s.st.duration
    ensures RangeAsWritten(s) != Range(s)
    ensures RangeAsWritten(s) == Duration(s)
  {
  }

  /** A concrete bundled spell on which the two disagree. */
  lemma RangeAsWrittenCounterexample()
    ensures var s := StaticEntry(StaticSpell("Fear", "fear", L3, Action, "Self (30-foot cone)",
      "Concentration, up to 1 minute", Components(true, true, Some("a white feather")),
      Illusion, false, true, "", "", None, None, [Bard], PlayersHandbook, 239));
      RangeAsWritten(s) == Some("Concentration, up to 1 minute") && Range(s) == Some("Self (30-foot cone)")
  {
  }

  /** `Spell::source`: custom spells always report `Source::Custom`. */
  function SourceOf(s: Spell): (r: Source)
    ensures s.CustomEntry? ==> r == Custom
    ensures s.StaticEntry? ==> r == s.st.source
  {
    match s
    case StaticEntry(x) => x.source
    case CustomEntry(_) => Custom
  }

  /** `Spell::page`: custom spells have none. */
  function Page(s: Spell): (r: Option<u32>)
    ensures s.CustomEntry? <==> r.None?
    ensures s.StaticEntry? ==> r == Some(s.st.page)
  {
    match s
    case StaticEntry(x) => Some(x.page)
    case CustomEntry(_) => None
  }

  // ---- construction of the bundled spells ----

  /** `TryFrom<DeserializeSpell> for StaticSpell`: fields are copied, the searchable fields
      lowered, and the casting time parsed by `from_static`, whose error or panic is
      passed on. */
  function TryFromDeserialize(d: DeserializeSpell): (r: Outcome<StaticSpell, CastingTimeError>)
    ensures r.Panic? <==> FromStatic(d.castingTime).Panic?
    ensures r.Done? && r.result.Err? <==> FromStatic(d.castingTime).Done? && FromStatic(d.castingTime).result.Err?
    ensures r.Done? && r.result.Err? ==> r.result.error == FromStatic(d.castingTime).result.error
    ensures r.Done? && r.result.Ok? ==>
      var s := r.result.value;
      Done(Ok(s.castingTime)) == FromStatic(d.castingTime) &&
      s.name == d.name && s.nameLower == ToLower(d.name) &&
      s.description == d.description && s.descLower == ToLower(d.description) &&
      s.higherLevels == d.higherLevels &&
      (s.higherLevelsLower.Some? <==> d.higherLevels.Some?) &&
      (d.higherLevels.Some? ==> s.higherLevelsLower.value == ToLower(d.higherLevels.value)) &&
      s.level == d.level && s.range == d.range && s.duration == d.duration &&
      s.components == d.components && s.school == d.school && s.ritual == d.ritual &&
      s.conc == d.conc && s.classes == d.classes && s.source == d.source && s.page == d.page
  {
    match FromStatic(d.castingTime)
    case Panic => Panic
    case Done(Err(e)) => Done(Err(e))
    case Done(Ok(ct)) =>
      var higherLower := if d.higherLevels.Some? then Some(ToLower(d.higherLevels.value)) else None;
      Done(Ok(StaticSpell(d.name, ToLower(d.name), d.level, ct, d.range, d.duration, d.components,
        d.school, d.ritual, d.conc, d.description, ToLower(d.description), d.higherLevels,
        higherLower, d.classes, d.source, d.page)))
  }

  // ---- lookup ----

  /** `fix_name_changes`: a spell renamed in the bundled list still resolves from its old
      name. */
  predicate FixNameChanges(spellName: string, spell: StaticSpell) {
    spellName == "Enemies abound" && spell.name == "Enemies Abound"
  }

  predicate StaticMatches(spellName: string, spell: StaticSpell) {
    spell.name == spellName || FixNameChanges(spellName, spell)
  }

  /** `find_spell`: the first bundled spell with that name, else a copy of the first custom
      spell with exactly that name. The bundled list is a parameter. */
  function FindSpell(spellName: string, statics: seq<StaticSpell>, custom: seq<CustomSpell>): (r: Option<Spell>)
    ensures r.Some? && r.value.StaticEntry? ==> r.value.st in statics && StaticMatches(spellName, r.value.st)
    ensures r.Some? && r.value.CustomEntry? ==> r.value.cu in custom && r.value.cu.name == spellName
    ensures (exists i :: 0 <= i < |statics| && StaticMatches(spellName, statics[i])) ==>
      r.Some? && r.value.StaticEntry?
    ensures r.Some? && r.value.CustomEntry? ==>
      forall i :: 0 <= i < |statics| ==> !StaticMatches(spellName, statics[i])
    ensures r.None? <==>
      (forall i :: 0 <= i < |statics| ==> !StaticMatches(spellName, statics[i])) &&
      (forall i :: 0 <= i < |custom| ==> custom[i].name != spellName)
  {
    match FindIndex(statics, (s: StaticSpell) => StaticMatches(spellName, s))
    case Some(i) => Some(StaticEntry(statics[i]))
    case None =>
      match FindIndex(custom, (s: CustomSpell) => s.name == spellName)
      case Some(j) => Some(CustomEntry(custom[j]))
      case None => None
  }

  /** The old name "Enemies abound" finds the renamed bundled "Enemies Abound" ahead of any
      custom spell. */
  lemma EnemiesAboundResolves(statics: seq<StaticSpell>, custom: seq<CustomSpell>, i: nat)
    requires i < |statics| && statics[i].name == "Enemies Abound"
    ensures var r := FindSpell("Enemies abound", statics, custom);
      r.Some? && r.value.StaticEntry? &&
      (r.value.st.name == "Enemies Abound" || r.value.st.name == "Enemies abound")
  {
    assert StaticMatches("Enemies abound", statics[i]);
  }

  /** A custom spell is found only when no bundled spell has its name, and then it is the
      first custom spell with that name. */
  lemma FindSpellCustom(spellName: string, statics: seq<StaticSpell>, custom: seq<CustomSpell>, j: nat)
    requires forall i :: 0 <= i < |statics| ==> !StaticMatches(spellName, statics[i])
    requires j < |custom| && custom[j].name == spellName
    requires forall k :: 0 <= k < j ==> custom[k].name != spellName
    ensures FindSpell(spellName, statics, custom) == Some(CustomEntry(custom[j]))
  {
    var p := (s: CustomSpell) => s.name == spellName;
    assert p(custom[j]);
  }

  /** The bundled spell found is the first one that matches the name, so when two entries
      match (one through `fix_name_changes`) the earlier one wins. */
  lemma FindSpellStatic(spellName: string, statics: seq<StaticSpell>, custom: seq<CustomSpell>, j: nat)
    requires j < |statics| && StaticMatches(spellName, statics[j])
    requires forall k :: 0 <= k < j ==> !StaticMatches(spellName, statics[k])
    ensures FindSpell(spellName, statics, custom) == Some(StaticEntry(statics[j]))
  {
    var p := (s: StaticSpell) => StaticMatches(spellName, s);
    assert p(statics[j]);
  }
}

=== FILE: static_arc.dfy ===
/** `StArc<T>`: a value that is either a `&'static T` baked into the binary or a shared
    `Arc<T>` loaded at run time. References are modelled by the referenced value. */
module StaticArc {
  import opened Wrappers

  datatype StArc<T> = Static(t: T) | Arc(t: T) {

    /** `Deref`: the underlying value, whichever the variant. */
    function Deref(): (r: T)
      ensures this == Static(r) || this == Arc(r)
    {
      match this
      case Static(t) => t
      case Arc(t) => t
    }

    /** `Clone`: a static reference is copied and an `Arc` gets another handle. */
    function Clone(): (r: StArc<T>)
      ensures r.Static? <==> this.Static?
      ensures r.Deref() == Deref()
    {
      match this
      case Static(t) => Static(t)
      case Arc(t) => Arc(t)
    }

    /** `Serialize` and `Display`: whatever `write` does with the contents. */
    function Write<S>(write: T -> S): (r: S)
      ensures r == write(Deref())
    {
      match this
      case Static(t) => write(t)
      case Arc(t) => write(t)
    }
  }

  /** `PartialEq<&T>`: compares the contents only, so either variant holding `other` is
      equal to it. */
  function EqValue<T(==)>(a: StArc<T>, other: T): (r: bool)
    ensures r <==> a == Static(other) || a == Arc(other)
  {
    a.Deref() == other
  }

  /** The content comparison is coarser than the derived equality: handles equal under the
      derived `==` hold equal contents, while a `Static` and an `Arc` with the same contents
      are equal to those contents but not to each other. */
  lemma EqValueVersusDerived<T>(a: StArc<T>, b: StArc<T>, x: T)
    ensures a == b ==> EqValue(a, b.Deref())
    ensures EqValue(Static(x), x) && EqValue(Arc(x), x) && Static(x) != Arc(x)
  {
  }

  /** `From<&'static T>`. */
  function FromStatic<T>(t: T): (r: StArc<T>)
    ensures r.Static? && r.Deref() == t
  {
    Static(t)
  }

  /** `From<Arc<T>>` and `From<&Arc<T>>`. */
  function FromArc<T>(t: T): (r: StArc<T>)
    ensures r.Arc? && r.Deref() == t
  {
    Arc(t)
  }

  /** `Deserialize`: the contents are read by `T`'s own deserializer and always land in an
      `Arc`. */
  function Deserialize<T, E>(inner: Result<T, E>): (r: Result<StArc<T>, E>)
    ensures inner.Err? <==> r.Err?
    ensures r.Err? ==> r.error == inner.error
    ensures r.Ok? ==> r.value.Arc? && r.value.Deref() == inner.value
  {
    match inner
    case Ok(t) => Ok(Arc(t))
    case Err(e) => Err(e)
  }

  /** Deserializing what was serialized gives back the contents, as an `Arc`, whichever
      variant was written; the derived equality therefore tells the two apart while the
      content comparison does not. */
  lemma {:induction false} SerializeDeserialize<T, S>(a: StArc<T>, write: T -> S, read: S -> Result<T, bool>)
    requires read(write(a.Deref())) == Ok(a.Deref())
    ensures Deserialize(read(a.Write(write))) == Ok(Arc(a.Deref()))
    ensures a.Static? ==> Deserialize(read(a.Write(write))).value != a
    ensures Deserialize(read(a.Write(write))).value.Deref() == a.Deref()
  {
    var w := a.Write(write);
    assert w == write(a.Deref());
  }
}

=== FILE: strings.dfy ===
/** The `str` operations the core relies on (`find`, `rfind`, `contains`, `starts_with`,
    `split`, `trim`, `to_lowercase`, integer formatting and parsing), on `seq<char>`. */
module Strings {
  import opened Wrappers
  import opened Ints

  /** `str::find(c)`: the first position of `c`. */
  function IndexOf(s: string, c: char): (r: Option<nat>)
    ensures r.Some? ==> r.value < |s| && s[r.value] == c
    ensures r.Some? ==> forall j :: 0 <= j < r.value ==> s[j] != c
    ensures r.None? <==> c !in s
  {
    if |s| == 0 then None
    else if s[0] == c then Some(0)
    else match IndexOf(s[1..], c)
      case None => None
      case Some(k) => Some(k + 1)
  }

  /** `str::rfind(c)`: the last position of `c`. */
  function LastIndexOf(s: string, c: char): (r: Option<nat>)
    ensures r.Some? ==> r.value < |s| && s[r.value] == c
    ensures r.Some? ==> forall j :: r.value < j < |s| ==> s[j] != c
    ensures r.None? <==> c !in s
  {
    if |s| == 0 then None
    else if s[|s| - 1] == c then Some(|s| - 1)
    else LastIndexOf(s[..|s| - 1], c)
  }

  /** The first occurrence is determined by its defining property. */
  lemma IndexOfIs(s: string, c: char, k: nat)
    requires k < |s| && s[k] == c
    requires forall j :: 0 <= j < k ==> s[j] != c
    ensures IndexOf(s, c) == Some(k)
  {
    assert s[k] in s;
  }

  /** Prefixing a string free of `c` shifts the first `c` by the prefix length. */
  lemma IndexOfConcat(a: string, b: string, c: char, k: nat)
    requires c !in a && IndexOf(b, c) == Some(k)
    ensures IndexOf(a + b, c) == Some(|a| + k)
  {
    ShiftedFirst(a, b, c, k);
    var ab := a + b;
    IndexOfIs(ab, c, |a| + k);
  }

  lemma ShiftedFirst(a: string, b: string, c: char, k: nat)
    requires c !in a && k < |b| && b[k] == c
    requires forall j :: 0 <= j < k ==> b[j] != c
    ensures (a + b)[|a| + k] == c
    ensures forall j :: 0 <= j < |a| + k ==> (a + b)[j] != c
  {
  }

  /** A first occurrence inside a prefix stays the first occurrence. */
  lemma IndexOfPrefix(a: string, b: string, c: char, k: nat)
    requires IndexOf(a, c) == Some(k)
    ensures IndexOf(a + b, c) == Some(k)
  {
    var ab := a + b;
    assert ab[k] == a[k];
    assert forall j :: 0 <= j < k ==> ab[j] == a[j];
    IndexOfIs(ab, c, k);
  }

  lemma IndexOfAbsentConcat(a: string, b: string, c: char)
    requires c !in a && c !in b
    ensures IndexOf(a + b, c) == None
  {
    forall i | 0 <= i < |a + b| ensures (a + b)[i] != c {
      if i < |a| {
        assert (a + b)[i] == a[i] && a[i] in a;
      } else {
        assert (a + b)[i] == b[i - |a|] && b[i - |a|] in b;
      }
    }
  }

  predicate StartsWith(s: string, prefix: string) {
    |prefix| <= |s| && s[..|prefix|] == prefix
  }

  /** Whether `needle` occurs in `s` starting at position `i`. */
  predicate OccursAt(s: string, needle: string, i: nat) {
    i + |needle| <= |s| && s[i..i + |needle|] == needle
  }

  /** `str::contains(needle)` for a string needle. */
  predicate Contains(s: string, needle: string) {
    exists i: nat | i <= |s| :: OccursAt(s, needle, i)
  }

  /** `str::find(needle)` for a string needle: the first position it occurs at. */
  function FindSub(s: string, needle: string, from: nat := 0): (r: Option<nat>)
    requires from <= |s|
    ensures r.Some? ==> from <= r.value && OccursAt(s, needle, r.value)
    ensures r.Some? ==> forall j: nat :: from <= j < r.value ==> !OccursAt(s, needle, j)
    ensures r.None? ==> forall j: nat :: from <= j <= |s| ==> !OccursAt(s, needle, j)
    decreases |s| - from
  {
    if OccursAt(s, needle, from) then Some(from)
    else if from == |s| then None
    else FindSub(s, needle, from + 1)
  }

  /** ASCII lowering; `str::to_lowercase` also lowers non-ASCII letters, which is out of model. */
  function LowerChar(c: char): char {
    if 'A' <= c <= 'Z' then (c as int + 32) as char else c
  }

  function ToLower(s: string): (r: string)
    ensures |r| == |s|
    ensures forall i :: 0 <= i < |s| ==> r[i] == LowerChar(s[i])
  {
    seq(|s|, i requires 0 <= i < |s| => LowerChar(s[i]))
  }

  /** `char::is_whitespace`: the Unicode White_Space property. */
  predicate IsWhitespace(c: char) {
    ('\U{9}' <= c <= '\U{D}') || c == ' ' || c == '\U{85}' || c == '\U{A0}' || c == '\U{1680}'
    || ('\U{2000}' <= c <= '\U{200A}') || c == '\U{2028}' || c == '\U{2029}' || c == '\U{202F}'
    || c == '\U{205F}' || c == '\U{3000}'
  }

  function TrimStart(s: string): (r: string)
    ensures |r| <= |s| && r == s[|s| - |r|..]
    ensures |r| > 0 ==> !IsWhitespace(r[0])
  {
    if |s| > 0 && IsWhitespace(s[0]) then TrimStart(s[1..]) else s
  }

  function TrimEnd(s: string): (r: string)
    ensures |r| <= |s| && r == s[..|r|]
    ensures |r| > 0 ==> !IsWhitespace(r[|r| - 1])
  {
    if |s| > 0 && IsWhitespace(s[|s| - 1]) then TrimEnd(s[..|s| - 1]) else s
  }

  /** `str::trim`. */
  function Trim(s: string): string {
    TrimEnd(TrimStart(s))
  }

  /** A string whose ends are not whitespace is its own trim. */
  lemma TrimNoop(s: string)
    requires |s| > 0 ==> !IsWhitespace(s[0]) && !IsWhitespace(s[|s| - 1])
    ensures Trim(s) == s
  {
  }

  /** `str::split(sep)` for a single-character separator. */
  function Split(s: string, sep: char): (r: seq<string>)
    ensures |r| >= 1
    ensures forall k :: 0 <= k < |r| ==> sep !in r[k]
    decreases |s|
  {
    match IndexOf(s, sep)
    case None => [s]
    case Some(i) => [s[..i]] + Split(s[i + 1..], sep)
  }

  function Join(pieces: seq<string>, sep: string): string {
    if |pieces| == 0 then ""
    else if |pieces| == 1 then pieces[0]
    else pieces[0] + sep + Join(pieces[1..], sep)
  }

  /** Appending one more piece to a non-empty join. */
  lemma {:induction false} JoinSnoc(pieces: seq<string>, x: string, sep: string)
    requires |pieces| > 0
    ensures Join(pieces + [x], sep) == Join(pieces, sep) + sep + x
    decreases |pieces|
  {
    if |pieces| > 1 {
      JoinSnoc(pieces[1..], x, sep);
      assert (pieces + [x])[1..] == pieces[1..] + [x];
    }
  }

  /** Joining a piece in front of a non-empty join. */
  lemma JoinCons(head: string, rest: seq<string>, sep: string)
    requires |rest| >= 1
    ensures Join([head] + rest, sep) == head + sep + Join(rest, sep)
  {
    assert ([head] + rest)[1..] == rest;
  }

  /** A string is the part before a position, the character there, and the part after. */
  lemma CutAt(s: string, i: nat)
    requires i < |s|
    ensures s == s[..i] + [s[i]] + s[i + 1..]
  {
  }

  /** Splitting and re-joining with the same separator gives back the string. */
  lemma {:induction false} SplitJoin(s: string, sep: char)
    ensures Join(Split(s, sep), [sep]) == s
    decreases |s|
  {
    match IndexOf(s, sep)
    case None =>
    case Some(i) =>
      CutAt(s, i);
      SplitJoin(s[i + 1..], sep);
      JoinCons(s[..i], Split(s[i + 1..], sep), [sep]);
  }

  // ---- decimal integers ----

  predicate IsDigit(c: char) {
    '0' <= c <= '9'
  }

  function DigitChar(d: nat): (c: char)
    requires d < 10
    ensures IsDigit(c)
  {
    ('0' as int + d) as char
  }

  function DigitValue(c: char): (d: nat)
    requires IsDigit(c)
    ensures d < 10
  {
    c as int - '0' as int
  }

  predicate AllDigits(s: string) {
    forall i :: 0 <= i < |s| ==> IsDigit(s[i])
  }

  /** The value of a string of decimal digits. */
  function DigitsValue(s: string): nat
    requires AllDigits(s)
  {
    if |s| == 0 then 0 else DigitsValue(s[..|s| - 1]) * 10 + DigitValue(s[|s| - 1])
  }

  /** `n.to_string()` / `format!("{n}")` for an unsigned integer. */
  function NatToString(n: nat): (s: string)
    ensures |s| > 0 && AllDigits(s)
  {
    if n < 10 then [DigitChar(n)] else NatToString(n / 10) + [DigitChar(n % 10)]
  }

  lemma {:induction false} NatToStringValue(n: nat)
    ensures DigitsValue(NatToString(n)) == n
  {
    if n >= 10 {
      var s := NatToString(n);
      NatToStringValue(n / 10);
      assert s[..|s| - 1] == NatToString(n / 10);
    }
  }

  /** `str::parse::<usize>()`: an optional `+`, then at least one ASCII digit, the value
      fitting in 64 bits. */
  function ParseUsize(s: string): (r: Option<usize>)
    ensures r.Some? ==> |s| > 0
    ensures r.Some? ==> forall i :: 0 <= i < |s| ==> IsDigit(s[i]) || (i == 0 && s[i] == '+')
    ensures |s| > 0 && AllDigits(s) && DigitsValue(s) < USIZE_LIMIT ==> r == Some(DigitsValue(s))
    ensures |s| > 0 && AllDigits(s) && DigitsValue(s) >= USIZE_LIMIT ==> r.None?
    ensures |s| > 1 && s[0] == '+' && AllDigits(s[1..]) && DigitsValue(s[1..]) < USIZE_LIMIT ==>
      r == Some(DigitsValue(s[1..]))
    ensures |s| > 1 && s[0] == '+' && AllDigits(s[1..]) && DigitsValue(s[1..]) >= USIZE_LIMIT ==> r.None?
  {
    if |s| == 0 then None
    else
      var digits := if s[0] == '+' then s[1..] else s;
      if |digits| > 0 && AllDigits(digits) && DigitsValue(digits) < USIZE_LIMIT
      then Some(DigitsValue(digits))
      else None
  }

  /** Formatting then parsing an unsigned integer is the identity. */
  lemma ParseUsizeNatToString(n: usize)
    ensures ParseUsize(NatToString(n)) == Some(n)
  {
    NatToStringValue(n);
    assert IsDigit(NatToString(n)[0]);
  }

  lemma NatToStringHasNoChar(n: nat, c: char)
    requires !IsDigit(c)
    ensures c !in NatToString(n)
  {
  }

  // ---- ordering ----

  /** The code points of a string: Rust orders `str` byte-wise on UTF-8, which is the same
      as code-point order. */
  function Codes(s: string): (r: seq<int>)
    ensures |r| == |s|
    ensures forall i :: 0 <= i < |s| ==> r[i] == s[i] as int
  {
    seq(|s|, i requires 0 <= i < |s| => s[i] as int)
  }

  lemma CodesInjective(a: string, b: string)
    requires Codes(a) == Codes(b)
    ensures a == b
  {
    assert |a| == |b|;
    forall i | 0 <= i < |a| ensures a[i] == b[i] {
      assert Codes(a)[i] == Codes(b)[i];
    }
  }
}

=== FILE: tabs.dfy ===
/** `src/tabs.rs` and the tab arithmetic of `src/main.rs`: the top-level tabs, their position
    in the tab bar, selecting a tab by position, and stepping to a neighbouring tab. */
module Tabs {
  import opened Wrappers
  import Ints

  /** `Tab`: the search tab, one tab per open character, and the settings tab. */
  datatype Tab = SearchTab | CharacterTab(index: nat) | SettingsTab

  /** A tab that exists while `n` characters are open. */
  predicate ValidTab(t: Tab, n: nat) {
    t.CharacterTab? ==> t.index < n
  }

  /** `Tab::index`: search first, then the characters in order, settings last. */
  function Index(t: Tab, n: nat): (r: nat)
    ensures ValidTab(t, n) ==> r <= n + 1
    ensures ValidTab(t, n) ==> (r == n + 1 <==> t.SettingsTab?)
    ensures t.CharacterTab? ==> r > 0
  {
    match t
    case SearchTab => 0
    case CharacterTab(index) => index + 1
    case SettingsTab => n + 1
  }

  /** The `SelectTab` arm: the tab at a position of the tab bar. Its index is that position,
      and it exists whenever the position is in the bar. */
  function SelectTab(position: nat, n: nat): (r: Tab)
    ensures Index(r, n) == position
    ensures position <= n + 1 ==> ValidTab(r, n)
  {
    if position == 0 then SearchTab
    else if position == n + 1 then SettingsTab
    else CharacterTab(position - 1)
  }

  /** Selecting a tab's own position gives the tab back, exactly when it is not the
      one-past-the-end character tab that shares its position with settings. */
  lemma SelectIndex(t: Tab, n: nat)
    ensures SelectTab(Index(t, n), n) == t <==> t != CharacterTab(n)
  {
  }

  /** Distinct tabs that exist sit at distinct positions. */
  lemma {:induction false} IndexInjective(a: Tab, b: Tab, n: nat)
    requires ValidTab(a, n) && ValidTab(b, n)
    requires Index(a, n) == Index(b, n)
    ensures a == b
  {
    SelectIndex(a, n);
    SelectIndex(b, n);
  }

  /** `hotkey::Move`: a step to the left or to the right. */
  datatype Direction = Left | Right

  /** The tab-only `Move` arm: one tab left or right, wrapping around between search and
      settings. The step is one position modulo the number of tabs. */
  function MoveTab(t: Tab, dir: Direction, n: nat): (r: Tab)
    ensures ValidTab(r, n)
    ensures ValidTab(t, n) ==>
      Index(r, n) == (Index(t, n) + (if dir == Right then 1 else n + 1)) % (n + 2)
  {
    SelectTab(Step(Index(t, n), n + 1, dir), n)
  }

  /** The position arithmetic of both `Move` arms on the positions `0..=last`: left of 0 is
      `last`, right of `last` is 0. On the cycle it is a step of one modulo its length. */
  function Step(orig: nat, last: nat, dir: Direction): (r: nat)
    ensures r <= last
    ensures orig <= last ==> r == (orig + (if dir == Right then 1 else last)) % (last + 1)
  {
    CyclicStep(orig, last);
    match dir
    case Left => if orig == 0 then last else Ints.Min(orig - 1, last)
    case Right => if orig + 1 > last then 0 else orig + 1
  }

  /** Reducing a number below twice the modulus takes the modulus off at most once. */
  lemma ModWrap(a: nat, m: nat)
    requires 0 < m && a < 2 * m
    ensures a % m == if a < m then a else a - m
  {
    if a >= m {
      assert a == 1 * m + (a - m);
    }
  }

  /** One step forwards or backwards on the cycle of positions `0..=last`. */
  lemma {:induction false} CyclicStep(x: nat, last: nat)
    ensures x <= last ==> (x + 1) % (last + 1) == if x == last then 0 else x + 1
    ensures x <= last ==> (x + last) % (last + 1) == if x == 0 then last else x - 1
  {
    if x <= last {
      ModWrap(x + 1, last + 1);
      ModWrap(x + last, last + 1);
    }
  }

  /** Stepping left undoes stepping right and the other way round. */
  lemma {:induction false} MoveTabBack(t: Tab, n: nat)
    requires ValidTab(t, n)
    ensures MoveTab(MoveTab(t, Right, n), Left, n) == t
    ensures MoveTab(MoveTab(t, Left, n), Right, n) == t
  {
    var right := MoveTab(t, Right, n);
    var left := MoveTab(t, Left, n);
    IndexInjective(MoveTab(right, Left, n), t, n);
    IndexInjective(MoveTab(left, Right, n), t, n);
  }

  /** The two wrap-arounds: left of search is settings, right of settings is search. */
  lemma MoveTabWraps(n: nat)
    ensures MoveTab(SearchTab, Left, n) == SettingsTab
    ensures MoveTab(SettingsTab, Right, n) == SearchTab
  {
  }

  /** The `ToCharacter` hotkey: key d opens the d-th character, and 0 the last one. `None`
      is the overflow panic of `len() - 1` when no character is open. */
  function ToCharacter(digit: nat, n: nat): (r: Option<Tab>)
    ensures r.None? <==> digit == 0 && n == 0
    ensures r.Some? ==> r.value.CharacterTab?
    ensures r.Some? && digit <= n ==> ValidTab(r.value, n)
    ensures r.Some? && digit > 0 ==> Index(r.value, n) == digit
    ensures r.Some? && digit == 0 ==> Index(r.value, n) == n
  {
    if digit == 0 then (if n == 0 then None else Some(CharacterTab(n - 1)))
    else Some(CharacterTab(digit - 1))
  }
}

=== FILE: update.dfy ===
/** The self-update bookkeeping of `src/update.rs`: choosing a release on `CheckForUpdate`,
    the download stream's states and byte accounting, the mapping from download progress to
    the `UpdateState` the window shows, and the test that picks leftover backup directories
    for removal. The network, the file system, version parsing and the release listing are
    inputs. */
module Updates {
  import opened Wrappers
  import opened Ints
  import opened Strings
  import Utils

  // ---- The state shown in the window ----

  /** How far a download is: `downloaded / total * 100` per cent, kept as its two operands. */
  datatype Percent = Percent(downloaded: nat, total: nat)

  /** The 0.0 per cent a started download shows. */
  const NO_PROGRESS: Percent := Percent(0, 1)

  /** `UpdateState` of `src/main.rs`. */
  datatype UpdateState =
    | Checking
    | Ready
    | Downloading(percent: Percent)
    | UpToDate
    | Downloaded
    | UpdateErrored(error: string)

  /** `update::Progress`, with the per cent of `Advanced` kept as its operands. */
  datatype Progress =
    | Started
    | Advanced(downloaded: nat, total: nat)
    | Finished(bytes: Option<seq<u8>>)
    | Errored(error: string)

  /** `update::Message`. */
  datatype Message = CheckForUpdate | ProgressMade(progress: Progress)

  // ---- CheckForUpdate ----

  datatype Asset = Asset(name: string, downloadUrl: string)

  /** A published release: its version text and its assets. */
  datatype Release = Release(version: string, assets: seq<Asset>)

  /** The parts of `self_update` and `semver` that the handler calls: whether a release
      carries an asset for this target, the asset it picks, version parsing, and the version
      order. They are outside this model and enter as parameters. */
  datatype Library<!V> = Library(
    hasTargetAsset: Release -> bool,
    assetFor: Release -> Option<Asset>,
    parse: string -> Result<V, string>,
    newer: (V, V) -> bool)

  /** The first release of the listing that has an asset for this target. */
  function Latest<V>(releases: seq<Release>, lib: Library<V>): (r: Option<Release>)
    ensures r.Some? ==> r.value in releases && lib.hasTargetAsset(r.value)
    ensures r.None? <==> forall k :: 0 <= k < |releases| ==> !lib.hasTargetAsset(releases[k])
  {
    match Utils.FindIndex(releases, lib.hasTargetAsset)
    case Some(k) => Some(releases[k])
    case None => None
  }

  /** Whether that release is strictly newer than the running version; `None` when either
      version fails to parse (the latest one is parsed first). */
  function IsNewer<V>(release: Release, current: string, lib: Library<V>): (r: Result<bool, string>)
    ensures r.Err? <==> lib.parse(release.version).Err? || lib.parse(current).Err?
    ensures r.Ok? ==> (r.value <==> lib.newer(lib.parse(release.version).value, lib.parse(current).value))
  {
    match lib.parse(release.version)
    case Err(e) => Err(e)
    case Ok(latest) =>
      match lib.parse(current)
      case Err(e) => Err(e)
      case Ok(running) => Ok(lib.newer(latest, running))
  }

  /** The `CheckForUpdate` arm of `handle`: the new update state and download link, or the
      error that made `handle` return early. */
  function Check<V>(fetched: Result<seq<Release>, string>, current: string, url: string,
                    lib: Library<V>): (r: Result<(UpdateState, string), string>)
    ensures r.Ok? ==> r.value.0 == Ready || r.value.0 == UpToDate
    ensures r.Ok? && r.value.0 == UpToDate ==> r.value.1 == url
  {
    match fetched
    case Err(e) => Err(e)
    case Ok(releases) =>
      match Latest(releases, lib)
      case None => Ok((UpToDate, url))
      case Some(latest) =>
        match IsNewer(latest, current, lib)
        case Err(e) => Err(e)
        case Ok(false) => Ok((UpToDate, url))
        case Ok(true) =>
          match lib.assetFor(latest)
          case Some(asset) => Ok((Ready, asset.downloadUrl))
          case None => Ok((UpToDate, url))
  }

  /** `Check` is ready to download exactly when the listing was fetched, a release for this
      target exists, the first such one is strictly newer than the running version, and it
      has an asset; then the link is that asset's. It fails exactly when the listing or one of
      the two versions could not be had. */
  lemma {:induction false} CheckReady<V>(fetched: Result<seq<Release>, string>, current: string,
                                         url: string, lib: Library<V>)
    ensures var r := Check(fetched, current, url, lib);
      var latest := if fetched.Ok? then Latest(fetched.value, lib) else None;
      ((r.Ok? && r.value.0 == Ready) <==>
         latest.Some? && IsNewer(latest.value, current, lib) == Ok(true)
         && lib.assetFor(latest.value).Some?)
      && (r.Ok? && r.value.0 == Ready ==> r.value.1 == lib.assetFor(latest.value).value.downloadUrl)
      && (r.Err? <==> fetched.Err? || (latest.Some? && IsNewer(latest.value, current, lib).Err?))
  {
  }

  // ---- Progress ----

  /** The `Progress` arm of `handle`. `install` is what `update_extended` reports when it
      replaces the running executable with the downloaded bytes; its error ends `handle`
      early. */
  function HandleProgress(p: Progress, install: Result<(), string>): (r: Result<UpdateState, string>)
    ensures p.Started? ==> r == Ok(Downloading(NO_PROGRESS))
    ensures p.Advanced? ==> r == Ok(Downloading(Percent(p.downloaded, p.total)))
    ensures p == Finished(None) ==> r == Ok(UpToDate)
    ensures p.Errored? ==> r == Ok(UpdateErrored(p.error))
    ensures p.Finished? && p.bytes.Some? ==> (r.Ok? <==> install.Ok?)
    ensures p.Finished? && p.bytes.Some? && r.Ok? ==> r.value == Downloaded
  {
    match p
    case Started => Ok(Downloading(NO_PROGRESS))
    case Advanced(d, t) => Ok(Downloading(Percent(d, t)))
    case Finished(None) => Ok(UpToDate)
    case Errored(e) => Ok(UpdateErrored(e))
    case Finished(Some(_)) =>
      match install
      case Ok(_) => Ok(Downloaded)
      case Err(e) => Err(e)
  }

  /** The update fields of the application. */
  datatype Updater = Updater(state: UpdateState, url: string)

  /** The `Message::Update` arm of `src/main.rs`: `handle`, with an error it returns shown as
      `Errored`. The inputs are what the release listing, the version parser and the install
      step report. */
  function Update<V>(app: Updater, msg: Message, fetched: Result<seq<Release>, string>,
                     current: string, lib: Library<V>, install: Result<(), string>): (r: Updater)
    ensures msg.ProgressMade? ==> r.url == app.url
    ensures msg.CheckForUpdate? && r.state != Ready ==> r.url == app.url
  {
    match msg
    case CheckForUpdate =>
      (match Check(fetched, current, app.url, lib)
       case Ok((state, url)) => Updater(state, url)
       case Err(e) => app.(state := UpdateErrored(e)))
    case ProgressMade(p) =>
      match HandleProgress(p, install)
      case Ok(state) => app.(state := state)
      case Err(e) => app.(state := UpdateErrored(e))
  }

  /** A finished download that installs shows `Downloaded`; an install that fails shows its
      error; a stream error shows that error. */
  lemma FinishedShows<V>(app: Updater, bytes: seq<u8>, fetched: Result<seq<Release>, string>,
                         current: string, lib: Library<V>, install: Result<(), string>)
    ensures var r := Update(app, ProgressMade(Finished(Some(bytes))), fetched, current, lib, install);
      r.state == (if install.Ok? then Downloaded else UpdateErrored(install.error))
  {
  }

  // ---- The download stream ----

  /** `update::State`, the seed of the download stream. */
  datatype StreamState =
    | StreamReady(url: string)
    | StreamDownloading(buf: seq<u8>, total: u64, downloaded: u64)
    | StreamFinished

  /** What the request in the ready state gives: an error, or a response with its optional
      content length and, for the case without one, the whole body read at once (`None` if
      that read fails, which `unwrap` turns into a panic). */
  datatype Connection = ConnectFailed(error: string) | Connected(contentLength: Option<u64>, body: Option<seq<u8>>)

  /** What reading the next chunk gives. */
  datatype Chunk = Bytes(bytes: seq<u8>) | EndOfBody | ChunkFailed(error: string)

  /** One step of the `unfold`: an item and the next seed, a future that never completes, or
      a panic (the `unwrap` above, or `downloaded` overflowing its `u64`). */
  datatype Yield = Emit(progress: Progress, next: StreamState) | Pending | StreamPanicked

  /** The ready state: with a content length the download starts from nothing, without one
      the body is delivered whole, and an error ends the stream. */
  function Connect(conn: Connection): (r: Yield)
    ensures conn.ConnectFailed? ==> r == Emit(Errored(conn.error), StreamFinished)
    ensures conn.Connected? && conn.contentLength.Some? ==>
      r == Emit(Started, StreamDownloading([], conn.contentLength.value, 0))
    ensures conn.Connected? && conn.contentLength.None? ==>
      (r.StreamPanicked? <==> conn.body.None?)
    ensures conn.Connected? && conn.contentLength.None? && conn.body.Some? ==>
      r == Emit(Finished(conn.body), StreamFinished)
  {
    match conn
    case ConnectFailed(e) => Emit(Errored(e), StreamFinished)
    case Connected(Some(total), _) => Emit(Started, StreamDownloading([], total, 0))
    case Connected(None, Some(body)) => Emit(Finished(Some(body)), StreamFinished)
    case Connected(None, None) => StreamPanicked
  }

  /** The downloading state: a chunk is counted and appended, the end of the body delivers
      the buffer, and an error ends the stream. */
  function Receive(buf: seq<u8>, total: u64, downloaded: u64, chunk: Chunk): (r: Yield)
    ensures chunk.Bytes? ==> (r.StreamPanicked? <==> downloaded + |chunk.bytes| >= U64_LIMIT)
    ensures chunk.Bytes? && r.Emit? ==>
      r.next == StreamDownloading(buf + chunk.bytes, total, downloaded + |chunk.bytes|)
      && r.progress == Advanced(downloaded + |chunk.bytes|, total)
    ensures chunk.EndOfBody? ==> r == Emit(Finished(Some(buf)), StreamFinished)
    ensures chunk.ChunkFailed? ==> r == Emit(Errored(chunk.error), StreamFinished)
  {
    match chunk
    case Bytes(bytes) =>
      var n := downloaded + |bytes|;
      if n < U64_LIMIT then Emit(Advanced(n, total), StreamDownloading(buf + bytes, total, n))
      else StreamPanicked
    case EndOfBody => Emit(Finished(Some(buf)), StreamFinished)
    case ChunkFailed(e) => Emit(Errored(e), StreamFinished)
  }

  /** The `unfold` closure: the request input is read only in the ready state and the chunk
      input only while downloading. The finished state never emits again. */
  function Step(st: StreamState, conn: Connection, chunk: Chunk): (r: Yield)
    ensures st.StreamFinished? <==> r.Pending?
  {
    match st
    case StreamReady(_) => Connect(conn)
    case StreamDownloading(buf, total, downloaded) => Receive(buf, total, downloaded, chunk)
    case StreamFinished => Pending
  }

  /** The byte count always equals the length of the buffer. */
  predicate Accounted(st: StreamState) {
    st.StreamDownloading? ==> st.downloaded == |st.buf|
  }

  /** Every step keeps the byte count equal to the buffer length. */
  lemma {:induction false} StepKeepsAccounted(st: StreamState, conn: Connection, chunk: Chunk)
    requires Accounted(st)
    ensures Step(st, conn, chunk).Emit? ==> Accounted(Step(st, conn, chunk).next)
  {
    match st
    case StreamDownloading(buf, total, downloaded) =>
      var r := Receive(buf, total, downloaded, chunk);
      if r.Emit? && chunk.Bytes? {
        assert |buf + chunk.bytes| == |buf| + |chunk.bytes|;
      }
    case _ =>
  }

  /** The seed after feeding the given chunks to the downloading state one by one, or `None`
      once a step does not emit. */
  function Feed(st: StreamState, chunks: seq<seq<u8>>): Option<StreamState>
    decreases |chunks|
  {
    if |chunks| == 0 then Some(st)
    else match Step(st, ConnectFailed(""), Bytes(chunks[0]))
      case Emit(_, next) => Feed(next, chunks[1..])
      case _ => None
  }

  /** Feeding chunks whose total length fits in a `u64` leaves the downloading state with the
      chunks appended in order and counted. */
  lemma {:induction false} FeedAppends(buf: seq<u8>, total: u64, chunks: seq<seq<u8>>)
    requires |buf| + |Utils.Flatten(chunks)| < U64_LIMIT
    ensures Feed(StreamDownloading(buf, total, |buf|), chunks)
      == Some(StreamDownloading(buf + Utils.Flatten(chunks), total, |buf| + |Utils.Flatten(chunks)|))
    decreases |chunks|
  {
    if |chunks| == 0 {
      assert buf + [] == buf;
    } else {
      var rest := Utils.Flatten(chunks[1..]);
      assert Utils.Flatten(chunks) == chunks[0] + rest;
      var buf' := buf + chunks[0];
      assert Step(StreamDownloading(buf, total, |buf|), ConnectFailed(""), Bytes(chunks[0]))
        == Emit(Advanced(|buf'|, total), StreamDownloading(buf', total, |buf'|));
      FeedAppends(buf', total, chunks[1..]);
      assert buf' + rest == buf + (chunks[0] + rest);
    }
  }

  /** A whole download: after the request reports a content length, the chunks arrive, and
      the body ends, the stream delivers exactly the concatenated chunks, and the window then
      shows `Downloaded` once they are installed. */
  lemma {:induction false} DownloadDelivers(total: u64, chunks: seq<seq<u8>>)
    requires |Utils.Flatten(chunks)| < U64_LIMIT
    ensures Connect(Connected(Some(total), None)) == Emit(Started, StreamDownloading([], total, 0))
    ensures var body := Utils.Flatten(chunks);
      Feed(StreamDownloading([], total, 0), chunks) == Some(StreamDownloading(body, total, |body|))
      && Step(StreamDownloading(body, total, |body|), ConnectFailed(""), EndOfBody)
         == Emit(Finished(Some(body)), StreamFinished)
      && HandleProgress(Finished(Some(body)), Ok(())) == Ok(Downloaded)
  {
    var none: seq<u8> := [];
    FeedAppends(none, total, chunks);
    assert none + Utils.Flatten(chunks) == Utils.Flatten(chunks);
  }

  // ---- Cleaning up old backups ----

  /** One entry of the install directory: its name (`None` when it is not valid Unicode),
      what listing it gives (each inner entry's name, or the error reading it), and what
      removing it would report. */
  datatype DirEntry = DirEntry(
    name: Option<string>,
    listing: Result<seq<Result<string, string>>, string>,
    removal: Result<(), string>)

  /** The `is_expected_tmp_file` closure: an inner entry that could be read and has exactly
      the backup file's name. */
  predicate IsExpectedFile(e: Result<string, string>, expected: string) {
    e.Ok? && e.value == expected
  }

  /** The removal test: the name starts with the backup prefix and every inner entry is the
      backup file (an empty directory passes too). */
  predicate IsBackupDir(name: string, files: seq<Result<string, string>>, prefix: string, expected: string) {
    StartsWith(name, prefix) && forall k :: 0 <= k < |files| ==> IsExpectedFile(files[k], expected)
  }

  /** What the cleanup did: the names of the directories it removed, in order, and how it
      ended. */
  datatype Cleaned = Cleaned(removed: seq<string>, status: Result<(), string>)

  /** `cleanup_backup_temp_directories` over the entries of the install directory (each one
      an error or an entry). Names that are not valid Unicode are skipped; the listing of a
      directory is read only when its name has the prefix; the first error ends the walk. */
  function Cleanup(entries: seq<Result<DirEntry, string>>, prefix: string, expected: string): (r: Cleaned)
    ensures forall k :: 0 <= k < |r.removed| ==> StartsWith(r.removed[k], prefix)
    decreases |entries|
  {
    if |entries| == 0 then Cleaned([], Ok(()))
    else match entries[0]
      case Err(e) => Cleaned([], Err(e))
      case Ok(entry) =>
        match entry.name
        case None => Cleanup(entries[1..], prefix, expected)
        case Some(name) =>
          if !StartsWith(name, prefix) then Cleanup(entries[1..], prefix, expected)
          else match entry.listing
            case Err(e) => Cleaned([], Err(e))
            case Ok(files) =>
              if !(forall k :: 0 <= k < |files| ==> IsExpectedFile(files[k], expected)) then
                Cleanup(entries[1..], prefix, expected)
              else match entry.removal
                case Err(e) => Cleaned([], Err(e))
                case Ok(_) =>
                  var rest := Cleanup(entries[1..], prefix, expected);
                  Cleaned([name] + rest.removed, rest.status)
  }

  /** An entry the walk removes when it gets to it: a readable entry whose name has the
      prefix and whose listing is only the backup file. */
  predicate Removable(e: Result<DirEntry, string>, prefix: string, expected: string) {
    e.Ok? && e.value.name.Some? && e.value.listing.Ok?
    && IsBackupDir(e.value.name.value, e.value.listing.value, prefix, expected)
  }

  /** The names of the removable entries, in order. */
  function BackupNames(entries: seq<Result<DirEntry, string>>, prefix: string, expected: string): seq<string>
    decreases |entries|
  {
    if |entries| == 0 then []
    else (if Removable(entries[0], prefix, expected) then [entries[0].value.name.value] else [])
         + BackupNames(entries[1..], prefix, expected)
  }

  /** When the walk meets no error, it removes exactly the removable entries, in order. */
  lemma {:induction false} CleanupRemovesBackups(entries: seq<Result<DirEntry, string>>, prefix: string, expected: string)
    requires Cleanup(entries, prefix, expected).status.Ok?
    ensures Cleanup(entries, prefix, expected).removed == BackupNames(entries, prefix, expected)
    decreases |entries|
  {
    if |entries| > 0 {
      CleanupRemovesBackups(entries[1..], prefix, expected);
    }
  }
}

=== FILE: utils.dfy ===
/** The small extension traits of `src/utils.rs`: `try_remove`, `list_grammatically`,
    `Tap::tap_if`/`tap_if_some` and `IterExt::none`, with the iterator adaptors
    (`flatten`, `position`, `any`) the handlers lean on. */
module Utils {
  import opened Wrappers
  import opened Strings

  /** `Vec::try_remove(index)`: the removed element and the remaining vector. */
  function TryRemove<T>(v: seq<T>, index: nat): (r: (Option<T>, seq<T>))
    ensures index < |v| <==> r.0.Some?
    ensures r.0.Some? ==> r.0.value == v[index] && |r.1| == |v| - 1
    ensures r.0.Some? ==> forall j :: 0 <= j < index ==> r.1[j] == v[j]
    ensures r.0.Some? ==> forall j :: index <= j < |r.1| ==> r.1[j] == v[j + 1]
    ensures r.0.None? ==> r.1 == v
  {
    if |v| > index then (Some(v[index]), v[..index] + v[index + 1..]) else (None, v)
  }

  /** Putting a removed element back where it was restores the vector. */
  lemma TryRemoveReinsert<T>(v: seq<T>, index: nat)
    requires index < |v|
    ensures var (x, rest) := TryRemove(v, index);
      rest[..index] + [x.value] + rest[index..] == v
  {
    var (x, rest) := TryRemove(v, index);
    assert rest[..index] == v[..index];
    assert rest[index..] == v[index + 1..];
  }

  /** The separator pushed before item `i` of a list whose last index is `last`. */
  function Separator(i: nat, last: nat): string {
    if i == 0 then ""
    else if i == last then (if i == 1 then " and " else ", and ")
    else ", "
  }

  /** The fold's accumulator after the first `n` items. */
  function FoldList(items: seq<string>, last: nat, n: nat): string
    requires n <= |items|
  {
    if n == 0 then "" else FoldList(items, last, n - 1) + Separator(n - 1, last) + items[n - 1]
  }

  /** `list_grammatically`, as the source's enumerate-and-fold computes it. */
  function ListGrammatically(items: seq<string>): (r: string)
    ensures |items| == 0 ==> r == ""
    ensures |items| == 1 ==> r == items[0]
  {
    if |items| == 0 then ""
    else
      assert |items| == 1 ==> FoldList(items, 0, 1) == FoldList(items, 0, 0) + "" + items[0];
      FoldList(items, |items| - 1, |items|)
  }

  /** The English list the fold is meant to produce: "a", "a and b", "a, b, and c". */
  function EnglishList(items: seq<string>): string {
    if |items| == 0 then ""
    else if |items| == 1 then items[0]
    else if |items| == 2 then items[0] + " and " + items[1]
    else Join(items[..|items| - 1], ", ") + ", and " + items[|items| - 1]
  }

  /** Before the last item, the fold is a plain comma-separated join. */
  lemma {:induction false} FoldListIsJoin(items: seq<string>, last: nat, n: nat)
    requires 1 <= n <= last < |items|
    ensures FoldList(items, last, n) == Join(items[..n], ", ")
  {
    if n > 1 {
      FoldListIsJoin(items, last, n - 1);
      assert items[..n] == items[..n - 1] + [items[n - 1]];
      JoinSnoc(items[..n - 1], items[n - 1], ", ");
    }
  }

  lemma ListGrammaticallyIsEnglish(items: seq<string>)
    ensures ListGrammatically(items) == EnglishList(items)
  {
    var n := |items|;
    if n >= 2 {
      assert FoldList(items, n - 1, n) == FoldList(items, n - 1, n - 1) + Separator(n - 1, n - 1) + items[n - 1];
      FoldListIsJoin(items, n - 1, n - 1);
      if n == 2 {
        assert FoldList(items, 1, 1) == FoldList(items, 1, 0) + "" + items[0];
        assert items[..1] == [items[0]];
      }
    }
  }

  /** `Tap::tap_if`: applies `f` only when `condition` holds. */
  function TapIf<S>(self: S, condition: bool, f: S -> S): (r: S)
    ensures !condition ==> r == self
    ensures condition ==> r == f(self)
  {
    if condition then f(self) else self
  }

  /** `Tap::tap_if_some`: applies `f` to the payload when there is one. */
  function TapIfSome<S, T>(self: S, option: Option<T>, f: (S, T) -> S): (r: S)
    ensures option.None? ==> r == self
    ensures option.Some? ==> r == f(self, option.value)
  {
    match option
    case Some(t) => f(self, t)
    case None => self
  }

  /** `Iterator::any`, which stops at the first match. */
  function Any<T>(s: seq<T>, p: T -> bool): (r: bool)
    decreases |s|
  {
    |s| > 0 && (p(s[0]) || Any(s[1..], p))
  }

  /** `IterExt::none`. */
  function NoneSatisfy<T>(s: seq<T>, p: T -> bool): bool {
    !Any(s, p)
  }

  lemma {:induction false} AnyIffExists<T>(s: seq<T>, p: T -> bool)
    ensures Any(s, p) <==> exists i :: 0 <= i < |s| && p(s[i])
    decreases |s|
  {
    if |s| > 0 {
      AnyIffExists(s[1..], p);
      if Any(s[1..], p) {
        var i :| 0 <= i < |s[1..]| && p(s[1..][i]);
        assert p(s[i + 1]);
      }
    }
  }

  /** `none(p)` holds exactly when no element satisfies `p`. */
  lemma NoneIffNoElement<T>(s: seq<T>, p: T -> bool)
    ensures NoneSatisfy(s, p) <==> forall i :: 0 <= i < |s| ==> !p(s[i])
  {
    AnyIffExists(s, p);
  }

  /** `Iterator::position` / `find`: the first index whose element satisfies `p`. */
  function FindIndex<T>(s: seq<T>, p: T -> bool): (r: Option<nat>)
    ensures r.Some? ==> r.value < |s| && p(s[r.value])
    ensures r.Some? ==> forall j :: 0 <= j < r.value ==> !p(s[j])
    ensures r.None? ==> forall j :: 0 <= j < |s| ==> !p(s[j])
    decreases |s|
  {
    if |s| == 0 then None
    else if p(s[0]) then Some(0)
    else match FindIndex(s[1..], p)
      case None => None
      case Some(k) => Some(k + 1)
  }

  /** `Iterator::flatten` over a sequence of sequences. */
  function Flatten<T>(parts: seq<seq<T>>): seq<T>
    decreases |parts|
  {
    if |parts| == 0 then [] else parts[0] + Flatten(parts[1..])
  }

  lemma {:induction false} FlattenEmpty<T>(parts: seq<seq<T>>)
    ensures Flatten(parts) == [] <==> forall k :: 0 <= k < |parts| ==> parts[k] == []
    decreases |parts|
  {
    if |parts| > 0 {
      FlattenEmpty(parts[1..]);
      assert forall k :: 1 <= k < |parts| ==> parts[1..][k - 1] == parts[k];
    }
  }

  /** The first element of a flattening is the head of the first non-empty part. */
  lemma {:induction false} FlattenFirst<T>(parts: seq<seq<T>>, k: nat)
    requires k < |parts| && parts[k] != []
    requires forall j :: 0 <= j < k ==> parts[j] == []
    ensures Flatten(parts) != [] && Flatten(parts)[0] == parts[k][0]
    decreases k
  {
    if k > 0 {
      FlattenFirst(parts[1..], k - 1);
    }
  }

  /** Every element of a flattening comes from some part, and every part's elements occur. */
  lemma {:induction false} FlattenMembership<T>(parts: seq<seq<T>>, x: T)
    ensures x in Flatten(parts) <==> exists k :: 0 <= k < |parts| && x in parts[k]
    decreases |parts|
  {
    if |parts| > 0 {
      FlattenMembership(parts[1..], x);
      assert forall k :: 1 <= k < |parts| ==> parts[1..][k - 1] == parts[k];
      if x in Flatten(parts[1..]) {
        var k :| 0 <= k < |parts[1..]| && x in parts[1..][k];
        assert x in parts[k + 1];
      }
    }
  }

  /** Flattening distributes over concatenation of the outer sequence. */
  lemma {:induction false} FlattenConcat<T>(a: seq<seq<T>>, b: seq<seq<T>>)
    ensures Flatten(a + b) == Flatten(a) + Flatten(b)
    decreases |a|
  {
    if |a| > 0 {
      FlattenConcat(a[1..], b);
      assert (a + b)[1..] == a[1..] + b;
    } else {
      assert a + b == b;
    }
  }

  /** `slice::swap(i, j)`. */
  function Swap<T>(s: seq<T>, i: nat, j: nat): (r: seq<T>)
    requires i < |s| && j < |s|
    ensures |r| == |s| && r[i] == s[j] && r[j] == s[i]
    ensures forall m :: 0 <= m < |s| && m != i && m != j ==> r[m] == s[m]
    ensures multiset(r) == multiset(s)
  {
    s[i := s[j]][j := s[i]]
  }

  /** `enumerate().filter(..).map(index)`: the positions from `from` on whose element
      satisfies `p`, in increasing order. */
  function Positions<T>(s: seq<T>, p: T -> bool, from: nat): (r: seq<nat>)
    requires from <= |s|
    ensures forall i :: 0 <= i < |r| ==> from <= r[i] < |s| && p(s[r[i]])
    ensures forall j :: from <= j < |s| && p(s[j]) ==> j in r
    ensures forall i, j :: 0 <= i < j < |r| ==> r[i] < r[j]
    decreases |s| - from
  {
    if from == |s| then []
    else
      var rest := Positions(s, p, from + 1);
      PositionsStep(s, p, from, rest);
      (if p(s[from]) then [from] else []) + rest
  }

  /** One step of `Positions`: putting `from` in front when it passes keeps the positions
      increasing and complete. */
  lemma PositionsStep<T>(s: seq<T>, p: T -> bool, from: nat, rest: seq<nat>)
    requires from < |s|
    requires forall i :: 0 <= i < |rest| ==> from + 1 <= rest[i] < |s| && p(s[rest[i]])
    requires forall j :: from + 1 <= j < |s| && p(s[j]) ==> j in rest
    requires forall i, j :: 0 <= i < j < |rest| ==> rest[i] < rest[j]
    ensures var r := (if p(s[from]) then [from] else []) + rest;
      (forall i :: 0 <= i < |r| ==> from <= r[i] < |s| && p(s[r[i]]))
      && (forall j :: from <= j < |s| && p(s[j]) ==> j in r)
      && (forall i, j :: 0 <= i < j < |r| ==> r[i] < r[j])
  {
    if p(s[from]) {
      PushedBounds(s, p, from, rest);
      PushedComplete(s, p, from, rest);
      PushedSorted(from, rest);
    } else {
      assert [] + rest == rest;
    }
  }

  lemma PushedBounds<T>(s: seq<T>, p: T -> bool, from: nat, rest: seq<nat>)
    requires from < |s| && p(s[from])
    requires forall i :: 0 <= i < |rest| ==> from + 1 <= rest[i] < |s| && p(s[rest[i]])
    ensures forall i :: 0 <= i < |[from] + rest| ==> from <= ([from] + rest)[i] < |s| && p(s[([from] + rest)[i]])
  {
    var r := [from] + rest;
    forall i | 0 <= i < |r|
      ensures from <= r[i] < |s| && p(s[r[i]])
    {
      if i > 0 {
        assert r[i] == rest[i - 1];
      }
    }
  }

  lemma PushedComplete<T>(s: seq<T>, p: T -> bool, from: nat, rest: seq<nat>)
    requires from < |s|
    requires forall j :: from + 1 <= j < |s| && p(s[j]) ==> j in rest
    ensures forall j :: from <= j < |s| && p(s[j]) ==> j in [from] + rest
  {
    forall j | from <= j < |s| && p(s[j])
      ensures j in [from] + rest
    {
      if j > from {
        assert j in rest;
      }
    }
  }

  lemma PushedSorted(from: nat, rest: seq<nat>)
    requires forall i :: 0 <= i < |rest| ==> from + 1 <= rest[i]
    requires forall i, j :: 0 <= i < j < |rest| ==> rest[i] < rest[j]
    ensures forall i, j :: 0 <= i < j < |[from] + rest| ==> ([from] + rest)[i] < ([from] + rest)[j]
  {
    var r := [from] + rest;
    forall i, j | 0 <= i < j < |r|
      ensures r[i] < r[j]
    {
      assert r[j] == rest[j - 1];
      if i > 0 {
        assert r[i] == rest[i - 1];
      }
    }
  }

  /** `find_map` over the parts from `from` on: the first one that is not empty, or the last
      part when all are. */
  function FirstNonEmpty<T>(parts: seq<seq<T>>, from: nat): (r: nat)
    requires from < |parts|
    ensures from <= r < |parts|
    ensures (exists k :: from <= k < |parts| && parts[k] != []) ==>
      parts[r] != [] && forall j :: from <= j < r ==> parts[j] == []
    decreases |parts| - from
  {
    if parts[from] != [] || from == |parts| - 1 then from else FirstNonEmpty(parts, from + 1)
  }
}

=== FILE: wrappers.dfy ===
/** Option and Result, the shapes the source uses for absent values and fallible returns. */
module Wrappers {

  datatype Option<+T> = None | Some(value: T) {

    /** Rust's `unwrap_or`. */
    function UnwrapOr(default: T): T {
      match this
      case Some(v) => v
      case None => default
    }
  }

  datatype Result<+R, +E> = Ok(value: R) | Err(error: E)

  /** Outcome of an operation that may also panic (a Rust `panic!`, failed `assert_eq!`
      or out-of-order slice), kept apart from ordinary error returns. */
  datatype Outcome<+R, +E> = Done(result: Result<R, E>) | Panic
}
